=== FILE: README.md ===
# A Dafny model of the XPAccApps Notepad core, with clock, chcp and calc rules

This project models the decision logic of the Notepad clone in XPAccApps.
It covers:

- the text codec: encoding detection, the end-of-line census, decoding a
  file's bytes and the line-by-line writer;
- the ten-slot recent-file (MRU) table: add, insertion sort, enumerate, and
  save and load through the INI keys;
- the path shortener, the extension test and the file-time comparison;
- Find / Replace;
- the tab set and the document state machine (FILEMODE), open, new, save
  and close;
- the command line, the file filter and the recent-menu dispatch;
- the settings store: defaults, INI and registry keys, point size and window
  rectangle;
- the older copy of the bookkeeping in `notepad/misc.c`.

It also models three small rules from the other programs:

- the desktop clock's flags, timer, menu and hit test;
- `chcp`'s argument handling and code-page table;
- the trailing-zero trim in calc's `string_number`.

The model is functional throughout. Files are byte sequences (`seq<uint8>`)
and the edit control's text is a sequence of WCHAR units (`seq<uint16>`).
The INI file and the registry are maps. Foreign calls are parameters of the
model, and the user's answers in message boxes are parameters too. Integer
widths are written out where they matter: DWORD sums wrap modulo 2^32,
BYTE fields truncate, and a LONG edge wraps.

Where the code does something its authors evidently did not intend, the
model keeps the code as written in a member named `…AsWritten`. It proves a
lemma that exhibits the discrepancy. It also gives a corrected member with
the intended property proved, and the rest of the model builds on the
corrected member. Both halves are listed under "## Findings".

Files:

| file | module | contents |
|---|---|---|
| win32.dfy | Win32 | integer widths, Option/Result, A-Z case folding |
| decimal.dfy | Decimal | `_itot`, `_wtoi` |
| notepad_types.dfy | NotepadTypes | `ENCODING`, `EOLN`, `FILEMODE`, `EDITINFO` |
| utf8.dfy | Utf8 | UTF-8 per RFC 3629, with U+FFFD replacement |
| text_codec.dfy | TextCodec | AnalyzeEncoding, CountLineEndings, ReadText, WriteOneLine, WriteText |
| codec_roundtrip.dfy | CodecRoundTrip | writer/reader round trips |
| mru.dfy | Mru | the MRU table |
| mru_roundtrip.dfy | MruRoundTrip | save/load round trip of the MRU list |
| file_utils.dfy | FileUtils | ShortenPath, HasFileExtension, FileTimeCompare |
| search.dfy | Search | FindTextAt, Search_FindNext |
| tabs.dfy | Tabs | tabs, TryOpenFile, DIALOG_FileNew, closing |
| dialog_rules.dfy | DialogRules | FILEMODE moves, TrySaveFile, the Save-As hook, GoTo |
| notepad_main.dfy | NotepadMain | HandleCommandLine, the filter, recent-menu ids |
| settings.dfy | Settings | notepad/settings.c |
| legacy_misc.dfy | LegacyMisc | the differing rules of notepad/misc.c |
| clock.dfy | Clock | clock/main.c |
| chcp.dfy | Chcp | chcp/chcp.c |
| calc_trim.dfy | CalcTrim | the trim of calc/theme.c |

## Model

| member | source | states |
|---|---|---|
| NotepadTypes.EncodingOfValue | notepad/notepad.h:35-47 | the `ENCODING` values UTF8=0 … UTF16BE=4 and AUTO=-1 map back to exactly one encoding, and no other value does |
| NotepadTypes.EolnOfValue | notepad/notepad.h:49-56 | the `EOLN` values LF=0, CRLF=1, CR=2 map back to exactly one style |
| NotepadTypes.EolUnits | notepad/file.c:207-208 | the terminator of each style: LF, CR LF, CR |
| TextCodec.AsciiScan | notepad/file.c:45-57 | the scan loop reports "pure ASCII" exactly when every byte is in 1..127 |
| TextCodec.SniffWithoutBom | notepad/file.c:45-63 | without a BOM the result is UTF-16 LE/BE, ANSIOEM or UTF8; UTF8 only for valid UTF-8 that is not pure ASCII, and, when IsTextUnicode says no either way, exactly then |
| TextCodec.AnalyzeEncodingAsWritten | notepad/file.c:20-64 | the BOM tests run only with two or more bytes; EF BB BF gives UTF8 (never UTF8BOM) with BOM length 3; FF FE and FE FF give UTF-16 LE/BE with length 2 |
| TextCodec.AnalyzeEncoding | notepad/file.c:26-43 | the corrected detector: a BOM is reported exactly when the writer's BOM for the detected encoding starts the bytes |
| TextCodec.CountLineEndings | notepad/file.c:67-101 | the loop replaces every NUL with a space and returns the style of the census: CR if bare CRs outnumber LF and CRLF, else CRLF if CRLF pairs outnumber LF and CR, else LF |
| TextCodec.DecodePayload | notepad/file.c:146-182 | UTF-16 always succeeds with (bytes + 1) / 2 units; UTF-8 is decoded per RFC 3629; a non-empty payload never decodes to empty text |
| TextCodec.ReadTextAsWritten | notepad/file.c:109-199 | an empty file gives empty text in ENCODING_DEFAULT, and any empty text leaves the caller's EOL style as it was; other text has the census's style; the text is NUL-free and never UTF8BOM |
| TextCodec.ReadText | notepad/file.c:109-199 | the corrected reader: an empty file gives the default EOL style, the EOL style is always the census of the text returned, and only a failed conversion is an error |
| TextCodec.WriteBufferUse | notepad/file.c:218-254 | the bytes WriteOneLine puts in `WriteBuf`, unchecked: for UTF-16, twice the line plus terminator |
| TextCodec.Utf16LineOverrunsAsWritten | notepad/file.c:221-227 | a 2049-unit UTF-16 line with CR LF needs 4102 bytes of the 4100-byte buffer |
| TextCodec.WriteOneLine | notepad/file.c:205-267 | one line with its terminator: little-endian units, the same swapped for BE, or UTF-8 bytes; never more than `WriteBuf` holds, a UTF-16 line refused exactly when it does not fit, AUTO refused |
| TextCodec.Then | notepad/file.c:283-298 | successive writes stop at the first failure and otherwise concatenate |
| CodecRoundTrip.WriteTextImage | notepad/file.c:270-301 | WriteText emits the BOM, then the text with every CR LF, lone CR and lone LF replaced by the chosen terminator, in order |
| CodecRoundTrip.NormalizeCensus | notepad/file.c:67-101 | a written text's census gives back the chosen style, or LF when the text has no breaks |
| CodecRoundTrip.Utf16RoundTrip | notepad/file.c:109-199 | reading what WriteText wrote in UTF-16 LE or BE gives the normalised text, the same encoding and the chosen EOL style |
| CodecRoundTrip.Utf16LeRoundTripAsWritten | notepad/file.c:149-162 | the reader as written already round-trips UTF-16 LE |
| CodecRoundTrip.Utf16BeFaultsAsWritten | notepad/file.c:128-151 | the reader as written faults on every non-empty file written as UTF-16 BE |
| CodecRoundTrip.Utf8BomRoundTrip | notepad/file.c:270-301 | with the corrected detector, a UTF-8-with-BOM file reads back as the normalised text, still UTF8BOM |
| CodecRoundTrip.ReadUtf8BomAsWritten | notepad/file.c:28-31 | as written, any file starting with EF BB BF reads back as UTF8 |
| CodecRoundTrip.Utf8BomLostAsWritten | notepad/file.c:273 | as written, a UTF8BOM file reads back as UTF8, and saving again writes the same bytes without the BOM |
| Utf8.DecodeEncode | notepad/file.c:168-179 | UTF-8 decoding inverts encoding on text without lone surrogates (RFC 3629) |
| Mru.Init | notepad/file.c:577-588 | a fresh table: all paths empty, all ages 0, `oldest` 0 |
| Mru.Add | notepad/file.c:592-619 | afterwards the path is listed (ignoring case) with the newest age, `youngest` has grown by one, slot indexes never move, and a table a new path could be added to stays so |
| Mru.AddRefreshes | notepad/file.c:595-601 | for a listed path only that entry's age changes |
| Mru.AddReplacesOldest | notepad/file.c:603-617 | a new path overwrites the oldest slot and `oldest` moves to the first lowest age |
| Mru.AddKeepsDistinct | notepad/misc.c:253-279 | adding never lists one path twice (same rule in both copies) |
| Mru.SortSlotsCorrect | notepad/file.c:622-646 | the insertion sort is ascending by age, a permutation, and stable |
| Mru.InsertionSort | notepad/file.c:627-640 | the array insertion sort with its shifting loop computes the functional sort |
| Mru.SortAsWritten | notepad/file.c:622-646 | the slots are sorted, the paths kept, and `oldest` is -1 exactly when all ten slots have been used |
| Mru.SortAsWrittenLosesOldest | notepad/file.c:641-645 | a full table sorted as written has `oldest` -1 |
| Mru.SortAsWrittenThenAdd | notepad/file.c:603-607 | after that sort a listed path can still be added, but a new path would index `MRU[-1]` |
| Mru.Sort | notepad/file.c:622-646 | the corrected sort: sorted, same paths, `oldest` at a lowest age |
| Mru.EnumNewestFirst | notepad/file.c:649-653 | after the sort, `MRU_Enum(n)` is never older than `MRU_Enum(m)` for n < m |
| Mru.Save | notepad/file.c:670-690 | MRU00… hold the non-empty entries newest first, the keys after them are blanked, other keys are untouched |
| Mru.Load | notepad/file.c:656-668 | loading gives a table a new path can be added to |
| MruRoundTrip.SaveLoadRoundTrip | notepad/file.c:656-690 | saving, loading and sorting enumerates the same list in the same order, when the files exist |
| FileUtils.ShortenPath | notepad/file.c:731-741 | a string longer than the limit (0 = 32) becomes exactly the limit: its head, "...", its tail |
| FileUtils.ShortenPathCopyDisjoint | notepad/file.c:737-740 | the in-place tail copy reads after the terminator the first copy writes |
| FileUtils.ShortenPathIdempotent | notepad/file.c:731-741 | shortening again changes nothing |
| FileUtils.ShortenPathKeepsEnds | notepad/misc.c:380-390 | `LimitStrLen` is the same code: the result starts with a prefix of the original and ends with its suffix, the suffix longer than the prefix |
| FileUtils.LastIndexOf | notepad/file.c:756-757 | `_tcsrchr`: the last occurrence, or -1 |
| FileUtils.HasFileExtensionMeaning | notepad/file.c:753-761 | a name has an extension exactly when some '.' has no backslash after it |
| FileUtils.FileTimeCompareAsWritten | notepad/file.c:764-771 | different high words give non-zero; equal high words give 0 exactly when the low difference mod 2^32 is under 1,000,000 ticks |
| FileUtils.FileTimeSlackOneSided | notepad/file.c:768-770 | one tick earlier counts as changed, one tick later does not |
| FileUtils.FileTimeCompare | notepad/file.c:764-771 | the corrected comparison: 0 within 0.1 s either way, else the sign of the difference |
| FileUtils.FileTimeCompareAntisymmetric | notepad/file.c:764-771 | swapping the arguments negates the corrected result |
| Search.WholeWordRefines | notepad/file.c:511-523 | the whole-word test only removes matches: a whole-word match is a plain match |
| Search.IgnoreCaseWithoutLetters | notepad/file.c:506-509 | for a target without A-Z or a-z, `_tcsncmp` and `_tcsnicmp` decide alike |
| Search.EmptyTargetMatches | notepad/file.c:493-526 | an empty target matches at every position of a non-empty text unless whole word is set |
| Search.MatchCaseRefines | notepad/file.c:504-510 | a case-sensitive match is also a case-insensitive one |
| Search.FindDown | notepad/file.c:423-434 | the loop returns the first match at or after the selection's end |
| Search.FindUp | notepad/file.c:435-446 | the loop returns the last match before the selection's start |
| Search.Splice | notepad/file.c:414-420 | EM_REPLACESEL: the selection gives way to the replacement, the rest unchanged |
| Search.FindNextAsWritten | notepad/file.c:390-456 | replace when the selection matches, then scan the text fetched before the replacement; a match past the old start is moved by the length change |
| Search.FindNextAsWrittenScansOldText | notepad/file.c:423-446 | down finds the first match from the old end, up the last before the old start, in the old text |
| Search.FindNextAlertAsWritten | notepad/file.c:457-485 | the step succeeds only when its own scan found the target; with the alert and Retry it searches again from the wrap point |
| Search.RetryDownWraps | notepad/file.c:467-473 | Retry on a downward search ends at the first match of the whole text, or the caret at 0 |
| Search.RetryUpWraps | notepad/file.c:474-480 | Retry on an upward search with other flags set ends at the last match of the whole text, or the caret at the end |
| Search.FindNext | notepad/file.c:390-456 | the corrected step scans the text after the replacement, and a found selection is exactly the match |
| Search.FindNextSelectsMatch | notepad/file.c:448-453 | after the corrected step, the selection holds the target |
| Search.FindNextAgreesWithoutReplace | notepad/file.c:423-456 | without a replacement both steps agree |
| Tabs.AddNewEditTab | notepad/dialog.c:314-348 | refused with nine tabs, changing nothing; otherwise a new empty tab is appended and selected |
| Tabs.SelectTab | notepad/dialog.c:396-431 | selecting a tab restores the globals from its EDITINFO |
| Tabs.CloseTab | notepad/dialog.c:434-453 | the selected tab is removed and the count returned; the selection stays at its index, or moves back when the last tab was removed |
| Tabs.FindDupPathTab | notepad/dialog.c:477-499 | the first tab whose path equals the name ignoring case, or none |
| Tabs.FindDupIgnoresCase | notepad/dialog.c:485-490 | spellings that differ only in A-Z case find the same tab |
| Tabs.TryOpenFileAsWritten | notepad/dialog.c:518-593 | with nine tabs, a file that needs a new tab is loaded into the selected one instead; in every other case it does what the corrected open does |
| Tabs.TryOpenFile | notepad/dialog.c:518-593 | nothing for no name; an unedited duplicate is only selected; untitled or OUTDATE/CLASH duplicate: the selected tab is loaded; otherwise a new tab is appended and loaded, or nothing changes at nine tabs; a loaded tab holds the name and the file's text, unmodified |
| Tabs.OpenInNewTab | notepad/dialog.c:560-565 | the existing tabs stay, the new tab is selected and holds the name and the file's text; refused at nine tabs |
| Tabs.TryOpenFileTouchesOnlyTarget | notepad/dialog.c:537-565 | the corrected open changes no existing tab except the one it chose to reuse |
| Tabs.ReopenFindsDuplicate | notepad/dialog.c:537-545 | once a path is open, opening it again finds its tab |
| Tabs.OpenAtTabLimitOverwrites | notepad/dialog.c:560-565 | at nine tabs the as-written open replaces an edited document |
| Tabs.FileNewAsWritten | notepad/dialog.c:598-611 | DIALOG_FileNew: the globals take CRLF and ENCODING_DEFAULT, and the previous file name stays |
| Tabs.FileNew | notepad/dialog.c:598-611 | the corrected new document: nothing at nine tabs, otherwise a new untitled tab selected |
| Tabs.FileNewKeepsStaleName | notepad/dialog.c:602-606 | as written, a new document after opening "a" is saved to "a" |
| Tabs.AskToClose | notepad/dialog.c:827-849 | the prompt agrees exactly when the tab is unmodified, or No, or Yes with a successful save; no other tab changes; after Yes the name, encoding and EOL are what the save left, and a save that worked makes the tab NORMAL and unmodified |
| Tabs.DoCloseFile | notepad/dialog.c:827-858 | a close goes ahead exactly when the prompt agrees, and then removes the selected tab, with WM_CLOSE when no tab is left; a refused Yes keeps the tabs and the selection but carries the name, encoding and EOL the failed save left (the empty name after a failed write in the corrected model, where "Untitled" is stored as written; the Save-As choice otherwise); a close that goes ahead clears the name |
| Tabs.RefusedCloseDropsName | notepad/dialog.c:702-711 | Yes on a named, modified tab whose write fails refuses the close (DoCloseFile returns FALSE at line 839); with the corrected `SetFileName` the document is left with the empty name, so the next save asks for one |
| Tabs.CloseAll | notepad/dialog.c:861-872 | the tabs left are a suffix of the original ones (the first tab is closed each round), and the result is TRUE exactly when none are left; a refusal leaves the refusing tab selected |
| Tabs.CloseAllSucceeds | notepad/dialog.c:861-872 | closing everything succeeds exactly when every tab's answer agrees |
| DialogRules.CaptionUpdate | notepad/dialog.c:177-197 | a NORMAL tab with a fresh edit becomes EDITING; a clearing refresh resets the remembered flag |
| DialogRules.CaptionUpdateSettles | notepad/dialog.c:171-208 | a second refresh changes nothing |
| DialogRules.CheckFileModeChange | notepad/dialog.c:887-917 | reload exactly for a titled file whose time differs while unmodified; unreadable attributes turn CLASH into EDITING and READONLY into NORMAL |
| DialogRules.OpenMode | notepad/file.c:325-330 | a read-only, hidden or system file opens READONLY, any other NORMAL |
| DialogRules.OutdateNeverEntered | notepad/dialog.c:545-548 | no transition enters OUTDATE |
| DialogRules.ProbeLength | notepad/dialog.c:677-678 | GetWindowTextW copies one unit less than the count it is given |
| DialogRules.SaveGuardAsWritten | notepad/dialog.c:662-699 | refused for READONLY or empty text; ANSI text is probed with CP_OEMCP over all but its last unit, and an empty probe refuses |
| DialogRules.SaveGuard | notepad/dialog.c:662-699 | the corrected guard probes the whole text with the writer's code page; Retry goes to Save-As, Abort refuses, Ignore proceeds |
| DialogRules.SaveGuardsAgree | notepad/dialog.c:675-698 | when the last unit does not change the loss, both guards decide alike |
| DialogRules.SaveProbeMisses | notepad/dialog.c:677-688 | a one-character ANSI text is refused, and a loss in the last character is missed |
| DialogRules.StoredName | notepad/dialog.c:504-516 | SetFileName stores a non-empty name as it is; an empty one becomes the fallback, "Untitled" as written and the empty name once corrected |
| DialogRules.TrySaveFile | notepad/dialog.c:662-719 | success exactly when the pass that ends the save writes the file: the tab is NORMAL under the last name chosen; a failed write stores what SetFileName stores for an empty name ("Untitled" as written); a refusal or a cancelled Save-As leaves both; the encoding and EOL are those of the last Save-As pick, else unchanged |
| DialogRules.FileSave | notepad/dialog.c:723-731 | with no name the save starts with the Save-As dialog, otherwise with TrySaveFile; it succeeds exactly when a name is available and the ending pass writes; only success makes the tab NORMAL |
| DialogRules.FailedWriteDropsName | notepad/dialog.c:702-711 | as written, saving a named file whose write fails returns FALSE, stores "Untitled" as the file name, and keeps the mode, encoding and EOL |
| DialogRules.SaveAfterFailureSkipsDialogAsWritten | notepad/dialog.c:702-711 | as written, the save after a failed write finds "Untitled", skips the Save-As dialog (line 725) and writes a file of that name, whatever the dialog would have given |
| DialogRules.SaveAfterFailureAsks | notepad/dialog.c:723-731 | corrected, a failed write leaves the empty name, so the next save opens Save-As: cancelled, nothing is written; a name picked and a write that works save under that name |
| DialogRules.SaveAsThenWrite | notepad/dialog.c:783-820 | Retry, a name picked and a write that works save the file NORMAL under that name, with the encoding and EOL picked in the dialog |
| DialogRules.EncodingItems | notepad/dialog.c:750-758 | the encoding combobox offers UTF-16 BE only when it is current, and item k has value k |
| DialogRules.EolnItems | notepad/dialog.c:759-762 | the EOL combobox offers CR only when it is current |
| DialogRules.ChosenEncoding | notepad/dialog.c:768-774 | the selected index is stored as the encoding, no selection as AUTO |
| DialogRules.SaveAsHookKeepsCurrent | notepad/dialog.c:750-774 | accepting the dialog untouched keeps the current encoding and EOL |
| DialogRules.GoToTarget | notepad/dialog.c:1120-1128 | line 0 goes to 0, a line past the last to the end, other lines to their start |
| DialogRules.GoToAcceptedLine | notepad/dialog.c:1075-1128 | an accepted line number is a line of the text, so the caret goes to its start |
| NotepadMain.ApplyOption | notepad/main.c:335-344 | p sets printing; v and r set read-only, ignoring case; other letters change nothing |
| NotepadMain.ParseOptions | notepad/main.c:325-345 | the options of the leading blanks and switches, and a rest that starts with none of blank, '-', '/' |
| NotepadMain.ParseFormatRoundTrip | notepad/main.c:325-345 | parsing a line written from options and a name gives both back |
| NotepadMain.ParseOptionsStops | notepad/main.c:325-345 | the rest holds no further options |
| NotepadMain.StripQuotes | notepad/main.c:354-358 | a leading quote goes with the last character, whatever it is |
| NotepadMain.StripQuotesRoundTrip | notepad/main.c:354-358 | a quoted name comes back unquoted |
| NotepadMain.TxtCandidateAsWritten | notepad/main.c:374-378 | the `.txt` retry is defined only for names under 255 characters |
| NotepadMain.TxtCandidate | notepad/main.c:374-378 | the corrected retry: at most 255 characters of the name, then `.txt`, within MAX_PATH |
| NotepadMain.TxtCandidateHasExtension | notepad/main.c:365-378 | the retry name always has an extension |
| NotepadMain.TxtTailIsExtension | notepad/main.c:370 | a name ending in `.txt` has a dot in its last component |
| NotepadMain.ResolveName | notepad/main.c:360-381 | an existing name is used as is; the only other name tried is the `.txt` retry of a name without an extension; a name is reported found only when it exists |
| NotepadMain.HandleName | notepad/main.c:347-413 | returns FALSE exactly when an existing file is opened under /p; no name means no action; an existing name is opened by its full path |
| NotepadMain.HandleCommandLine | notepad/main.c:319-414 | the options of the line, then the name rule |
| NotepadMain.ReadOnlyHasNoEffect | notepad/main.c:395-397 | /r changes nothing but its own flag |
| NotepadMain.SeparateFilter | notepad/main.c:112-116 | every LF and '$' of the filter becomes a NUL, other characters stay |
| NotepadMain.SeparateJoinRoundTrip | notepad/main.c:112-116 | a '$'-separated filter is recovered from its separated form |
| NotepadMain.RecentMenuId | notepad/file.c:710-723 | entry ii of the recent list gets command id MENU_RECENT1 + ii |
| NotepadMain.RecentCommandAsWritten | notepad/main.c:66-71 | ids MENU_RECENT1..MENU_RECENT9 dispatch to the first nine entries only |
| NotepadMain.RecentCommand | notepad/dialog.c:644-648 | the corrected dispatch accepts the id of every entry |
| NotepadMain.RecentCommandInverse | notepad/dialog.c:644-648 | each entry's id opens that entry, and both dispatches agree on the first nine |
| Settings.KeyOfSavedFrom | notepad/settings.c:328-360 | every key is written from exactly one field |
| Settings.Defaults | notepad/settings.c:60-72 | status bar on, wrap off, margins 750/1000/750/1000, default charset, normal weight, FIXED_PITCH, FF_MODERN, 10 points, extents min(cx/3, 700) by min(3cy/4, 1000) at CW_USEDEFAULT |
| Settings.DefaultExtents | notepad/settings.c:60-62 | the startup extents in DWORD arithmetic |
| Settings.StoreWritten | notepad/settings.c:328-360 | a field written to either store and assigned back is unchanged |
| Settings.LoadIniAsWritten | notepad/settings.c:262-317 | every field is read from its own key except that `lfUnderline` is read into `lfStrikeOut` |
| Settings.LoadIni | notepad/settings.c:262-317 | every field read from the key it is saved under |
| Settings.IniRoundTrip | notepad/settings.c:262-366 | saving to the profile and loading back restores every field |
| Settings.IniUnderlineAsWritten | notepad/settings.c:285-286 | as written the strike-out flag returns the underline, the underline is not read, and every other field returns |
| Settings.UnderlinedFontComesBackStruckOut | notepad/settings.c:285-286 | an underlined font comes back struck out |
| Settings.MissingWrapTurnsWrapOn | notepad/settings.c:276-310 | a store without `fWrap` turns wrapping on |
| Settings.LoadRegistryAsWritten | notepad/settings.c:85-128 | the registry load, with `dx` and `dy` read from `iPointSize` |
| Settings.LoadRegistry | notepad/settings.c:85-128 | the registry load with the extents from `iWindowPosDX` / `iWindowPosDY` |
| Settings.RegistryRoundTrip | notepad/settings.c:85-237 | saving to the registry and loading back restores every field |
| Settings.RegistryExtentsAsWritten | notepad/settings.c:117-120 | as written the window comes back as wide and as tall as the point size |
| Settings.MulDiv | notepad/settings.c:138 | -1 for a zero divisor, and the result fits an int |
| Settings.MulDivNearest | notepad/settings.c:138 | for non-negative operands MulDiv rounds to the nearest integer |
| Settings.RoundPointSize | notepad/settings.c:190-192 | the save-time rounding in DWORD arithmetic |
| Settings.RoundPointSizeNearest | notepad/settings.c:192 | below the wrap, the result is a multiple of ten within 5, halves going up |
| Settings.RoundPointSizeNearTop | notepad/settings.c:192 | the five values below 2^32 wrap round to 0 |
| Settings.PointSizeRoundTrip | notepad/settings.c:138-192 | a whole point size survives the font height and back at 96 dpi or more |
| Settings.Apply | notepad/settings.c:136-152 | right and bottom as position plus extent mod 2^32, pitch 0 for Chinese, Japanese and Korean; the font height is pinned by Settings.ApplyCaptureRoundTrip, not here |
| Settings.ApplyCaptureRoundTrip | notepad/settings.c:136-192 | running with loaded settings and capturing them gives the same settings, with pitch 0 for the Far East |
| LegacyMisc.SaveNoBlank | notepad/misc.c:330-343 | the older MRU_Save writes the entries newest first and leaves later keys as they were |
| LegacyMisc.SaveNoBlankAgainstLive | notepad/misc.c:330-343 | the two saves differ only past the saved entries |
| LegacyMisc.SaveNoBlankRoundTrip | notepad/misc.c:318-343 | a list that did not shrink still round-trips |
| LegacyMisc.SaveNoBlankKeepsStale | notepad/misc.c:330-343 | after a shorter list, the older entries stay in the keys |
| LegacyMisc.AskRound | notepad/misc.c:195-198 | one round selects tab i and asks; it agrees exactly when that tab agrees with its answer, and no tab is removed |
| LegacyMisc.AskFrom | notepad/misc.c:193-200 | the rounds from tab i down to 0 keep every tab open with its path and text, leave the tabs after i alone, and end on tab 0 when all agree |
| LegacyMisc.AskFromSucceeds | notepad/misc.c:193-200 | the rounds from tab i down succeed exactly when each of tabs 0..i agrees with its round's answer |
| LegacyMisc.CloseAllFromLast | notepad/misc.c:190-201 | the older DoCloseAllFiles asks from the last tab and, with a DoCloseFile that only asks, leaves every tab open; when all agree tab 0 is selected |
| LegacyMisc.CloseAllFromLastSucceeds | notepad/misc.c:190-201 | it returns TRUE exactly when each tab agrees with its round's answer, the last tab taking the first answer |
| LegacyMisc.FileClose | notepad/misc.c:204-221 | a refused close keeps the tabs and the selection; otherwise the tab goes, WM_CLOSE when none remain, else the same index or the previous one |
| LegacyMisc.FileCloseMatchesLive | notepad/misc.c:204-221 | it removes the same tab and quits in the same cases as the live DoCloseFile, and while a tab remains ends in the same session |
| Clock.EncodeFlags | clock/main.c:511-535 | one bit per option: analog 0x1, on-top 0x2, no-title 0x4, seconds 0x8, 24h 0x10, dark 0x20 |
| Clock.DecodeEncode | clock/main.c:484-535 | every option comes back from the profile as saved |
| Clock.EncodeDecode | clock/main.c:484-535 | saving what was loaded keeps the six bits and clears the rest |
| Clock.DefaultFlagsOnlyTwentyFour | clock/main.c:497-503 | the missing-key default 0x10 sets only 24-hour |
| Clock.Period | clock/main.c:114-134 | 1000 ms without seconds, 500 digital with seconds, 250 analog with seconds |
| Clock.ResetTimer | clock/main.c:114-134 | a successful reset leaves the timer at the period the options call for |
| Clock.StartAsWritten | clock/main.c:393-453 | the timer is set for the built-in options before the profile's are loaded |
| Clock.StartAsWrittenIgnoresLoadedFlags | clock/main.c:427-431 | a saved digital clock without seconds ticks every 250 ms |
| Clock.Start | clock/main.c:393-453 | the corrected start resets the timer after loading |
| Clock.StartsAgreeOnFlags | clock/main.c:427-431 | both starts agree on the options |
| Clock.TickRedrawsMeaning | clock/main.c:333-361 | without seconds, a tick redraws exactly when the minute changed or two seconds remain |
| Clock.NewMinuteRedraws | clock/main.c:355-361 | a changed minute is never left on screen past the next tick |
| Clock.MenuCommand | clock/main.c:228-304 | analog/digital set `bAnalog` and reset the timer; each toggle flips only its own option; Exit posts WM_CLOSE |
| Clock.MenuCommandKeepsTimerAgreeing | clock/main.c:228-304 | no command leaves the timer at a wrong period |
| Clock.ToggleTwiceRestores | clock/main.c:251-289 | a toggle given twice restores the options |
| Clock.MenuMarksShowFlags | clock/main.c:195-222 | each mark shows its option, and 24-hour is enabled only on the digital clock |
| Clock.GetYOfMake | clock/main.c:184-192 | the y coordinate packed by MAKELPARAM comes back as a signed short |
| Clock.ClientPoint | clock/main.c:184-192 | the client point as an LPARAM inside the client area, else 0; inside, the low word is x and the y read back is y |
| Clock.HitTestDragsNearTop | clock/main.c:317-324 | a client hit drags exactly without title bar and with y under 100 |
| Clock.HitTestKeepsNonClient | clock/main.c:317-324 | every other hit is kept |
| Clock.ContextMenuMissesCorner | clock/main.c:371-378 | a right click at client (0, 0) opens no menu |
| Clock.ContextMenuAgreesOffCorner | clock/main.c:371-378 | the written and the intended rule agree off that corner |
| Chcp.Lookup | chcp/chcp.c:91-100 | the case-insensitive table scan from entry i: a page it returns belongs to an entry at or after i |
| Chcp.LookupMeaning | chcp/chcp.c:91-100 | the lookup finds a page exactly when some entry matches, and then the first match's |
| Chcp.Resolve | chcp/chcp.c:87-103 | a non-zero `_wtoi` value, else the first name match, else none |
| Chcp.NumberSelectsPage | chcp/chcp.c:87 | a page number written in decimal is read back by `_wtoi` and selected, whatever the table holds |
| Chcp.AliasesSharePage | chcp/chcp.c:31-56 | "korea" and "euc-kr" are both 949 |
| Chcp.Iso88599AsWritten | chcp/chcp.c:52-53 | "iso-8859-9" and "iso-8859-8" both select 28598 |
| Chcp.Iso88599Corrected | chcp/chcp.c:53 | with the corrected table "iso-8859-9" selects 28599 |
| Chcp.IsoPagesDistinct | chcp/chcp.c:44-56 | in the corrected table each ISO 8859 name has its own page |
| Chcp.Run | chcp/chcp.c:59-142 | "/?" first prints help and exits 0; no argument prints the active page; a second argument is an invalid parameter, exit 1; an unknown page exits 1; a change sets both pages |
| Chcp.FailedChangeRestores | chcp/chcp.c:113-141 | a failed output change restores the input page and exits 1 |
| Chcp.ConsoleChangesOnlyOnSuccess | chcp/chcp.c:59-142 | only a successful change alters the console |
| CalcTrim.TrimAsWritten | calc/theme.c:169-174 | the result is a prefix ending at the last character that is neither blank nor '0' |
| CalcTrim.TrimAsWrittenMaximal | calc/theme.c:169-174 | the walk removes the longest trailing run of blanks and zeros |
| CalcTrim.ZeroWalksOffTheBuffer | calc/theme.c:160-172 | a zero in decimal has no stopping character, so the walk leaves the buffer |
| CalcTrim.SignificantZerosAsWritten | calc/theme.c:166-172 | "0x100" becomes "0x1" and "1e+20" becomes "1e+2" |
| CalcTrim.Trim | calc/theme.c:169-174 | the corrected trim drops the blanks, and zeros only from a fraction, never past the radix point |
| CalcTrim.TrimAgreesOnFractions | calc/theme.c:169-174 | on a number ending in a fraction both trims cut at the same place |
| CalcTrim.TrimZeroValue | calc/theme.c:160-172 | the corrected trim leaves zero as "0" |
| CalcTrim.TrimKeepsSignificantZeros | calc/theme.c:166-172 | the corrected trim keeps "0x100" and "1e+20" |

## Left out

- TextCodec.ReadTextAsWritten: the in-place `_swab` into a PAGE_READONLY view is an access violation that ends the process. The model returns `Err(ReadOnlyViewWritten)` instead, because a crash has no value to model.
- TextCodec.WriteOneLine: the source copies an over-long UTF-16 line past `WriteBuf` unchecked, and can append the 8-bit terminator past it. The model refuses such a line with `Err(LineTooLong)`. The overrun itself is stated by `WriteBufferUse` and `Utf16LineOverrunsAsWritten`.
- Mru.Add: `StringCchCopy(…, MAX_PATH, newpath)` truncates paths of 260 characters or more; the model keeps the whole path.
- Mru.Load: the model reads stored names whole. `MRU_Load` reads them through `ReadIniString`, whose body is not part of this model, so its buffer size is unknown.
- NotepadMain.ResolveName: for names of 255 characters or more it uses the corrected `TxtCandidate`. As written, the `_tcsncpy` copy is unterminated and the result is undefined (`TxtCandidateAsWritten` is None there), so there is no value to carry forward.
- Search.FindNextAlertAsWritten: requires `StepFits` (the edit control's length is an `int`). `Flags & ~FR_DOWN` is the parameter `others`, and the Retry/Cancel answers are a parameter list.
- Settings.PointSizeRoundTrip: proved for point sizes up to 10000 points and 96 to 4800 dpi, not for every DWORD.
- `ReplaceAll` (notepad/file.c:529-539) repeats the Replace step until it fails; each iteration is `Search.FindNextAlertAsWritten` with `replace` set, but the repetition itself is not modelled because it has no bound the model can state. `EventSearchReplace` is only the dispatch to these.
- `DoOpenFile` and `DoSaveFile`: file handles, mapping and `WriteFile` are I/O. Their decoding and encoding are `ReadText` and `WriteText`; the open/save outcome is a parameter of the tab and save models.
- `IsTextUnicode`, `MultiByteToWideChar` / `WideCharToMultiByte` for CP_ACP and CP_OEMCP, and `_istalnum` are parameters. `_tcsnicmp` and `_wcsicmp` fold A-Z only, as in the "C" locale.
- Tabs.AskToClose: after a save that works, the new file time, the `MRU_Add` call, the tab header and the caption are not modelled; the result states the mode, the modified flag, the name, the encoding and the EOL.
- LegacyMisc.SaveNoBlankRoundTrip: it reads back with the live `MRU_Load`, which runs `MRU_Init` first. The older `MRU_Load` (notepad/misc.c:318-328) never calls `MRU_Init`, so it depends on a table that starts empty; that starting state is not modelled.
- LegacyMisc.AskRound: the older copy calls a `DoCloseFile` whose body is not part of this model. Since its `DIALOG_FileClose` deletes the tab itself, it is taken as the prompt-and-save part of the live one (`Tabs.AskToClose`). So the older `DoCloseAllFiles` returns TRUE with every tab still open.
- Tabs.TryOpenFile: the `MRU_Add` call after a successful open is not chained into the tab model; it is `Mru.Add` on its own.
- The `.LOG` time stamp, `DIALOG_EditTimeDate`, printing, fonts, the status bar, captions, tab headers and window layout are UI plumbing.
- `UpdateMenuRecentList`: the menu labels and their shortening are not modelled beyond the command ids.
- The settings' strings (headers, footers, filters read with `LoadString`) are not modelled; only the integer keys are.
- The model assumes the signed text `_itot_s` writes is parsed back exactly by `GetPrivateProfileInt`; non-numeric values are not modelled.
- The fallback of the profile load when the INI file is missing, and the registry key failing to open on save, are not modelled.
- `CreateFontIndirect` and the font handle are left out.
- NotepadMain.TailIsTxt: with fewer than four characters before the name's end the C code reads before the argument string; the model counts that as no match.
- The `#if 0` blocks (notepad/file.c:774-938, clock/main.c:541-585) and the orphaned fragment at clock/main.c:39-57 are dead code. `chcp/main.c` returns before its lookup.
- Clock: the BOOL values `LoadSettings` stores are the bits themselves (1, 2, 4, …); only their truth is modelled. Drawing (`clock/winclock.c`) uses floating point and is left out, as are the window position keys.
- chcp: console output is the `Message` result; `_wcsicmp` folds A-Z only.
- calc: the `swprintf_s` float formatting of `string_number` is floating point; the model starts from the formatted buffer.

## Findings

| source | as written | input that shows it | evidently intended | confidence | as-written member | corrected member |
|---|---|---|---|---|---|---|
| notepad/file.c:641-645 | `MRU_Sort` sets `oldest` to the last age-0 slot, -1 when all ten are used | ten used slots, sorted, then a new path: `MRU[-1]` is written | `oldest` at the lowest age | not executed | Mru.SortAsWritten, Mru.SortAsWrittenThenAdd | Mru.Sort |
| notepad/settings.c:286 | `LOADSETTINGINT("lfUnderline", lfFont.lfStrikeOut, 0)` | an underlined font, saved to the INI and loaded | read into `lfUnderline` | not executed | Settings.LoadIniAsWritten, Settings.UnderlinedFontComesBackStruckOut | Settings.LoadIni, Settings.IniRoundTrip |
| notepad/settings.c:119-120 | `dx` and `dy` read from `iPointSize` | a 10-point font gives a 100 by 100 window | `iWindowPosDX` / `iWindowPosDY` | not executed | Settings.LoadRegistryAsWritten, Settings.RegistryExtentsAsWritten | Settings.LoadRegistry, Settings.RegistryRoundTrip |
| notepad/dialog.c:504-509 | `SetFileName(NULSTR)` loads "Untitled" into `szFileName` itself, which `DIALOG_FileSave` then takes for a real name | "a.txt" whose write fails (line 709), then Save again: "Untitled" is written without the Save-As dialog | the empty name stays empty (only the title reads "Untitled", as `DIALOG_FileNew` at line 600 does), so the next save asks | not executed | DialogRules.FailedWriteDropsName, DialogRules.SaveAfterFailureSkipsDialogAsWritten | DialogRules.SaveAfterFailureAsks, Tabs.RefusedCloseDropsName |
| notepad/file.c:28-31 | a UTF-8 BOM is reported as `ENCODING_UTF8` | a UTF8BOM file read and saved loses its BOM | `ENCODING_UTF8BOM` | not executed | TextCodec.AnalyzeEncodingAsWritten, CodecRoundTrip.Utf8BomLostAsWritten | TextCodec.AnalyzeEncoding, CodecRoundTrip.Utf8BomRoundTrip |
| notepad/file.c:221-227 | the UTF-16 line is copied into `WriteBuf` unchecked | a 2049-unit line with CR LF: 4102 bytes into 4100 | write in pieces or refuse | not executed | TextCodec.WriteBufferUse, TextCodec.Utf16LineOverrunsAsWritten | TextCodec.WriteOneLine |
| notepad/file.c:768-770 | the slack applies only when the disk time is not earlier | high words equal, disk low one tick below the stored one | 0.1 s either way | not executed | FileUtils.FileTimeCompareAsWritten, FileUtils.FileTimeSlackOneSided | FileUtils.FileTimeCompare, FileUtils.FileTimeCompareAntisymmetric |
| notepad/file.c:125-126, 143-144 | the empty-file path never writes `*piEoln` | open an empty file after a CR file: CR is kept | the default EOL style | not executed | TextCodec.ReadTextAsWritten | TextCodec.ReadText |
| notepad/dialog.c:560-565 | `AddNewEditTab()`'s FALSE is ignored | nine tabs, an edited one selected, open another file | refuse the open | not executed | Tabs.TryOpenFileAsWritten, Tabs.OpenAtTabLimitOverwrites | Tabs.TryOpenFile, Tabs.TryOpenFileTouchesOnlyTarget |
| notepad/dialog.c:677-688 | the OEM probe skips the last unit and an empty probe refuses | ANSI text "a" cannot be saved; "a中" passes the probe | probe the whole text with the writer's CP_ACP | not executed | DialogRules.SaveGuardAsWritten, DialogRules.SaveProbeMisses | DialogRules.SaveGuard, DialogRules.SaveGuardsAgree |
| chcp/chcp.c:53 | "iso-8859-9" maps to 28598 | `chcp iso-8859-9` selects Hebrew | 28599 (Turkish) | not executed | Chcp.CP_TABLE_AS_WRITTEN, Chcp.Iso88599AsWritten | Chcp.CP_TABLE, Chcp.Iso88599Corrected |
| calc/theme.c:170-172 | the walk passes every blank and '0' | memory 0 in decimal ("0" + 29 blanks) walks before the buffer; "0x100" becomes "0x1" | stop at the radix point, keep one digit | not executed | CalcTrim.TrimAsWritten, CalcTrim.ZeroWalksOffTheBuffer, CalcTrim.SignificantZerosAsWritten | CalcTrim.Trim, CalcTrim.TrimZeroValue, CalcTrim.TrimKeepsSignificantZeros |
| notepad/file.c:149-151 | `_swab` in place in a PAGE_READONLY view | any non-empty UTF-16 BE file | swap a copy | not executed | CodecRoundTrip.Utf16BeFaultsAsWritten | TextCodec.ReadText, CodecRoundTrip.Utf16RoundTrip |
| notepad/dialog.c:598-611 | DIALOG_FileNew keeps `Globals.szFileName` | open "a", New, Save: the empty text goes to "a" | an untitled name | not executed | Tabs.FileNewAsWritten, Tabs.FileNewKeepsStaleName | Tabs.FileNew, Tabs.FileNewCoherent |
| notepad/file.c:423-453 | after a replacement the scan runs over the old text | "aaa", "aa" at 1..3 replaced by "b", searching up: 0..2 of "ab" is selected | scan the new text | not executed | Search.FindNextAsWritten, Search.FindUpAfterReplaceSelectsStale | Search.FindNext, Search.FindNextSelectsMatch |
| notepad/main.c:376-377 | `_tcsncpy` of 255 characters leaves `buf` unterminated | a missing 255-character name without an extension | terminate, then append `.txt` | not executed | NotepadMain.TxtCandidateAsWritten, NotepadMain.TxtCandidateUnterminated | NotepadMain.TxtCandidate, NotepadMain.TxtCandidateAgrees |
| notepad/main.c:68 | ids MENU_RECENT1..MENU_RECENT9 | the tenth recent entry (id 0x14A) does nothing | all ten ids | not executed | NotepadMain.RecentCommandAsWritten, NotepadMain.TenthRecentIgnored | NotepadMain.RecentCommand, NotepadMain.RecentCommandInverse |
| clock/main.c:373 | the menu opens when `ClientPoint(…) > 0` | a right click at client (0, 0) | any client point | not executed | Clock.ContextMenuAsWritten, Clock.ContextMenuMissesCorner | Clock.ContextMenu, Clock.ContextMenuAgreesOffCorner |
| clock/main.c:427-431 | the timer is set before `LoadSettings` | a saved digital clock without seconds ticks every 250 ms | reset the timer after loading | not executed | Clock.StartAsWritten, Clock.StartAsWrittenIgnoresLoadedFlags | Clock.Start, Clock.StartsAgreeOnFlags |

=== FILE: calc_trim.dfy ===
/**
 * The end of calc's `string_number` (`calc/theme.c`), which formats the
 * memory value for its tooltip: after `swprintf_s` has written the number
 * (`"%-35.15f"` or `"%-30.15g"` for decimal, `"0x%-llx"` for hexadecimal,
 * all left-aligned and padded with blanks), a pointer walks back from the
 * last character over blanks and `'0'`s, the buffer is cut after the first
 * other character, and the new length is returned.
 */
module CalcTrim {
  import opened Win32
  import Decimal

  /** The characters the backward walk passes over. */
  predicate Trimmable(c: char)
  {
    c == ' ' || c == '0'
  }

  /** Some character of `s` stops the walk; without one it reads before the buffer. */
  predicate HasKept(s: string)
  {
    exists j :: 0 <= j < |s| && !Trimmable(s[j])
  }

  /** `n` is where the walk cuts: after a character that stops it, with only trimmable ones after. */
  predicate CutAt(s: string, n: int)
  {
    0 < n <= |s| && !Trimmable(s[n - 1]) && forall k :: n <= k < |s| ==> Trimmable(s[k])
  }

  /** The walk from index `pt` down: the index of the first character it stops at. */
  function StopFrom(s: string, pt: nat): (k: nat)
    requires pt < |s| && exists j :: 0 <= j <= pt && !Trimmable(s[j])
    ensures k <= pt && !Trimmable(s[k])
    ensures forall i :: k < i <= pt ==> Trimmable(s[i])
    decreases pt
  {
    if !Trimmable(s[pt]) then pt
    else
      assert exists j :: 0 <= j <= pt - 1 && !Trimmable(s[j]);
      StopFrom(s, pt - 1)
  }

  /**
   * The length `string_number` returns, as written: the buffer up to and
   * including the last character that is neither a blank nor `'0'`.  The
   * source does not check that there is one.
   */
  function TrimmedLengthAsWritten(s: string): (n: nat)
    requires HasKept(s)
    ensures CutAt(s, n)
  {
    StopFrom(s, |s| - 1) + 1
  }

  /** The buffer after the cut, as written. */
  function TrimAsWritten(s: string): (r: string)
    requires HasKept(s)
    ensures r <= s && CutAt(s, |r|)
  {
    s[..TrimmedLengthAsWritten(s)]
  }

  /** At most one cut has a stopping character before it and only trimmable ones after. */
  lemma CutUnique(s: string, n: int, m: int)
    requires CutAt(s, n) && CutAt(s, m)
    ensures n == m
  {
    assert !Trimmable(s[m - 1]) && !Trimmable(s[n - 1]);
  }

  /** The walk removes exactly the longest trailing run of blanks and `'0'`s, and only that. */
  lemma TrimAsWrittenMaximal(s: string, n: nat)
    requires n <= |s| && forall k :: n <= k < |s| ==> Trimmable(s[k])
    requires HasKept(s)
    ensures TrimmedLengthAsWritten(s) <= n
  {
    var t := TrimmedLengthAsWritten(s);
    assert !Trimmable(s[t - 1]);
  }

  /** A zero memory value in decimal: `"0"` left-aligned in a field of 30. */
  const ZERO_IN_DECIMAL: string := "0                             "

  /**
   * A memory value of zero in decimal mode is formatted with `"%-30.15g"`
   * (zero is not above `1.0e-6`) as `"0"` and 29 blanks, so the walk finds
   * no stopping character and reads before the buffer.
   */
  lemma ZeroWalksOffTheBuffer()
    ensures |ZERO_IN_DECIMAL| == 30 && ZERO_IN_DECIMAL[0] == '0'
    ensures !HasKept(ZERO_IN_DECIMAL)
  {
    assert forall j :: 0 <= j < |ZERO_IN_DECIMAL| ==> Trimmable(ZERO_IN_DECIMAL[j]);
  }

  /** The walk does not stop at the radix point: hexadecimal 256 and the exponent of 1e20 lose digits. */
  lemma SignificantZerosAsWritten()
    ensures HasKept("0x100") && TrimAsWritten("0x100") == "0x1"
    ensures HasKept("1e+20") && TrimAsWritten("1e+20") == "1e+2"
  {
    assert !Trimmable("0x100"[1]);
    assert CutAt("0x100", 3);
    CutUnique("0x100", 3, |TrimAsWritten("0x100")|);
    assert !Trimmable("1e+20"[0]);
    assert CutAt("1e+20", 4);
    CutUnique("1e+20", 4, |TrimAsWritten("1e+20")|);
  }

  // ---------------------------------------------------------------------
  // The trim evidently intended: blanks, then zeros of a fraction only

  /** `s` without its trailing blanks. */
  function TrimBlanks(s: string): (r: string)
    ensures r <= s && (r == [] || r[|r| - 1] != ' ')
    ensures forall k :: |r| <= k < |s| ==> s[k] == ' '
    decreases |s|
  {
    if s != [] && s[|s| - 1] == ' ' then TrimBlanks(s[..|s| - 1]) else s
  }

  /** Where the trailing run of digits of `t` starts. */
  function DigitTail(t: string): (m: nat)
    ensures m <= |t| && forall k :: m <= k < |t| ==> Decimal.IsDigit(t[k])
    ensures m > 0 ==> !Decimal.IsDigit(t[m - 1])
    decreases |t|
  {
    if t != [] && Decimal.IsDigit(t[|t| - 1]) then DigitTail(t[..|t| - 1]) else |t|
  }

  /** The radix point of a number that ends in its fraction: a `'.'` followed only by digits. */
  function FractionPoint(t: string): (r: Option<nat>)
    ensures r.Some? ==> r.value < |t| && t[r.value] == '.' && forall k :: r.value < k < |t| ==> Decimal.IsDigit(t[k])
    ensures r.None? ==> forall p :: 0 <= p < |t| && t[p] == '.' ==> exists k :: p < k < |t| && !Decimal.IsDigit(t[k])
  {
    var m := DigitTail(t);
    if m > 0 && t[m - 1] == '.' then Some(m - 1)
    else
      assert forall p :: 0 <= p < |t| && t[p] == '.' ==> p < m - 1 && !Decimal.IsDigit(t[m - 1]);
      None
  }

  /** `t` without the trailing `'0'`s past its first `lo` characters. */
  function TrimZeros(t: string, lo: nat): (r: string)
    requires lo <= |t|
    ensures r <= t && lo <= |r|
    ensures forall k :: |r| <= k < |t| ==> t[k] == '0'
    ensures |r| == lo || t[|r| - 1] != '0'
    decreases |t|
  {
    if |t| > lo && t[|t| - 1] == '0' then TrimZeros(t[..|t| - 1], lo) else t
  }

  /**
   * The corrected trim: the padding blanks go, and the trailing zeros go
   * only from a fraction, never past its radix point; a number without a
   * fraction keeps all its digits, and the walk never leaves the buffer.
   */
  function Trim(s: string): (r: string)
    ensures r <= TrimBlanks(s) <= s
    ensures forall k :: |r| <= k < |s| ==> Trimmable(s[k])
    ensures FractionPoint(TrimBlanks(s)).None? ==> r == TrimBlanks(s)
    ensures FractionPoint(TrimBlanks(s)).Some? ==>
      var p := FractionPoint(TrimBlanks(s)).value;
      p < |r| && (|r| == p + 1 || r[|r| - 1] != '0')
  {
    var t := TrimBlanks(s);
    match FractionPoint(t)
    case None => t
    case Some(p) => TrimZeros(t, p + 1)
  }

  /** Without a fraction, only the padding blanks are removed. */
  lemma TrimKeepsWholeDigits(s: string)
    requires FractionPoint(TrimBlanks(s)).None?
    ensures forall k :: |Trim(s)| <= k < |s| ==> s[k] == ' '
  {
  }

  /** On a number that ends in a fraction, the corrected trim ends at a fraction digit or the radix point. */
  lemma TrimCutsAtStop(s: string)
    requires FractionPoint(TrimBlanks(s)).Some?
    ensures CutAt(s, |Trim(s)|)
  {
    var t := TrimBlanks(s);
    var p := FractionPoint(t).value;
    var r := Trim(s);
    var last := |r| - 1;
    assert t[last] == s[last];
    assert t[last] == '.' || (Decimal.IsDigit(t[last]) && t[last] != '0');
    assert !Trimmable(s[last]);
    assert forall k :: |r| <= k < |s| ==> Trimmable(s[k]);
  }

  /**
   * On a number that ends in a fraction the corrected trim cuts exactly
   * where the written walk does.
   */
  lemma TrimAgreesOnFractions(s: string)
    requires FractionPoint(TrimBlanks(s)).Some?
    ensures HasKept(s) && TrimAsWritten(s) == Trim(s)
  {
    var r := Trim(s);
    TrimCutsAtStop(s);
    assert !Trimmable(s[|r| - 1]);
    CutUnique(s, |r|, TrimmedLengthAsWritten(s));
  }

  /** The blanks trimmed from `s` are exactly those after `n`, when `s[n - 1]` is not one. */
  lemma TrimBlanksAt(s: string, n: nat)
    requires n <= |s| && (n == 0 || s[n - 1] != ' ') && forall k :: n <= k < |s| ==> s[k] == ' '
    ensures TrimBlanks(s) == s[..n]
  {
    var r := TrimBlanks(s);
    assert n > 0 ==> s[n - 1] != ' ';
    assert r != [] ==> s[|r| - 1] != ' ';
  }

  /** The digit run of `t` starts at `m` when `t[m..]` is digits and `t[m - 1]` is not. */
  lemma DigitTailAt(t: string, m: nat)
    requires m <= |t| && (forall k :: m <= k < |t| ==> Decimal.IsDigit(t[k])) && (m > 0 ==> !Decimal.IsDigit(t[m - 1]))
    ensures DigitTail(t) == m
  {
    var d := DigitTail(t);
    assert m > 0 ==> !Decimal.IsDigit(t[m - 1]);
    assert d > 0 ==> !Decimal.IsDigit(t[d - 1]);
  }

  /** The zeros trimmed from `t` are exactly those after `n`, when `t[n - 1]` is not one or `n` is the floor. */
  lemma TrimZerosAt(t: string, lo: nat, n: nat)
    requires lo <= n <= |t| && (n == lo || t[n - 1] != '0') && forall k :: n <= k < |t| ==> t[k] == '0'
    ensures TrimZeros(t, lo) == t[..n]
  {
    var r := TrimZeros(t, lo);
    assert n > lo ==> t[n - 1] != '0';
    assert |r| > lo ==> t[|r| - 1] != '0';
  }

  /** The corrected trim leaves a zero in decimal as `"0"`. */
  lemma TrimZeroValue()
    ensures Trim(ZERO_IN_DECIMAL) == "0"
  {
    TrimBlanksAt(ZERO_IN_DECIMAL, 1);
    assert TrimBlanks(ZERO_IN_DECIMAL) == "0";
    DigitTailAt("0", 0);
  }

  /** The corrected trim keeps the significant zeros of hexadecimal 256 and of 1e20. */
  lemma TrimKeepsSignificantZeros()
    ensures Trim("0x100") == "0x100"
    ensures Trim("1e+20") == "1e+20"
  {
    TrimBlanksAt("0x100", 5);
    assert TrimBlanks("0x100") == "0x100";
    DigitTailAt("0x100", 2);
    TrimBlanksAt("1e+20", 5);
    assert TrimBlanks("1e+20") == "1e+20";
    DigitTailAt("1e+20", 3);
  }

  /** The corrected trim still shortens a padded fraction: `"2.5"` from `"2.500  "`. */
  lemma TrimShortensFraction()
    ensures Trim("2.500  ") == "2.5"
  {
    var f := "2.500";
    TrimBlanksAt("2.500  ", 5);
    assert TrimBlanks("2.500  ") == f;
    DigitTailAt(f, 2);
    assert FractionPoint(f) == Some(1);
    TrimZerosAt(f, 2, 3);
  }
}

=== FILE: chcp.dfy ===
/**
 * The `chcp` console command (`chcp/chcp.c`): with no argument it shows
 * the output code page, with `/?` its help, and with one argument it sets
 * the input and output code pages to the number given or to the page of a
 * name from its table of aliases.
 */
module Chcp {
  import opened Win32
  import Decimal

  /** The names `chcp` accepts besides numbers, in table order: the named pages first, */
  const NAMED_PAGES: seq<(string, int)> := [
    ("utf-8", 65001), ("windows-1252", 1252), ("oem-us", 437), ("dos-ibm", 850),
    ("euc-kr", 949), ("korea", 949), ("shift-jis", 932), ("japan", 932),
    ("big5", 950), ("taiwan", 950), ("gbk", 936), ("china", 936)]

  /** then the ISO 8859 parts, where "iso-8859-9" repeats the Hebrew page 28598. */
  const ISO_PAGES_AS_WRITTEN: seq<(string, int)> := [
    ("iso-8859-1", 28591), ("iso-8859-2", 28592), ("iso-8859-3", 28593),
    ("iso-8859-4", 28594), ("iso-8859-5", 28595), ("iso-8859-6", 28596),
    ("iso-8859-7", 28597), ("iso-8859-8", 28598), ("iso-8859-9", 28598),
    ("iso-8859-13", 28603), ("iso-8859-15", 28605)]

  /** The whole table as written. */
  const CP_TABLE_AS_WRITTEN: seq<(string, int)> := NAMED_PAGES + ISO_PAGES_AS_WRITTEN

  /** The index of `"iso-8859-9"` in the table. */
  const ISO_8859_9: nat := 20

  /** The table with ISO 8859-9 (Turkish) on its own page, 28599. */
  const CP_TABLE: seq<(string, int)> := CP_TABLE_AS_WRITTEN[ISO_8859_9 := ("iso-8859-9", 28599)]

  /** Entry `j` is the first at or after `i` whose name equals `name` ignoring case. */
  predicate FirstMatch(table: seq<(string, int)>, name: string, i: nat, j: int)
  {
    && i <= j < |table| && EqualsIgnoreCase(name, table[j].0)
    && forall k :: i <= k < j ==> !EqualsIgnoreCase(name, table[k].0)
  }

  /** The page of the first entry at or after `i` whose name equals `name` ignoring case. */
  function Lookup(table: seq<(string, int)>, name: string, i: nat): (r: Option<int>)
    requires i <= |table|
    ensures r.Some? ==> exists j :: i <= j < |table| && r.value == table[j].1
    decreases |table| - i
  {
    if i == |table| then None
    else if EqualsIgnoreCase(name, table[i].0) then Some(table[i].1)
    else Lookup(table, name, i + 1)
  }

  /** The lookup finds a page exactly when some entry matches, and then the first match's. */
  lemma {:induction false} LookupMeaning(table: seq<(string, int)>, name: string, i: nat)
    requires i <= |table|
    ensures Lookup(table, name, i).Some? <==> exists j :: i <= j < |table| && EqualsIgnoreCase(name, table[j].0)
    ensures Lookup(table, name, i).Some? ==>
      exists j :: FirstMatch(table, name, i, j) && Lookup(table, name, i).value == table[j].1
    decreases |table| - i
  {
    if i < |table| && !EqualsIgnoreCase(name, table[i].0) {
      LookupMeaning(table, name, i + 1);
      if Lookup(table, name, i).Some? {
        var j :| FirstMatch(table, name, i + 1, j) && Lookup(table, name, i).value == table[j].1;
        assert FirstMatch(table, name, i, j);
      }
    } else if i < |table| {
      assert FirstMatch(table, name, i, i);
    }
  }

  /**
   * The page for an argument: its `_wtoi` value when non-zero, else the
   * page of the first matching name; none when that is still zero.
   */
  function Resolve(table: seq<(string, int)>, arg: string): (r: Option<int>)
    ensures r.Some? ==> r.value != 0
    ensures ToDword(Decimal.Wtoi(arg)) != 0 ==> r == Some(ToDword(Decimal.Wtoi(arg)))
    ensures ToDword(Decimal.Wtoi(arg)) == 0 ==>
      (r.Some? <==> Lookup(table, arg, 0).Some? && Lookup(table, arg, 0).value != 0)
    ensures ToDword(Decimal.Wtoi(arg)) == 0 && r.Some? ==> r == Lookup(table, arg, 0)
  {
    var n := ToDword(Decimal.Wtoi(arg));
    if n != 0 then Some(n)
    else match Lookup(table, arg, 0)
      case Some(page) => if page != 0 then Some(page) else None
      case None => None
  }

  /** A page number given in decimal selects that page, whatever the table holds. */
  lemma NumberSelectsPage(table: seq<(string, int)>, n: nat)
    requires 0 < n <= INT_MAX
    ensures Resolve(table, Decimal.Digits(n)) == Some(n)
  {
    var arg := Decimal.Digits(n);
    Decimal.WtoiOfPositive(n);
    ToDwordInRange(n);
    assert ToDword(Decimal.Wtoi(arg)) == n;
  }

  /** Two names that differ at one place, even ignoring case, are not equal ignoring case. */
  lemma DifferAt(a: string, b: string, at: nat)
    requires at < |a| && at < |b| && LowerAscii(a[at] as int) != LowerAscii(b[at] as int)
    ensures !EqualsIgnoreCase(a, b)
  {
    assert FoldCase(a)[at] != FoldCase(b)[at];
  }

  /** The lookup passes the entries `i` to `j - 1` when each differs from `name` at position `at`. */
  lemma {:induction false} LookupSkips(table: seq<(string, int)>, name: string, i: nat, j: nat, at: nat)
    requires i <= j <= |table| && at < |name|
    requires forall k :: i <= k < j ==> at < |table[k].0| && LowerAscii(name[at] as int) != LowerAscii(table[k].0[at] as int)
    ensures Lookup(table, name, i) == Lookup(table, name, j)
    decreases j - i
  {
    if i < j {
      DifferAt(name, table[i].0, at);
      LookupSkips(table, name, i + 1, j, at);
    }
  }

  /** Aliases share a page: "korea" is "euc-kr", 949. */
  lemma AliasesSharePage()
    ensures Resolve(CP_TABLE, "korea") == Some(949) && Resolve(CP_TABLE, "euc-kr") == Some(949)
  {
    KoreanByName();
    KoreanByRegion();
  }

  lemma KoreanByName()
    ensures Resolve(CP_TABLE, "euc-kr") == Some(949)
  {
    Decimal.WtoiOfWord("euc-kr");
    LookupSkips(CP_TABLE, "euc-kr", 0, 4, 0);
    assert EqualsIgnoreCase("euc-kr", CP_TABLE[4].0);
  }

  lemma KoreanByRegion()
    ensures Resolve(CP_TABLE, "korea") == Some(949)
  {
    Decimal.WtoiOfWord("korea");
    LookupSkips(CP_TABLE, "korea", 0, 5, 0);
    assert EqualsIgnoreCase("korea", CP_TABLE[5].0);
  }

  /** As written, the Turkish and the Hebrew ISO names select the same page, 28598. */
  lemma Iso88599AsWritten()
    ensures Resolve(CP_TABLE_AS_WRITTEN, "iso-8859-9") == Some(28598)
    ensures Resolve(CP_TABLE_AS_WRITTEN, "iso-8859-8") == Some(28598)
  {
    TurkishAsWritten(CP_TABLE_AS_WRITTEN);
    HebrewAsWritten(CP_TABLE_AS_WRITTEN);
  }

  /** The lookup of the Turkish name in a table that, like the written one, lists it at 20 with page 28598. */
  lemma TurkishAsWritten(t: seq<(string, int)>)
    requires t == CP_TABLE_AS_WRITTEN
    ensures Resolve(t, "iso-8859-9") == Some(28598)
  {
    Decimal.WtoiOfWord("iso-8859-9");
    LookupSkips(t, "iso-8859-9", 0, 12, 0);
    LookupSkips(t, "iso-8859-9", 12, 20, 9);
    assert EqualsIgnoreCase("iso-8859-9", t[20].0);
  }

  lemma HebrewAsWritten(t: seq<(string, int)>)
    requires t == CP_TABLE_AS_WRITTEN
    ensures Resolve(t, "iso-8859-8") == Some(28598)
  {
    Decimal.WtoiOfWord("iso-8859-8");
    LookupSkips(t, "iso-8859-8", 0, 12, 0);
    LookupSkips(t, "iso-8859-8", 12, 19, 9);
    assert EqualsIgnoreCase("iso-8859-8", t[19].0);
  }

  /** With the corrected table the Turkish name selects 28599. */
  lemma Iso88599Corrected()
    ensures Resolve(CP_TABLE, "iso-8859-9") == Some(28599)
  {
    TurkishCorrected(CP_TABLE);
  }

  lemma TurkishCorrected(t: seq<(string, int)>)
    requires t == CP_TABLE
    ensures Resolve(t, "iso-8859-9") == Some(28599)
  {
    Decimal.WtoiOfWord("iso-8859-9");
    LookupSkips(t, "iso-8859-9", 0, 12, 0);
    LookupSkips(t, "iso-8859-9", 12, 20, 9);
    assert EqualsIgnoreCase("iso-8859-9", t[20].0);
  }

  /** In the corrected table each ISO 8859 name has a page of its own. */
  lemma IsoPagesDistinct()
    ensures forall i, j :: 12 <= i < j < |CP_TABLE| ==> CP_TABLE[i].1 != CP_TABLE[j].1
  {
  }

  /** The corrected table differs from the written one only at "iso-8859-9". */
  lemma CorrectedTableOnlyTurkish()
    ensures |CP_TABLE| == |CP_TABLE_AS_WRITTEN|
    ensures forall i :: 0 <= i < |CP_TABLE| && i != ISO_8859_9 ==> CP_TABLE[i] == CP_TABLE_AS_WRITTEN[i]
    ensures CP_TABLE[ISO_8859_9].0 == CP_TABLE_AS_WRITTEN[ISO_8859_9].0 && CP_TABLE[ISO_8859_9].1 == 28599
  {
  }

  // ---------------------------------------------------------------------
  // The command

  /** The console's input and output code pages. */
  datatype Console = Console(input: int, output: int)

  /** What the command printed: help, the active page, a parameter error, or the change error. */
  datatype Message = Help | ActivePage(page: int) | InvalidParameter(arg: string) | ChangeFailed

  /**
   * `wmain` with the arguments after the program name.  `inputOk`,
   * `outputOk` and `restoreOk` are the results of `SetConsoleCP`,
   * `SetConsoleOutputCP` and the restoring `SetConsoleCP`.  Returns the
   * exit code, the console after, and the message.
   */
  function Run(table: seq<(string, int)>, args: seq<string>, console: Console,
               inputOk: bool, outputOk: bool, restoreOk: bool): (r: (int, Console, Message))
    ensures r.0 == 0 || r.0 == 1
    ensures |args| >= 1 && args[0] == "/?" ==> r == (0, console, Help)
    ensures args == [] ==> r == (0, console, ActivePage(console.output))
    ensures |args| > 1 && args[0] != "/?" ==> r == (1, console, InvalidParameter(args[1]))
    ensures |args| == 1 && args[0] != "/?" && Resolve(table, args[0]).None? ==>
      r == (1, console, InvalidParameter(args[0]))
    ensures |args| == 1 && args[0] != "/?" && Resolve(table, args[0]).Some? ==>
      var page := Resolve(table, args[0]).value;
      && (r.0 == 0 <==> inputOk && outputOk)
      && (r.0 == 0 ==> r.1 == Console(page, page) && r.2 == ActivePage(page))
      && (r.0 == 1 && (!inputOk || restoreOk) ==> r.1 == console && r.2 == ChangeFailed)
  {
    if |args| >= 1 && args[0] == "/?" then (0, console, Help)
    else if args == [] then (0, console, ActivePage(console.output))
    else if |args| > 1 then (1, console, InvalidParameter(args[1]))
    else match Resolve(table, args[0])
      case None => (1, console, InvalidParameter(args[0]))
      case Some(page) =>
        var previous := console.input;
        if !inputOk then (1, console, ChangeFailed)
        else if outputOk then (0, Console(page, page), ActivePage(page))
        else (1, Console(if restoreOk then previous else page, console.output), ChangeFailed)
  }

  /** A change that fails halfway leaves the console as it was, once the input page is restored. */
  lemma FailedChangeRestores(table: seq<(string, int)>, arg: string, console: Console, outputOk: bool)
    requires arg != "/?" && Resolve(table, arg).Some? && !outputOk
    ensures Run(table, [arg], console, true, outputOk, true) == (1, console, ChangeFailed)
  {
  }

  /** Only a successful change alters the console's pages. */
  lemma ConsoleChangesOnlyOnSuccess(table: seq<(string, int)>, args: seq<string>, console: Console,
                                    inputOk: bool, outputOk: bool)
    ensures var r := Run(table, args, console, inputOk, outputOk, true);
      r.1 != console ==> r.0 == 0 && r.1.input == r.1.output
  {
  }
}

=== FILE: clock.dfy ===
/**
 * The decision rules of the desktop clock (`clock/main.c`): the option
 * flags and their bit-field in the profile, the timer period, the redraw
 * rule of the timer tick, the pop-up menu commands and check marks, and the
 * hit test that lets a clock without title bar be dragged.
 */
module Clock {
  import opened Win32

  datatype Flags = Flags(
    analog: bool, onTop: bool, noTitle: bool, seconds: bool, twentyFour: bool, dark: bool)

  // ---------------------------------------------------------------------
  // The `Flags` value of the profile

  const ANALOG_BIT: bv32 := 0x1
  const ON_TOP_BIT: bv32 := 0x2
  const NO_TITLE_BIT: bv32 := 0x4
  const SECONDS_BIT: bv32 := 0x8
  const TWENTY_FOUR_BIT: bv32 := 0x10
  const DARK_BIT: bv32 := 0x20
  const ALL_BITS: bv32 := 0x3F

  /** The value `LoadSettings` takes when the profile has no `Flags` key. */
  const DEFAULT_FLAGS: bv32 := 0x10

  function Bit(on: bool, bit: bv32): bv32
  {
    if on then bit else 0
  }

  /** `SaveSettings`: one bit per option, the others clear. */
  function EncodeFlags(f: Flags): (v: bv32)
    ensures v & !ALL_BITS == 0
    ensures (v & ANALOG_BIT != 0) == f.analog && (v & ON_TOP_BIT != 0) == f.onTop
    ensures (v & NO_TITLE_BIT != 0) == f.noTitle && (v & SECONDS_BIT != 0) == f.seconds
    ensures (v & TWENTY_FOUR_BIT != 0) == f.twentyFour && (v & DARK_BIT != 0) == f.dark
  {
    Bit(f.analog, ANALOG_BIT) | Bit(f.onTop, ON_TOP_BIT) | Bit(f.noTitle, NO_TITLE_BIT)
      | Bit(f.seconds, SECONDS_BIT) | Bit(f.twentyFour, TWENTY_FOUR_BIT) | Bit(f.dark, DARK_BIT)
  }

  /**
   * `LoadSettings`: each BOOL is the value ANDed with its bit, so it holds
   * the bit itself (1, 2, 4, …) or 0; only whether it is 0 matters to the
   * program, and that is what is kept here.
   */
  function DecodeFlags(v: bv32): (f: Flags)
    ensures f.analog == (v & ANALOG_BIT != 0) && f.onTop == (v & ON_TOP_BIT != 0)
    ensures f.noTitle == (v & NO_TITLE_BIT != 0) && f.seconds == (v & SECONDS_BIT != 0)
    ensures f.twentyFour == (v & TWENTY_FOUR_BIT != 0) && f.dark == (v & DARK_BIT != 0)
  {
    Flags(v & ANALOG_BIT != 0, v & ON_TOP_BIT != 0, v & NO_TITLE_BIT != 0,
          v & SECONDS_BIT != 0, v & TWENTY_FOUR_BIT != 0, v & DARK_BIT != 0)
  }

  /** Every option comes back from the profile as it was saved. */
  lemma DecodeEncode(f: Flags)
    ensures DecodeFlags(EncodeFlags(f)) == f
  {
  }

  /** Saving what was loaded keeps the six option bits and clears the rest. */
  lemma EncodeDecode(v: bv32)
    ensures EncodeFlags(DecodeFlags(v)) == v & ALL_BITS
  {
  }

  /** Without a saved `Flags` the clock is digital, 24-hour, with title, without seconds. */
  lemma DefaultFlagsOnlyTwentyFour()
    ensures DecodeFlags(DEFAULT_FLAGS) == Flags(false, false, false, false, true, false)
  {
  }

  // ---------------------------------------------------------------------
  // The timer

  /** `Clk_ResetTimer`'s period in milliseconds. */
  function Period(f: Flags): (ms: int)
    ensures !f.seconds ==> ms == 1000
    ensures f.seconds && !f.analog ==> ms == 500
    ensures f.seconds && f.analog ==> ms == 250
  {
    if !f.seconds then 1000 else if !f.analog then 500 else 250
  }

  /** The options and the period of the running timer (0: none). */
  datatype State = State(flags: Flags, timer: int)

  /** The timer runs at the period the options call for, or not at all. */
  predicate TimerAgrees(s: State)
  {
    s.timer == 0 || s.timer == Period(s.flags)
  }

  /** `Clk_ResetTimer`: kill the timer and set one with the current period; `timerOk` is `SetTimer`'s success. */
  function ResetTimer(s: State, timerOk: bool): (r: State)
    ensures r.flags == s.flags && TimerAgrees(r)
    ensures timerOk <==> r.timer != 0
  {
    s.(timer := if timerOk then Period(s.flags) else 0)
  }

  /** The options the program starts with before reading the profile: analog with seconds. */
  const STARTUP_FLAGS := Flags(true, false, false, true, false, false)

  /**
   * The options `LoadSettings` ends with: unchanged when the profile folder
   * is not found, else decoded from `Flags` or its default.
   */
  function LoadFlags(current: Flags, profileFound: bool, stored: Option<bv32>): (f: Flags)
    ensures !profileFound ==> f == current
    ensures profileFound && stored.None? ==> f == DecodeFlags(DEFAULT_FLAGS)
    ensures profileFound && stored.Some? ==> f == DecodeFlags(stored.value)
  {
    if !profileFound then current
    else match stored
      case None => DecodeFlags(DEFAULT_FLAGS)
      case Some(v) => DecodeFlags(v)
  }

  /**
   * `WinMain` as written: the timer is set for the start-up options, and
   * the options loaded afterwards do not reset it.  `None` is the failed
   * `SetTimer` that ends the program.
   */
  function StartAsWritten(profileFound: bool, stored: Option<bv32>, timerOk: bool): (r: Option<State>)
    ensures r.Some? <==> timerOk
    ensures r.Some? ==> r.value.flags == LoadFlags(STARTUP_FLAGS, profileFound, stored)
    ensures r.Some? ==> r.value.timer == Period(STARTUP_FLAGS)
  {
    var s := ResetTimer(State(STARTUP_FLAGS, 0), timerOk);
    if !timerOk then None
    else Some(s.(flags := LoadFlags(s.flags, profileFound, stored)))
  }

  /** A saved digital clock without seconds starts ticking every 250 ms instead of every second. */
  lemma StartAsWrittenIgnoresLoadedFlags()
    ensures var r := StartAsWritten(true, Some(DEFAULT_FLAGS), true);
      r.Some? && r.value.timer == 250 && Period(r.value.flags) == 1000 && !TimerAgrees(r.value)
  {
  }

  /** Start-up with the timer reset once the options are loaded. */
  function Start(profileFound: bool, stored: Option<bv32>, timerOk: bool): (r: Option<State>)
    ensures r.Some? <==> timerOk
    ensures r.Some? ==> r.value.flags == LoadFlags(STARTUP_FLAGS, profileFound, stored)
    ensures r.Some? ==> TimerAgrees(r.value) && r.value.timer != 0
  {
    if !timerOk then None
    else
      var s := ResetTimer(State(STARTUP_FLAGS, 0), timerOk);
      Some(ResetTimer(s.(flags := LoadFlags(s.flags, profileFound, stored)), timerOk))
  }

  /** Both start-ups agree on the options; they differ only in the timer. */
  lemma StartsAgreeOnFlags(profileFound: bool, stored: Option<bv32>, timerOk: bool)
    ensures var a, b := StartAsWritten(profileFound, stored, timerOk), Start(profileFound, stored, timerOk);
      a.Some? == b.Some? && (a.Some? ==> a.value.flags == b.value.flags)
  {
  }

  // ---------------------------------------------------------------------
  // Redrawing

  /** `WM_PAINT` records the paint time floored to the minute. */
  function PaintMinute(now: nat): (last: nat)
    ensures last <= now < last + 60 && last % 60 == 0
  {
    (now / 60) * 60
  }

  /** `WM_TIMER`: redraw when seconds are shown or 58 seconds of the painted minute have passed. */
  predicate TickRedraws(seconds: bool, now: int, last: int)
  {
    seconds || now >= last + 58
  }

  /**
   * Without seconds, a tick after a paint redraws exactly when the minute
   * has changed since, or in the last two seconds of the painted minute.
   */
  lemma TickRedrawsMeaning(painted: nat, now: nat)
    requires painted <= now
    ensures TickRedraws(false, now, PaintMinute(painted)) <==>
      now / 60 > painted / 60 || now % 60 >= 58
  {
  }

  /** So a changed minute is never left on the screen past the next tick. */
  lemma NewMinuteRedraws(painted: nat, now: nat, seconds: bool)
    requires now / 60 > painted / 60
    ensures TickRedraws(seconds, now, PaintMinute(painted))
  {
  }

  // ---------------------------------------------------------------------
  // Menu commands

  const IDM_ANALOG: int := 0x120
  const IDM_DIGITAL: int := 0x121
  const IDM_NOTITLE: int := 0x222
  const IDM_SECONDS: int := 0x123
  const IDM_ABOUT: int := 0x131
  const IDM_EXIT: int := 0x132
  const IDM_24HOURS: int := 0x133
  const IDM_DARKCOLOR: int := 0x134
  const IDM_ONTOP: int := 0x135

  /**
   * `Clk_MenuCommand`: returns the new state and whether WM_CLOSE is
   * posted.  Analog/digital and seconds reset the timer; the other toggles
   * flip their own option; About and unknown commands change nothing.
   */
  function MenuCommand(s: State, id: int, timerOk: bool): (r: (State, bool))
    ensures r.1 <==> id == IDM_EXIT
    ensures id == IDM_ANALOG || id == IDM_DIGITAL ==>
      r.0 == ResetTimer(s.(flags := s.flags.(analog := id == IDM_ANALOG)), timerOk)
    ensures id == IDM_SECONDS ==>
      r.0 == ResetTimer(s.(flags := s.flags.(seconds := !s.flags.seconds)), timerOk)
    ensures id == IDM_NOTITLE ==> r.0 == s.(flags := s.flags.(noTitle := !s.flags.noTitle))
    ensures id == IDM_ONTOP ==> r.0 == s.(flags := s.flags.(onTop := !s.flags.onTop))
    ensures id == IDM_24HOURS ==> r.0 == s.(flags := s.flags.(twentyFour := !s.flags.twentyFour))
    ensures id == IDM_DARKCOLOR ==> r.0 == s.(flags := s.flags.(dark := !s.flags.dark))
    ensures id !in {IDM_ANALOG, IDM_DIGITAL, IDM_SECONDS, IDM_NOTITLE, IDM_ONTOP, IDM_24HOURS, IDM_DARKCOLOR} ==>
      r.0 == s
  {
    var f := s.flags;
    if id == IDM_ANALOG || id == IDM_DIGITAL then
      (ResetTimer(s.(flags := f.(analog := id == IDM_ANALOG)), timerOk), false)
    else if id == IDM_NOTITLE then (s.(flags := f.(noTitle := !f.noTitle)), false)
    else if id == IDM_ONTOP then (s.(flags := f.(onTop := !f.onTop)), false)
    else if id == IDM_SECONDS then (ResetTimer(s.(flags := f.(seconds := !f.seconds)), timerOk), false)
    else if id == IDM_24HOURS then (s.(flags := f.(twentyFour := !f.twentyFour)), false)
    else if id == IDM_DARKCOLOR then (s.(flags := f.(dark := !f.dark)), false)
    else (s, id == IDM_EXIT)
  }

  /** No command leaves the timer at a period its options do not call for. */
  lemma MenuCommandKeepsTimerAgreeing(s: State, id: int, timerOk: bool)
    requires TimerAgrees(s)
    ensures TimerAgrees(MenuCommand(s, id, timerOk).0)
  {
  }

  /** A toggle given twice restores the options. */
  lemma ToggleTwiceRestores(s: State, id: int, timerOk: bool)
    requires id in {IDM_NOTITLE, IDM_ONTOP, IDM_SECONDS, IDM_24HOURS, IDM_DARKCOLOR}
    ensures MenuCommand(MenuCommand(s, id, timerOk).0, id, timerOk).0.flags == s.flags
  {
  }

  /** The pop-up menu's marks, as `Clk_SetMenuCheckmarks` sets them. */
  datatype Marks = Marks(
    analogChecked: bool, digitalChecked: bool, twentyFourEnabled: bool,
    noTitleChecked: bool, onTopChecked: bool, secondsChecked: bool,
    twentyFourChecked: bool, darkChecked: bool)

  function MenuMarks(f: Flags): (m: Marks)
    ensures m.analogChecked != m.digitalChecked
    ensures m.twentyFourEnabled <==> m.digitalChecked
  {
    Marks(f.analog, !f.analog, !f.analog, f.noTitle, f.onTop, f.seconds, f.twentyFour, f.dark)
  }

  /** Each mark shows its option, and the 24-hour item can be chosen only on the digital clock. */
  lemma MenuMarksShowFlags(f: Flags)
    ensures var m := MenuMarks(f);
      && m.analogChecked == f.analog && m.twentyFourEnabled == !f.analog
      && m.noTitleChecked == f.noTitle && m.onTopChecked == f.onTop
      && m.secondsChecked == f.seconds && m.twentyFourChecked == f.twentyFour
      && m.darkChecked == f.dark
  {
  }

  // ---------------------------------------------------------------------
  // Hit testing and the context menu

  const HTCLIENT: int := 1
  const HTCAPTION: int := 2
  const DRAGBAR_DROP: int := 100
  const WORD_RANGE: int := 0x1_0000

  /** `MAKELPARAM(x, y)`: the low words of `x` and `y` side by side, zero-extended. */
  function MakeLparam(x: int, y: int): (lp: int)
    ensures 0 <= lp < WORD_RANGE * WORD_RANGE
  {
    x % WORD_RANGE + (y % WORD_RANGE) * WORD_RANGE
  }

  /** `GET_Y_LPARAM`: the high word as a signed `short`. */
  function GetY(lp: int): (y: int)
    requires 0 <= lp
    ensures -0x8000 <= y < 0x8000
  {
    var word := (lp / WORD_RANGE) % WORD_RANGE;
    if word < 0x8000 then word else word - WORD_RANGE
  }

  lemma GetYOfMake(x: int, y: int)
    requires 0 <= x < WORD_RANGE && 0 <= y < 0x8000
    ensures GetY(MakeLparam(x, y)) == y
  {
  }

  /** `ClientPoint`: the client coordinates of a point inside the client area as an LPARAM, else 0. */
  function ClientPoint(inside: bool, x: int, y: int): (lp: int)
    ensures lp >= 0
    ensures !inside ==> lp == 0
    ensures inside && 0 <= x < WORD_RANGE && 0 <= y < 0x8000 ==> lp % WORD_RANGE == x && GetY(lp) == y
  {
    if inside then MakeLparam(x, y) else 0
  }

  /** `WM_NCHITTEST`: a client hit turns into a caption hit when the title bar is hidden and the point is near the top. */
  function HitTest(defaultHit: int, noTitle: bool, inside: bool, x: int, y: int): (hit: int)
    ensures hit == HTCAPTION || hit == defaultHit
  {
    if defaultHit == HTCLIENT && noTitle && GetY(ClientPoint(inside, x, y)) < DRAGBAR_DROP then HTCAPTION
    else defaultHit
  }

  /**
   * For a client point: it drags the window exactly when the title bar is
   * hidden and the point lies in the top 100 pixels.
   */
  lemma HitTestDragsNearTop(noTitle: bool, x: int, y: int)
    requires 0 <= x < WORD_RANGE && 0 <= y < 0x8000
    ensures HitTest(HTCLIENT, noTitle, true, x, y) == HTCAPTION <==> noTitle && y < DRAGBAR_DROP
  {
    GetYOfMake(x, y);
  }

  /** Any other hit is left as the default window procedure gave it. */
  lemma HitTestKeepsNonClient(defaultHit: int, noTitle: bool, inside: bool, x: int, y: int)
    requires defaultHit != HTCLIENT
    ensures HitTest(defaultHit, noTitle, inside, x, y) == defaultHit
  {
  }

  /** `WM_CONTEXTMENU` as written: the menu opens when `ClientPoint` is positive. */
  predicate ContextMenuAsWritten(inside: bool, x: int, y: int)
  {
    ClientPoint(inside, x, y) > 0
  }

  /** The client corner (0, 0) reads as "outside", so a right click there opens no menu. */
  lemma ContextMenuMissesCorner()
    ensures !ContextMenuAsWritten(true, 0, 0)
  {
  }

  /** The intended rule: any point in the client area opens the menu. */
  predicate ContextMenu(inside: bool, x: int, y: int)
  {
    inside
  }

  /** The two rules agree on every point except the client corner. */
  lemma ContextMenuAgreesOffCorner(inside: bool, x: int, y: int)
    requires 0 <= x < WORD_RANGE && 0 <= y < WORD_RANGE && (x, y) != (0, 0)
    ensures ContextMenuAsWritten(inside, x, y) <==> ContextMenu(inside, x, y)
  {
    if inside {
      assert MakeLparam(x, y) >= x + y * WORD_RANGE;
    }
  }
}

=== FILE: codec_roundtrip.dfy ===
/**
 * What reading back a file written by Notepad gives: the writer re-emits
 * every line break in the chosen style, and for the UTF-16 encodings and
 * UTF-8 with BOM the reader recovers exactly that text.  With the reader as
 * written, the UTF-8 BOM is lost on the next save.
 */
module CodecRoundTrip {
  import opened Win32
  import opened NotepadTypes
  import Utf8
  import opened TextCodec

  /**
   * The text with every line break -- CR LF, a lone CR or a lone LF -- replaced
   * by the terminator of style `e`; all other units keep their order.
   */
  function Normalize(t: Text, e: Eoln): (r: Text)
    decreases |t|
  {
    if t == [] then []
    else if |t| >= 2 && t[0] == CR && t[1] == LF then EolUnits(e) + Normalize(t[2..], e)
    else if IsBreak(t[0]) then EolUnits(e) + Normalize(t[1..], e)
    else [t[0]] + Normalize(t[1..], e)
  }

  /** The number of line breaks in `t`, counting CR LF once. */
  function Breaks(t: Text): nat
    decreases |t|
  {
    if t == [] then 0
    else if |t| >= 2 && t[0] == CR && t[1] == LF then 1 + Breaks(t[2..])
    else if IsBreak(t[0]) then 1 + Breaks(t[1..])
    else Breaks(t[1..])
  }

  predicate NoBreaks(t: Text)
  {
    forall i :: 0 <= i < |t| ==> !IsBreak(t[i])
  }

  // ---------------------------------------------------------------------
  // The byte image of a text in each encoding the round trip covers

  /** The bytes of `t` in encoding `enc`, for the encodings that can be read back. */
  function Image(enc: Encoding, t: Text): Bytes
    requires enc in {Utf16Le, Utf16Be, Utf8, Utf8Bom}
  {
    if enc == Utf16Le then LeBytes(t)
    else if enc == Utf16Be then Swab(LeBytes(t))
    else Utf8.Encode(t)
  }

  /** Two texts whose junction does not split a surrogate pair. */
  predicate Joinable(a: Text, b: Text)
  {
    a == [] || b == [] || !Utf8.IsHighSurrogate(a[|a| - 1]) || !Utf8.IsLowSurrogate(b[0])
  }

  lemma {:induction false} LeBytesAppend(a: Text, b: Text)
    ensures LeBytes(a + b) == LeBytes(a) + LeBytes(b)
    decreases |a|
  {
    if a == [] {
      assert a + b == b;
    } else {
      assert (a + b)[1..] == a[1..] + b;
      LeBytesAppend(a[1..], b);
    }
  }

  lemma {:induction false} SwabAppend(a: Bytes, b: Bytes)
    requires |a| % 2 == 0
    ensures Swab(a + b) == Swab(a) + Swab(b)
    decreases |a|
  {
    if a == [] {
      assert a + b == b;
    } else {
      assert (a + b)[2..] == a[2..] + b;
      SwabAppend(a[2..], b);
    }
  }

  /** Swapping the byte pairs twice restores the bytes. */
  lemma {:induction false} SwabSwab(b: Bytes)
    ensures Swab(Swab(b)) == b
    decreases |b|
  {
    if |b| >= 2 {
      SwabSwab(b[2..]);
      assert Swab(b)[2..] == Swab(b[2..]);
    }
  }

  /** Reading little-endian pairs undoes writing them. */
  lemma {:induction false} LeUnitsLeBytes(t: Text)
    ensures LeUnits(LeBytes(t)) == t
    decreases |t|
  {
    if t != [] {
      var b := LeBytes(t);
      assert b[2..] == LeBytes(t[1..]);
      LeUnitsLeBytes(t[1..]);
      assert (t[0] as int % 256) + 256 * (t[0] as int / 256) == t[0] as int;
    }
  }

  lemma {:induction false} EncodeAppend(a: Text, b: Text)
    requires Joinable(a, b)
    ensures Utf8.Encode(a + b) == Utf8.Encode(a) + Utf8.Encode(b)
    decreases |a|
  {
    if a == [] {
      assert a + b == b;
    } else {
      var n := HeadLength(a);
      HeadOfAppend(a, b);
      EncodeHead(a, n);
      EncodeHead(a + b, n);
      EncodeAppend(a[n..], b);
      var h, x, y := Utf8.Encode(a[..n]), Utf8.Encode(a[n..]), Utf8.Encode(b);
      assert Utf8.Encode(a + b) == h + Utf8.Encode(a[n..] + b);
      assert Utf8.Encode(a) == h + x;
      AppendAssociative(h, x, y);
    }
  }

  /** The number of units of the first character: 2 for a surrogate pair, else 1. */
  function HeadLength(t: Text): (n: nat)
    requires t != []
    ensures n == 1 || n == 2
    ensures n <= |t|
  {
    if |t| >= 2 && Utf8.IsHighSurrogate(t[0]) && Utf8.IsLowSurrogate(t[1]) then 2 else 1
  }

  /** Appending a joinable text does not change the first character. */
  lemma HeadOfAppend(a: Text, b: Text)
    requires a != [] && Joinable(a, b)
    ensures HeadLength(a + b) == HeadLength(a)
    ensures (a + b)[..HeadLength(a)] == a[..HeadLength(a)]
    ensures (a + b)[HeadLength(a)..] == a[HeadLength(a)..] + b
    ensures Joinable(a[HeadLength(a)..], b)
  {
    var ab := a + b;
    assert ab[0] == a[0];
    if |a| >= 2 {
      assert ab[1] == a[1];
    } else if |b| > 0 {
      assert ab[1] == b[0];
    }
  }

  /**
   * The encoder treats the first `n` units as one character: a surrogate
   * pair when they form one, else a single unit.
   */
  lemma EncodeHead(t: Text, n: nat)
    requires t != [] && n == HeadLength(t)
    ensures Utf8.Encode(t) == Utf8.Encode(t[..n]) + Utf8.Encode(t[n..])
  {
    if n == 1 {
      assert t[..1][1..] == [];
    } else {
      assert t[..2][2..] == [];
    }
  }

  lemma ImageAppend(enc: Encoding, a: Text, b: Text)
    requires enc in {Utf16Le, Utf16Be, Utf8, Utf8Bom}
    requires Joinable(a, b)
    ensures Image(enc, a + b) == Image(enc, a) + Image(enc, b)
  {
    LeBytesAppend(a, b);
    if enc == Utf16Be {
      SwabAppend(LeBytes(a), LeBytes(b));
    } else if enc in {Utf8, Utf8Bom} {
      EncodeAppend(a, b);
    }
  }

  /** A written line is the image of the line followed by its terminator. */
  lemma WriteOneLineImage(p: Platform, line: Text, enc: Encoding, eol: Option<Eoln>)
    requires enc in {Utf16Le, Utf16Be, Utf8, Utf8Bom}
    requires WriteOneLine(p, line, enc, eol).Ok?
    ensures WriteOneLine(p, line, enc, eol).value == Image(enc, line + TerminatorUnits(eol))
  {
    var r := WriteOneLine(p, line, enc, eol);
    if enc == Utf8 || enc == Utf8Bom {
      assert r.value == Utf8.Encode(line) + TerminatorBytes(eol);
      EncodeAppend(line, TerminatorUnits(eol));
      EncodeTerminator(eol);
    }
  }

  lemma EncodeTerminator(eol: Option<Eoln>)
    ensures Utf8.Encode(TerminatorUnits(eol)) == TerminatorBytes(eol)
  {
    if eol.Some? {
      var u := EolUnits(eol.value);
      if |u| == 2 {
        assert u[1..] == [LF];
        assert Utf8.Encode(u[1..]) == [0x0A];
      }
    }
  }

  // ---------------------------------------------------------------------
  // The writer produces the normalised text

  lemma {:induction false} NormalizeNoBreakPrefix(x: Text, y: Text, e: Eoln)
    requires NoBreaks(x)
    ensures Normalize(x + y, e) == x + Normalize(y, e)
    decreases |x|
  {
    if x == [] {
      assert x + y == y;
    } else {
      assert (x + y)[1..] == x[1..] + y;
      NormalizeNoBreakPrefix(x[1..], y, e);
    }
  }

  /** The length of the break at the start of `s`: 2 for CR LF, else 1. */
  function BreakLength(s: Text): nat
    requires s != []
  {
    if |s| >= 2 && s[0] == CR && s[1] == LF then 2 else 1
  }

  lemma NormalizeAtBreak(s: Text, e: Eoln)
    requires s != [] && IsBreak(s[0])
    ensures BreakLength(s) <= |s|
    ensures Normalize(s, e) == EolUnits(e) + Normalize(s[BreakLength(s)..], e)
  {
  }

  /**
   * The loop of `WriteText`, started with no line break between `pos` and
   * `next`, writes the image of the rest of the text with breaks normalised.
   */
  lemma {:induction false} WriteLinesImage(p: Platform, t: Text, enc: Encoding, e: Eoln, pos: nat, next: nat)
    requires enc in {Utf16Le, Utf16Be, Utf8, Utf8Bom}
    requires pos <= next <= |t|
    requires NoBreaks(t[pos..next])
    requires WriteLines(p, t, enc, e, pos, next).Ok?
    ensures WriteLines(p, t, enc, e, pos, next).value == Image(enc, Normalize(t[pos..], e))
    decreases |t| - next
  {
    if next < |t| {
      if IsBreak(t[next]) {
        var k := WriteLinesRest(p, t, enc, e, pos, next);
        assert t[k..k] == [];
        WriteLinesImage(p, t, enc, e, k, k);
        WriteLinesStepBreak(p, t, enc, e, pos, next);
      } else {
        NoBreaksExtend(t, pos, next);
        WriteLinesSkip(p, t, enc, e, pos, next);
        WriteLinesImage(p, t, enc, e, pos, next + 1);
      }
    } else {
      WriteLinesStepEnd(p, t, enc, e, pos, next);
    }
  }

  /** At a break, a loop that succeeds goes on from just after the break, and succeeds there too. */
  lemma WriteLinesRest(p: Platform, t: Text, enc: Encoding, e: Eoln, pos: nat, next: nat) returns (k: nat)
    requires pos <= next < |t| && IsBreak(t[next])
    requires WriteLines(p, t, enc, e, pos, next).Ok?
    ensures k == next + BreakLength(t[next..]) && k <= |t|
    ensures WriteLines(p, t, enc, e, k, k).Ok?
  {
    var skip := BreakLength(t[next..]);
    assert skip == if t[next] == CR && next + 1 < |t| && t[next + 1] == LF then 2 else 1;
    k := next + skip;
  }

  /** At a break, the loop writes the pending line with a terminator, then goes on after the break. */
  lemma WriteLinesAtBreak(p: Platform, t: Text, enc: Encoding, e: Eoln, pos: nat, next: nat) returns (k: nat)
    requires pos <= next < |t| && IsBreak(t[next])
    ensures k == next + BreakLength(t[next..]) && k <= |t|
    ensures WriteLines(p, t, enc, e, pos, next)
      == Then(WriteOneLine(p, t[pos..next], enc, Some(e)), WriteLines(p, t, enc, e, k, k))
  {
    var skip := BreakLength(t[next..]);
    assert skip == if t[next] == CR && next + 1 < |t| && t[next + 1] == LF then 2 else 1;
    k := next + skip;
  }

  /** Past a unit that is not a break, the loop just moves on. */
  lemma WriteLinesSkip(p: Platform, t: Text, enc: Encoding, e: Eoln, pos: nat, next: nat)
    requires pos <= next < |t| && !IsBreak(t[next])
    ensures WriteLines(p, t, enc, e, pos, next) == WriteLines(p, t, enc, e, pos, next + 1)
  {
  }

  lemma NoBreaksExtend(t: Text, pos: nat, next: nat)
    requires pos <= next < |t| && NoBreaks(t[pos..next]) && !IsBreak(t[next])
    ensures NoBreaks(t[pos..next + 1])
  {
    assert t[pos..next + 1] == t[pos..next] + [t[next]];
  }

  /** One step of the loop at a line break, given the rest is already known. */
  lemma WriteLinesStepBreak(p: Platform, t: Text, enc: Encoding, e: Eoln, pos: nat, next: nat)
    requires enc in {Utf16Le, Utf16Be, Utf8, Utf8Bom}
    requires pos <= next < |t| && IsBreak(t[next])
    requires NoBreaks(t[pos..next])
    requires WriteLines(p, t, enc, e, pos, next).Ok?
    requires var k := next + BreakLength(t[next..]);
      WriteLines(p, t, enc, e, k, k).Ok? ==>
      WriteLines(p, t, enc, e, k, k).value == Image(enc, Normalize(t[k..], e))
    ensures WriteLines(p, t, enc, e, pos, next).value == Image(enc, Normalize(t[pos..], e))
  {
    var line := t[pos..next];
    var k := WriteLinesAtBreak(p, t, enc, e, pos, next);
    var first := WriteOneLine(p, line, enc, Some(e));
    var second := WriteLines(p, t, enc, e, k, k);
    assert first.Ok? && second.Ok?;
    assert WriteLines(p, t, enc, e, pos, next).value == first.value + second.value;
    WriteOneLineImage(p, line, enc, Some(e));
    assert TerminatorUnits(Some(e)) == EolUnits(e);
    var rest := Normalize(t[k..], e);
    assert second.value == Image(enc, rest);
    NormalizeLine(t, e, pos, next);
    TerminatedJoinable(line, e, rest);
    ImageAppend(enc, line + EolUnits(e), rest);
    assert Normalize(t[pos..], e) == (line + EolUnits(e)) + rest;
  }

  /** The normalised text from `pos` is the pending line, a terminator, and the rest normalised. */
  lemma NormalizeLine(t: Text, e: Eoln, pos: nat, next: nat)
    requires pos <= next < |t| && IsBreak(t[next])
    requires NoBreaks(t[pos..next])
    ensures next + BreakLength(t[next..]) <= |t|
    ensures Normalize(t[pos..], e)
      == (t[pos..next] + EolUnits(e)) + Normalize(t[next + BreakLength(t[next..])..], e)
  {
    var line := t[pos..next];
    var skip := BreakLength(t[next..]);
    assert t[next..][skip..] == t[next + skip..];
    NormalizeAtBreak(t[next..], e);
    assert t[pos..] == line + t[next..];
    NormalizeNoBreakPrefix(line, t[next..], e);
  }

  /** A line that ends with a terminator can be joined to anything. */
  lemma TerminatedJoinable(line: Text, e: Eoln, rest: Text)
    ensures Joinable(line + EolUnits(e), rest)
  {
    var head := line + EolUnits(e);
    assert head[|head| - 1] == EolUnits(e)[|EolUnits(e)| - 1];
  }

  /** The loop's exit: the pending segment is written without a terminator. */
  lemma WriteLinesStepEnd(p: Platform, t: Text, enc: Encoding, e: Eoln, pos: nat, next: nat)
    requires enc in {Utf16Le, Utf16Be, Utf8, Utf8Bom}
    requires pos <= next == |t|
    requires NoBreaks(t[pos..next])
    requires WriteLines(p, t, enc, e, pos, next).Ok?
    ensures WriteLines(p, t, enc, e, pos, next).value == Image(enc, Normalize(t[pos..], e))
  {
    var line := t[pos..next];
    assert t[pos..] == line + [];
    NormalizeNoBreakPrefix(line, [], e);
    if next > pos {
      WriteOneLineImage(p, line, enc, None);
      assert line + [] == line;
    } else {
      assert line == [];
    }
  }

  /** `WriteText` writes the BOM and then the image of the normalised text. */
  lemma WriteTextImage(p: Platform, t: Text, enc: Encoding, e: Eoln)
    requires enc in {Utf16Le, Utf16Be, Utf8Bom}
    requires WriteText(p, t, enc, e).Ok?
    ensures WriteText(p, t, enc, e).value == Image(enc, [BOM] + Normalize(t, e))
  {
    WriteOneLineImage(p, [BOM], enc, None);
    assert [BOM] + [] == [BOM];
    assert t[0..] == t;
    WriteLinesImage(p, t, enc, e, 0, 0);
    ImageAppend(enc, [BOM], Normalize(t, e));
  }

  // ---------------------------------------------------------------------
  // The census of a normalised text

  /** The census counts of a text are those of its parts, plus a pair across the junction. */
  lemma CensusAppend(a: Text, b: Text)
    ensures Occurrences(a + b, CR) == Occurrences(a, CR) + Occurrences(b, CR)
    ensures Occurrences(a + b, LF) == Occurrences(a, LF) + Occurrences(b, LF)
    ensures CrLfPairs(a + b) == CrLfPairs(a) + CrLfPairs(b)
      + (if |a| > 0 && |b| > 0 && a[|a| - 1] == CR && b[0] == LF then 1 else 0)
  {
    assert multiset(a + b) == multiset(a) + multiset(b);
    CrLfPairsAppend(a, b);
  }

  lemma EolCounts(e: Eoln)
    ensures Occurrences(EolUnits(e), CR) == (if e == Lf then 0 else 1)
    ensures Occurrences(EolUnits(e), LF) == (if e == Cr then 0 else 1)
    ensures CrLfPairs(EolUnits(e)) == (if e == CrLf then 1 else 0)
  {
    if e == CrLf {
      assert EolUnits(e) == [CR] + [LF];
      assert multiset(EolUnits(e)) == multiset([CR]) + multiset([LF]);
    }
  }

  lemma {:induction false} NormalizeCounts(t: Text, e: Eoln)
    ensures Occurrences(Normalize(t, e), CR) == (if e == Lf then 0 else Breaks(t))
    ensures Occurrences(Normalize(t, e), LF) == (if e == Cr then 0 else Breaks(t))
    ensures CrLfPairs(Normalize(t, e)) == (if e == CrLf then Breaks(t) else 0)
    decreases |t|
  {
    if t != [] {
      var n := if |t| >= 2 && t[0] == CR && t[1] == LF then 2 else 1;
      var head := if IsBreak(t[0]) then EolUnits(e) else [t[0]];
      NormalizeCounts(t[n..], e);
      assert Normalize(t, e) == head + Normalize(t[n..], e);
      assert Breaks(t) == (if IsBreak(t[0]) then 1 else 0) + Breaks(t[n..]);
      CountsStep(head, Normalize(t[n..], e), e, IsBreak(t[0]), Breaks(t[n..]));
    }
  }

  /** The census of one normalised character followed by a normalised rest with `b` breaks. */
  lemma CountsStep(head: Text, rest: Text, e: Eoln, brk: bool, b: nat)
    requires brk ==> head == EolUnits(e)
    requires !brk ==> |head| == 1 && !IsBreak(head[0])
    requires Occurrences(rest, CR) == (if e == Lf then 0 else b)
    requires Occurrences(rest, LF) == (if e == Cr then 0 else b)
    requires CrLfPairs(rest) == (if e == CrLf then b else 0)
    ensures var k := b + (if brk then 1 else 0);
      && Occurrences(head + rest, CR) == (if e == Lf then 0 else k)
      && Occurrences(head + rest, LF) == (if e == Cr then 0 else k)
      && CrLfPairs(head + rest) == (if e == CrLf then k else 0)
  {
    CensusAppend(head, rest);
    if brk {
      EolCounts(e);
    }
    if e == Cr && rest != [] {
      assert rest[0] in multiset(rest);
    }
  }

  lemma {:induction false} BreaksExist(t: Text)
    ensures Breaks(t) > 0 <==> !NoBreaks(t)
    decreases |t|
  {
    if t != [] {
      var n := if |t| >= 2 && t[0] == CR && t[1] == LF then 2 else 1;
      BreaksExist(t[n..]);
      if n == 2 {
        assert t[0] == CR;
      } else if !IsBreak(t[0]) {
        assert NoBreaks(t) <==> NoBreaks(t[1..]) by {
          if NoBreaks(t[1..]) {
            forall i | 0 <= i < |t| ensures !IsBreak(t[i]) {
              if i > 0 { assert t[i] == t[1..][i - 1]; }
            }
          }
        }
      }
    }
  }

  /** The census of a normalised text finds the chosen style, or LF when there is no break. */
  lemma NormalizeCensus(t: Text, e: Eoln)
    ensures CensusEoln(Normalize(t, e)) == if NoBreaks(t) then Lf else e
  {
    NormalizeCounts(t, e);
    BreaksExist(t);
  }

  // ---------------------------------------------------------------------
  // Round trips

  /**
   * A UTF-16 (LE or BE) file written by `WriteText` reads back as the
   * normalised text (NULs as spaces), in the same encoding, with the chosen
   * end-of-line style when the text has any break.
   */
  lemma Utf16RoundTrip(p: Platform, t: Text, enc: Encoding, e: Eoln)
    requires enc in {Utf16Le, Utf16Be}
    requires WriteText(p, t, enc, e).Ok?
    ensures ReadText(p, WriteText(p, t, enc, e).value)
      == Ok(Loaded(NulToSpace(Normalize(t, e)), enc, if NoBreaks(t) then Lf else e))
  {
    var n := Normalize(t, e);
    var b := WriteText(p, t, enc, e).value;
    WriteTextImage(p, t, enc, e);
    Utf16BomImage(enc, n);
    assert b[..2] == BomOf(enc) && b[2..] == Image(enc, n);
    DetectUtf16Bom(p, enc, b);
    Utf16ImageUnits(p, enc, n);
    NormalizeCensus(t, e);
    if n == [] {
      assert NulToSpace(n) == [];
    }
  }

  /** A UTF-16 image with the BOM in front is the writer's BOM followed by the image. */
  lemma Utf16BomImage(enc: Encoding, n: Text)
    requires enc in {Utf16Le, Utf16Be}
    ensures Image(enc, [BOM] + n) == BomOf(enc) + Image(enc, n)
  {
    LeBytesAppend([BOM], n);
    assert LeBytes([BOM]) == UTF16LE_BOM;
    if enc == Utf16Be {
      SwabAppend(LeBytes([BOM]), LeBytes(n));
      assert Swab(UTF16LE_BOM) == UTF16BE_BOM;
    }
  }

  /** A buffer starting with a UTF-16 BOM is detected as that encoding, with the BOM skipped. */
  lemma DetectUtf16Bom(p: Platform, enc: Encoding, b: Bytes)
    requires enc in {Utf16Le, Utf16Be}
    requires |b| >= 2 && b[..2] == BomOf(enc)
    ensures AnalyzeEncoding(p, b) == Detection(enc, 2)
  {
    if |b| >= 3 {
      assert b[..3][..2] == b[..2];
    }
  }

  /** Decoding the UTF-16 image of a non-empty text gives the text back. */
  lemma Utf16ImageUnits(p: Platform, enc: Encoding, n: Text)
    requires enc in {Utf16Le, Utf16Be}
    ensures n != [] ==> DecodePayload(p, enc, Image(enc, n)) == Ok(n)
  {
    LeUnitsLeBytes(n);
    if enc == Utf16Be {
      SwabSwab(LeBytes(n));
    }
  }

  /** The reader as written recovers a UTF-16 LE file the same way once it has text. */
  lemma Utf16LeRoundTripAsWritten(p: Platform, t: Text, e: Eoln, prevEoln: Eoln)
    requires WriteText(p, t, Utf16Le, e).Ok?
    requires t != []
    ensures ReadTextAsWritten(p, WriteText(p, t, Utf16Le, e).value, prevEoln)
      == Ok(Loaded(NulToSpace(Normalize(t, e)), Utf16Le, if NoBreaks(t) then Lf else e))
  {
    Utf16RoundTrip(p, t, Utf16Le, e);
    NormalizeNonEmpty(t, e);
  }

  lemma NormalizeNonEmpty(t: Text, e: Eoln)
    ensures t != [] <==> Normalize(t, e) != []
  {
  }

  /**
   * The reader as written faults on every non-empty UTF-16 BE file Notepad
   * writes: it swaps the bytes inside the read-only view of the file.
   */
  lemma Utf16BeFaultsAsWritten(p: Platform, t: Text, e: Eoln, prevEoln: Eoln)
    requires WriteText(p, t, Utf16Be, e).Ok?
    requires t != []
    ensures ReadTextAsWritten(p, WriteText(p, t, Utf16Be, e).value, prevEoln) == Err(ReadOnlyViewWritten)
  {
    Utf16RoundTrip(p, t, Utf16Be, e);
    NormalizeNonEmpty(t, e);
  }

  // ---------------------------------------------------------------------
  // UTF-8 with BOM

  /** The file written in UTF-8 with signature is the signature followed by the encoded normal form. */
  lemma Utf8BomImage(p: Platform, t: Text, e: Eoln)
    requires WriteText(p, t, Utf8Bom, e).Ok?
    ensures WriteText(p, t, Utf8Bom, e).value == UTF8_BOM + Utf8.Encode(Normalize(t, e))
  {
    WriteTextImage(p, t, Utf8Bom, e);
    EncodeAppend([BOM], Normalize(t, e));
    assert Utf8.Encode([BOM]) == UTF8_BOM;
  }

  /** What the corrected reader makes of a file that starts with the UTF-8 signature. */
  lemma ReadUtf8Bom(p: Platform, payload: Bytes)
    ensures var u := Utf8.Decode(payload);
      ReadText(p, UTF8_BOM + payload) == Ok(Loaded(NulToSpace(u), Utf8Bom, CensusEoln(u)))
  {
    var b := UTF8_BOM + payload;
    assert b[..3] == UTF8_BOM;
    assert b[3..] == payload;
    if payload == [] {
      assert Utf8.Decode(payload) == [];
      assert NulToSpace([]) == [];
    }
  }

  /** A UTF-8 file with BOM reads back as the normalised text in the same encoding. */
  lemma Utf8BomRoundTrip(p: Platform, t: Text, e: Eoln)
    requires WriteText(p, t, Utf8Bom, e).Ok?
    ensures ReadText(p, WriteText(p, t, Utf8Bom, e).value)
      == Ok(Loaded(NulToSpace(Utf8.Sanitize(Normalize(t, e))), Utf8Bom, if NoBreaks(t) then Lf else e))
  {
    var n := Normalize(t, e);
    Utf8BomImage(p, t, e);
    ReadUtf8Bom(p, Utf8.Encode(n));
    Utf8.DecodeEncode(n);
    SanitizeKeepsBreaks(n);
    NormalizeCensus(t, e);
  }

  /** The reader as written takes the signature for plain UTF-8 (see `Utf8BomLostAsWritten`). */
  lemma ReadUtf8BomAsWritten(p: Platform, payload: Bytes, prevEoln: Eoln)
    ensures ReadTextAsWritten(p, UTF8_BOM + payload, prevEoln).Ok?
    ensures ReadTextAsWritten(p, UTF8_BOM + payload, prevEoln).value.enc == Utf8
  {
    var b := UTF8_BOM + payload;
    assert b[..3] == UTF8_BOM;
    assert b[3..] == payload;
  }

  lemma Utf8BomLostAsWritten(p: Platform, t: Text, e: Eoln, prevEoln: Eoln)
    requires WriteText(p, t, Utf8Bom, e).Ok?
    ensures var b := WriteText(p, t, Utf8Bom, e).value;
      ReadTextAsWritten(p, b, prevEoln).Ok? && ReadTextAsWritten(p, b, prevEoln).value.enc == Utf8
      && WriteText(p, t, Utf8, e) == Ok(b[3..])
  {
    var n := Normalize(t, e);
    Utf8BomImage(p, t, e);
    ReadUtf8BomAsWritten(p, Utf8.Encode(n), prevEoln);
    WriteLinesUtf8Same(p, t, e, 0, 0);
    Utf8BomHead(p);
    assert WriteLines(p, t, Utf8, e, 0, 0).Ok?;
    var body := WriteLines(p, t, Utf8, e, 0, 0).value;
    assert WriteText(p, t, Utf8Bom, e).value == UTF8_BOM + body;
    assert (UTF8_BOM + body)[3..] == body;
    assert [] + body == body;
    assert WriteText(p, t, Utf8, e) == Ok(body);
  }

  /** The signature line is the three signature bytes. */
  lemma Utf8BomHead(p: Platform)
    ensures WriteOneLine(p, [BOM], Utf8Bom, None) == Ok(UTF8_BOM)
  {
    assert Utf8.Encode([BOM]) == UTF8_BOM;
  }

  /** UTF-8 with and without BOM write identical lines. */
  lemma {:induction false} WriteLinesUtf8Same(p: Platform, t: Text, e: Eoln, pos: nat, next: nat)
    requires pos <= next <= |t|
    ensures WriteLines(p, t, Utf8, e, pos, next) == WriteLines(p, t, Utf8Bom, e, pos, next)
    decreases |t| - next
  {
    if next < |t| {
      if IsBreak(t[next]) {
        var k := WriteLinesAtBreak(p, t, Utf8, e, pos, next);
        var k' := WriteLinesAtBreak(p, t, Utf8Bom, e, pos, next);
        WriteOneLineUtf8Same(p, t[pos..next], Some(e));
        WriteLinesUtf8Same(p, t, e, k, k);
      } else {
        WriteLinesSkip(p, t, Utf8, e, pos, next);
        WriteLinesSkip(p, t, Utf8Bom, e, pos, next);
        WriteLinesUtf8Same(p, t, e, pos, next + 1);
      }
    } else {
      WriteOneLineUtf8Same(p, t[pos..next], None);
    }
  }

  lemma WriteOneLineUtf8Same(p: Platform, line: Text, eol: Option<Eoln>)
    ensures WriteOneLine(p, line, Utf8, eol) == WriteOneLine(p, line, Utf8Bom, eol)
  {
    assert NarrowLine(p, line, Utf8) == NarrowLine(p, line, Utf8Bom);
  }

  /** `Sanitize` keeps the first unit unless it is a surrogate, and never produces a NUL. */
  lemma SanitizeHead(t: Text)
    ensures Utf8.Sanitize(t) == [] <==> t == []
    ensures t != [] && !Utf8.IsHighSurrogate(t[0]) && !Utf8.IsLowSurrogate(t[0]) ==> Utf8.Sanitize(t)[0] == t[0]
    ensures t != [] ==> Utf8.IsHighSurrogate(t[0]) || Utf8.IsLowSurrogate(t[0]) ==>
              Utf8.Sanitize(t)[0] == t[0] || Utf8.Sanitize(t)[0] == Utf8.REPLACEMENT
  {
  }

  /** Two one- or two-unit heads with the same breaks have the same CR and LF counts. */
  lemma HeadCensus(a: Text, b: Text)
    requires 1 <= |a| == |b| <= 2
    requires forall i :: 0 <= i < |a| ==> (a[i] == CR <==> b[i] == CR) && (a[i] == LF <==> b[i] == LF)
    ensures Occurrences(a, CR) == Occurrences(b, CR)
    ensures Occurrences(a, LF) == Occurrences(b, LF)
  {
    if |a| == 2 {
      assert a == [a[0]] + [a[1]] && b == [b[0]] + [b[1]];
      assert multiset(a) == multiset([a[0]]) + multiset([a[1]]);
      assert multiset(b) == multiset([b[0]]) + multiset([b[1]]);
    } else {
      assert a == [a[0]] && b == [b[0]];
    }
  }

  /** Same breaks at the same places in the heads, and the same census in the tails, give the same census. */
  lemma CensusStep(a: Text, ha: Text, r: Text, hr: Text)
    requires 1 <= |a| == |ha| <= 2
    requires forall i :: 0 <= i < |a| ==> (a[i] == CR <==> ha[i] == CR) && (a[i] == LF <==> ha[i] == LF)
    requires Occurrences(hr, CR) == Occurrences(r, CR) && Occurrences(hr, LF) == Occurrences(r, LF)
    requires CrLfPairs(hr) == CrLfPairs(r)
    requires (hr != [] && hr[0] == LF) <==> (r != [] && r[0] == LF)
    ensures Occurrences(ha + hr, CR) == Occurrences(a + r, CR)
    ensures Occurrences(ha + hr, LF) == Occurrences(a + r, LF)
    ensures CrLfPairs(ha + hr) == CrLfPairs(a + r)
  {
    OccurrencesAppend(a, r);
    OccurrencesAppend(ha, hr);
    HeadCensus(a, ha);
    HeadPairs(a, ha);
    PairsStep(a, ha, r, hr);
  }

  lemma OccurrencesAppend(a: Text, b: Text)
    ensures Occurrences(a + b, CR) == Occurrences(a, CR) + Occurrences(b, CR)
    ensures Occurrences(a + b, LF) == Occurrences(a, LF) + Occurrences(b, LF)
  {
    assert multiset(a + b) == multiset(a) + multiset(b);
  }

  /** One- or two-unit heads with the same breaks have the same pairs and the same final CR. */
  lemma HeadPairs(a: Text, ha: Text)
    requires 1 <= |a| == |ha| <= 2
    requires forall i :: 0 <= i < |a| ==> (a[i] == CR <==> ha[i] == CR) && (a[i] == LF <==> ha[i] == LF)
    ensures CrLfPairs(a) == CrLfPairs(ha) && (a[|a| - 1] == CR <==> ha[|ha| - 1] == CR)
  {
    if |a| == 2 {
      assert CrLfPairs(a[1..]) == 0 == CrLfPairs(ha[1..]);
    }
  }

  /** Heads with the same pairs and final CR, tails with the same pairs and leading LF: same pairs. */
  lemma PairsStep(a: Text, ha: Text, r: Text, hr: Text)
    requires a != [] && ha != []
    requires CrLfPairs(a) == CrLfPairs(ha) && (a[|a| - 1] == CR <==> ha[|ha| - 1] == CR)
    requires CrLfPairs(hr) == CrLfPairs(r)
    requires (hr != [] && hr[0] == LF) <==> (r != [] && r[0] == LF)
    ensures CrLfPairs(ha + hr) == CrLfPairs(a + r)
  {
    CrLfPairsAppend(a, r);
    CrLfPairsAppend(ha, hr);
  }

  lemma {:induction false} SanitizeKeepsBreaks(t: Text)
    ensures Occurrences(Utf8.Sanitize(t), CR) == Occurrences(t, CR)
    ensures Occurrences(Utf8.Sanitize(t), LF) == Occurrences(t, LF)
    ensures CrLfPairs(Utf8.Sanitize(t)) == CrLfPairs(t)
    decreases |t|
  {
    if t != [] {
      var n := HeadLength(t);
      var rest := t[n..];
      var head := SanitizeFirst(t);
      assert t == t[..n] + rest;
      SanitizeKeepsBreaks(rest);
      SanitizeHead(rest);
      CensusStep(t[..n], head, rest, Utf8.Sanitize(rest));
    }
  }

  /**
   * What `Sanitize` makes of the first character of `t`: a surrogate pair is
   * kept, a lone surrogate becomes U+FFFD, anything else is kept.  Line breaks
   * are never surrogates, so the head keeps its CRs and LFs in place.
   */
  function SanitizeFirst(t: Text): (h: Text)
    requires t != []
    ensures |h| == HeadLength(t)
    ensures Utf8.Sanitize(t) == h + Utf8.Sanitize(t[HeadLength(t)..])
    ensures forall i :: 0 <= i < |h| ==> (t[i] == CR <==> h[i] == CR) && (t[i] == LF <==> h[i] == LF)
  {
    if HeadLength(t) == 2 then t[..2]
    else if Utf8.IsHighSurrogate(t[0]) || Utf8.IsLowSurrogate(t[0]) then [Utf8.REPLACEMENT]
    else [t[0]]
  }
}

=== FILE: decimal.dfy ===
/**
 * Decimal text of integers, as the C runtime writes it (`_itow_s` with
 * radix 10, and `"%02d"`) and as `_wtoi` takes it back: leading blanks,
 * an optional sign, then the longest run of ASCII digits.
 */
module Decimal {
  import opened Win32

  predicate IsDigit(c: char)
  {
    '0' <= c <= '9'
  }

  function DigitChar(d: int): (c: char)
    requires 0 <= d < 10
    ensures IsDigit(c) && c as int - '0' as int == d
  {
    ('0' as int + d) as char
  }

  /** The value of a string of digits, most significant first. */
  function Value(s: string): (v: nat)
    requires forall i :: 0 <= i < |s| ==> IsDigit(s[i])
    decreases |s|
  {
    if s == [] then 0
    else
      assert IsDigit(s[|s| - 1]);
      Value(s[..|s| - 1]) * 10 + (s[|s| - 1] as int - '0' as int)
  }

  /** The shortest digit string of `n` (`"0"` for zero). */
  function Digits(n: nat): (s: string)
    ensures |s| > 0
    ensures forall i :: 0 <= i < |s| ==> IsDigit(s[i])
    ensures |s| > 1 ==> s[0] != '0'
    decreases n
  {
    if n < 10 then [DigitChar(n)] else Digits(n / 10) + [DigitChar(n % 10)]
  }

  lemma {:induction false} ValueDigits(n: nat)
    ensures Value(Digits(n)) == n
    decreases n
  {
    if n >= 10 {
      ValueDigits(n / 10);
      var s := Digits(n);
      assert s[..|s| - 1] == Digits(n / 10);
    }
  }

  /** `_itow_s(v, buf, n, 10)`: a minus sign before the digits of a negative value. */
  function FormatInt(v: int): (s: string)
    ensures |s| > 0
    ensures v < 0 <==> s[0] == '-'
  {
    if v < 0 then "-" + Digits(-v) else Digits(v)
  }

  /** The longest prefix of `s` made of digits. */
  function LeadingDigits(s: string): (d: string)
    ensures d <= s
    ensures forall i :: 0 <= i < |d| ==> IsDigit(s[i])
    ensures |d| < |s| ==> !IsDigit(s[|d|])
    decreases |s|
  {
    if s != [] && IsDigit(s[0]) then [s[0]] + LeadingDigits(s[1..]) else []
  }

  lemma {:induction false} LeadingDigitsOfDigits(s: string, rest: string)
    requires forall i :: 0 <= i < |s| ==> IsDigit(s[i])
    requires rest == [] || !IsDigit(rest[0])
    ensures LeadingDigits(s + rest) == s
    decreases |s|
  {
    if s == [] {
      assert s + rest == rest;
    } else {
      var t := s + rest;
      assert t[0] == s[0] && IsDigit(t[0]);
      assert t[1..] == s[1..] + rest;
      LeadingDigitsOfDigits(s[1..], rest);
      assert LeadingDigits(t) == [s[0]] + s[1..];
      assert [s[0]] + s[1..] == s;
    }
  }

  /** Signed value of an optional `-` or `+` followed by leading digits. */
  function SignedLeading(s: string): int
  {
    if s != [] && s[0] == '-' then 0 - Value(LeadingDigits(s[1..]))
    else if s != [] && s[0] == '+' then Value(LeadingDigits(s[1..]))
    else Value(LeadingDigits(s))
  }

  /** Formatting then reading back gives the same integer. */
  lemma SignedLeadingFormat(v: int)
    ensures SignedLeading(FormatInt(v)) == v
  {
    if v < 0 {
      assert FormatInt(v)[1..] == Digits(-v);
      LeadingDigitsOfDigits(Digits(-v), []);
      assert Digits(-v) + [] == Digits(-v);
      ValueDigits(-v);
    } else {
      LeadingDigitsOfDigits(Digits(v), []);
      assert Digits(v) + [] == Digits(v);
      ValueDigits(v);
    }
  }

  /** `"%02d"` for a value below 100: at least two digits, zero padded. */
  function Pad2(n: nat): (s: string)
    requires n < 100
    ensures |s| == 2 && IsDigit(s[0]) && IsDigit(s[1])
    ensures Value(s) == n
  {
    var s := [DigitChar(n / 10), DigitChar(n % 10)];
    assert s[..1][..0] == [];
    assert Value(s[..1]) == n / 10;
    s
  }

  /** White space skipped by `_wtoi`: blank, tab and the line-control characters. */
  predicate IsSpace(c: char)
  {
    c == ' ' || '\t' <= c <= '\r'
  }

  function SkipSpace(s: string): (r: string)
    ensures |r| <= |s| && r == s[|s| - |r|..]
    ensures r == [] || !IsSpace(r[0])
    decreases |s|
  {
    if s != [] && IsSpace(s[0]) then SkipSpace(s[1..]) else s
  }

  /**
   * `_wtoi`: leading blanks, a sign, then digits; a value outside the
   * `int` range saturates at `INT_MIN` or `INT_MAX`.
   */
  function Wtoi(s: string): (v: int)
    ensures INT_MIN <= v <= INT_MAX
  {
    var x := SignedLeading(SkipSpace(s));
    if x < INT_MIN then INT_MIN else if x > INT_MAX then INT_MAX else x
  }

  /** The digits of a value in the `int` range read back as that value. */
  lemma WtoiOfPositive(n: nat)
    requires 0 < n <= INT_MAX
    ensures Wtoi(Digits(n)) == n
  {
    var d := Digits(n);
    assert FormatInt(n) == d;
    SignedLeadingFormat(n);
    assert IsDigit(d[0]) && !IsSpace(d[0]);
    assert SkipSpace(d) == d;
    assert SignedLeading(d) == n;
  }

  /** A string that does not begin with a sign, blank or digit reads as zero. */
  lemma WtoiOfWord(s: string)
    requires s != [] && !IsSpace(s[0]) && !IsDigit(s[0]) && s[0] != '-' && s[0] != '+'
    ensures Wtoi(s) == 0
  {
  }
}

=== FILE: dialog_rules.dfy ===
/**
 * The decision rules of Notepad's dialogs: how a tab's FILEMODE moves
 * (caption refresh, the periodic on-disk check, open and save), the guards
 * of `TrySaveFile`, the choices the Save-As hook offers and stores, and the
 * GoTo line check.
 */
module DialogRules {
  import opened Win32
  import opened NotepadTypes
  import FileUtils

  // ---------------------------------------------------------------------
  // FILEMODE transitions

  /**
   * `UpdateWindowCaption(clearModifyAlert)`: returns the new mode and the new
   * remembered modify flag `Globals.bWasModified`.  A NORMAL tab whose edit
   * control reports a change becomes EDITING; nothing happens when the
   * flag is what was last seen.
   */
  function CaptionUpdate(mode: FileMode, clearModify: bool, editModified: bool, wasModified: bool): (r: (FileMode, bool))
    ensures r.0 != mode ==> mode == Normal && r.0 == Editing
    ensures r.0 == Editing <==> mode == Editing || (mode == Normal && !clearModify && editModified && !wasModified)
    ensures clearModify ==> r == (mode, false)
  {
    var isModified := if clearModify then false else editModified;
    if !clearModify && isModified == wasModified then (mode, wasModified)
    else if mode == Normal && isModified then (Editing, isModified)
    else (mode, isModified)
  }

  /** The outcome of `CheckFileModeChange`: the new mode and whether the file is reloaded. */
  datatype ModeCheck = ModeCheck(mode: FileMode, reload: bool)

  /**
   * `CheckFileModeChange`: with the file's attributes unreadable, CLASH
   * falls back to EDITING and READONLY to NORMAL.  When the write time
   * differs from the stored one, an unmodified buffer is reloaded and an
   * EDITING one becomes CLASH.  An untitled tab is not checked.
   */
  function CheckFileModeChange(fileName: string, mode: FileMode, diskTime: Option<FileTime>,
                               stored: FileTime, editModified: bool): (r: ModeCheck)
    requires diskTime.Some? ==> diskTime.value.Valid()
    requires stored.Valid()
    ensures r.reload <==> fileName != "" && diskTime.Some? && FileUtils.FileTimeCompareAsWritten(diskTime.value, stored) != 0 && !editModified
    ensures r.mode != mode ==>
      || (diskTime.None? && mode == Clash && r.mode == Editing)
      || (diskTime.None? && mode == ReadOnly && r.mode == Normal)
      || (diskTime.Some? && mode == Editing && r.mode == Clash && editModified)
  {
    if fileName == "" then ModeCheck(mode, false)
    else match diskTime
      case None =>
        if mode == Clash then ModeCheck(Editing, false)
        else if mode == ReadOnly then ModeCheck(Normal, false)
        else ModeCheck(mode, false)
      case Some(t) =>
        if FileUtils.FileTimeCompareAsWritten(t, stored) == 0 then ModeCheck(mode, false)
        else if !editModified then ModeCheck(mode, true)
        else if mode == Editing then ModeCheck(Clash, false)
        else ModeCheck(mode, false)
  }

  /** The mode `DoOpenFile` gives a loaded file: READONLY for read-only, hidden or system files. */
  function OpenMode(readOnlyAttr: bool): (m: FileMode)
    ensures m in {Normal, ReadOnly} && (m == ReadOnly <==> readOnlyAttr)
  {
    if readOnlyAttr then ReadOnly else Normal
  }

  /**
   * No transition enters OUTDATE: a new tab starts NORMAL, open gives
   * NORMAL or READONLY, save gives NORMAL, and the caption refresh and disk
   * check only move between the other four.  The OUTDATE case of
   * `TryOpenFile` is therefore never taken.
   */
  lemma OutdateNeverEntered(mode: FileMode, clearModify: bool, editModified: bool, wasModified: bool,
                            fileName: string, diskTime: Option<FileTime>, stored: FileTime, readOnlyAttr: bool)
    requires mode != Outdate
    requires diskTime.Some? ==> diskTime.value.Valid()
    requires stored.Valid()
    ensures ZERO_EDIT_INFO.mode != Outdate
    ensures CaptionUpdate(mode, clearModify, editModified, wasModified).0 != Outdate
    ensures CheckFileModeChange(fileName, mode, diskTime, stored, editModified).mode != Outdate
    ensures OpenMode(readOnlyAttr) != Outdate
  {
  }

  /** Refreshing the caption twice in a row changes nothing the second time. */
  lemma CaptionUpdateSettles(mode: FileMode, clearModify: bool, editModified: bool, wasModified: bool)
    ensures var r := CaptionUpdate(mode, clearModify, editModified, wasModified);
      !clearModify ==> CaptionUpdate(r.0, false, editModified, r.1) == r
  {
  }

  // ---------------------------------------------------------------------
  // TrySaveFile

  /** The answer to the "Unicode characters will be lost" box (MB_ABORTRETRYIGNORE). */
  datatype LossReply = Abort | Retry | Ignore

  /** What `TrySaveFile` does before writing. */
  datatype SaveStep = Refused | ToSaveAs | Proceed

  /** The size of `testbuf`. */
  const TESTBUF: int := 100000

  /**
   * How many units `GetWindowTextW(hEdit, testbuf, min(cchText, 100000))`
   * copies: the count passed includes the terminating NUL.
   */
  function ProbeLength(cch: int): (n: int)
    requires cch > 0
    ensures 0 <= n < cch && n < TESTBUF
    ensures cch <= TESTBUF ==> n == cch - 1
  {
    (if cch < TESTBUF then cch else TESTBUF) - 1
  }

  /**
   * The guard of `TrySaveFile` as written: refused for a READONLY tab, a
   * read-only edit control or empty text; for ANSI the text is probed with
   * the OEM code page over the units `GetWindowTextW` copied, and a probe
   * of nothing counts as a failure.
   */
  function SaveGuardAsWritten(readOnly: bool, text: Text, enc: Encoding,
                              oemLoses: Text -> bool, reply: LossReply): (r: SaveStep)
    ensures readOnly || text == [] ==> r == Refused
    ensures !readOnly && text != [] && enc != AnsiOem ==> r == Proceed
    ensures !readOnly && enc == AnsiOem && |text| == 1 ==> r == Refused
  {
    if readOnly || |text| == 0 then Refused
    else if enc != AnsiOem then Proceed
    else
      var n := ProbeLength(|text|);
      if n == 0 then Refused
      else if !oemLoses(text[..n]) then Proceed
      else match reply
        case Retry => ToSaveAs
        case Abort => Refused
        case Ignore => Proceed
  }

  /**
   * The guard probing the whole text with the code page the writer uses
   * (`CP_ACP`).
   */
  function SaveGuard(readOnly: bool, text: Text, enc: Encoding,
                     acpLoses: Text -> bool, reply: LossReply): (r: SaveStep)
    ensures readOnly || text == [] ==> r == Refused
    ensures !readOnly && text != [] && enc != AnsiOem ==> r == Proceed
    ensures r == Proceed <==> !readOnly && text != [] && (enc != AnsiOem || !acpLoses(text) || reply == Ignore)
    ensures r == ToSaveAs <==> !readOnly && text != [] && enc == AnsiOem && acpLoses(text) && reply == Retry
  {
    if readOnly || |text| == 0 then Refused
    else if enc != AnsiOem || !acpLoses(text) then Proceed
    else match reply
      case Retry => ToSaveAs
      case Abort => Refused
      case Ignore => Proceed
  }

  /** When leaving the last unit out of the probe does not change whether text is lost, both guards decide alike. */
  lemma SaveGuardsAgree(readOnly: bool, text: Text, enc: Encoding, loses: Text -> bool, reply: LossReply)
    requires 1 < |text| <= TESTBUF
    requires loses(text[..|text| - 1]) == loses(text)
    ensures SaveGuardAsWritten(readOnly, text, enc, loses, reply) == SaveGuard(readOnly, text, enc, loses, reply)
  {
  }

  /**
   * As written, a one-character ANSI document cannot be saved, and a loss in
   * the last character goes unreported.
   */
  lemma SaveProbeMisses()
    ensures var loses := (t: Text) => 0x4E2D in t;
      && SaveGuardAsWritten(false, [0x61], AnsiOem, loses, Abort) == Refused
      && SaveGuard(false, [0x61], AnsiOem, loses, Abort) == Proceed
      && SaveGuardAsWritten(false, [0x61, 0x4E2D], AnsiOem, loses, Abort) == Proceed
      && SaveGuard(false, [0x61, 0x4E2D], AnsiOem, loses, Abort) == Refused
  {
    var t: Text := [0x61, 0x4E2D];
    assert t[..1] == [0x61];
  }

  /** The outcome of a save: its result, the tab's mode, and the globals file name, encoding and line ending. */
  datatype SaveResult = SaveResult(ok: bool, mode: FileMode, fileName: string, enc: Encoding, eoln: Eoln)

  /**
   * A Save-As dialog closed with OK: the path picked, and the encoding and
   * line ending its hook stores on CDN_FILEOK.
   */
  datatype Picked = Picked(name: string, enc: Encoding, eoln: Eoln)

  /**
   * One pass of `TrySaveFile`: the guard's decision; after Retry, what the
   * Save-As dialog gave (`None` when it is cancelled); and whether
   * `DoSaveFile` succeeded when the write is attempted.
   */
  datatype SavePass = SavePass(step: SaveStep, chosen: Option<Picked>, written: bool)

  /** Save-As with a name picked: `DIALOG_FileSaveAs` stores it and calls `TrySaveFile` again. */
  predicate Continues(a: SavePass)
  {
    a.step == ToSaveAs && a.chosen.Some?
  }

  /** The passes do not run out before one that ends the save. */
  predicate Closed(passes: seq<SavePass>)
    decreases |passes|
  {
    passes != [] && (Continues(passes[0]) ==> Closed(passes[1..]))
  }

  /** A description of a save that reaches its end. */
  type SaveRun = passes: seq<SavePass> | Closed(passes) witness [SavePass(Refused, None, false)]

  /** The index of the pass that ends the save. */
  function Ending(passes: seq<SavePass>): (k: nat)
    requires Closed(passes)
    ensures k < |passes| && !Continues(passes[k])
    ensures forall i :: 0 <= i < k ==> Continues(passes[i])
    decreases |passes|
  {
    if Continues(passes[0]) then 1 + Ending(passes[1..]) else 0
  }

  /** The pass that ends the save writes the file successfully. */
  predicate Writes(passes: seq<SavePass>)
    requires Closed(passes)
  {
    var a := passes[Ending(passes)];
    a.step == Proceed && a.written
  }

  /**
   * What `SetFileName` stores for an empty name.  As written it loads
   * "Untitled" into the file name itself, although `DIALOG_FileSave` takes
   * an empty name to mean a document without one; the corrected model
   * stores the empty name, so that the document stays without one.
   */
  const BLANK_AS_WRITTEN: string := UNTITLED
  const BLANK: string := ""

  /** `SetFileName`: a non-empty name is stored as it is, an empty one as `blank`. */
  function StoredName(blank: string, name: string): (r: string)
    ensures name != "" ==> r == name
    ensures r == "" <==> name == "" && blank == ""
  {
    if name == "" then blank else name
  }

  /**
   * `TrySaveFile` after its guard, with the Save-As round trips it may take:
   * the save succeeds only when the pass that ends it writes the file, which
   * makes the tab NORMAL under the name the last dialog stored; a failed
   * write stores what `SetFileName` stores for an empty name; a refusal or a cancelled dialog leaves the
   * mode and the name the previous pass left.  The encoding and line ending
   * are the ones the last dialog's hook stored, or the current ones.
   */
  function TrySaveFile(blank: string, passes: seq<SavePass>, mode: FileMode, fileName: string, enc: Encoding, eoln: Eoln): (r: SaveResult)
    requires Closed(passes)
    ensures var k := Ending(passes);
      var a := passes[k];
      var name := if k == 0 then fileName else StoredName(blank, passes[k - 1].chosen.value.name);
      && (r.ok <==> Writes(passes))
      && (r.ok ==> r.mode == Normal && r.fileName == StoredName(blank, name))
      && (a.step == Proceed && !a.written ==> r.mode == mode && r.fileName == blank)
      && (a.step != Proceed ==> r.mode == mode && r.fileName == name)
      && r.enc == (if k == 0 then enc else passes[k - 1].chosen.value.enc)
      && r.eoln == (if k == 0 then eoln else passes[k - 1].chosen.value.eoln)
    ensures passes[0].step == Refused || (passes[0].step == ToSaveAs && passes[0].chosen.None?) ==>
      r == SaveResult(false, mode, fileName, enc, eoln)
    decreases |passes|
  {
    var a := passes[0];
    match a.step
    case Refused => SaveResult(false, mode, fileName, enc, eoln)
    case ToSaveAs =>
      if a.chosen.None? then SaveResult(false, mode, fileName, enc, eoln)
      else
        var p := a.chosen.value;
        TrySaveFile(blank, passes[1..], mode, StoredName(blank, p.name), p.enc, p.eoln)
    case Proceed =>
      if a.written then SaveResult(true, Normal, StoredName(blank, fileName), enc, eoln)
      else SaveResult(false, mode, blank, enc, eoln)
  }

  /**
   * `DIALOG_FileSave`: with no file name the Save-As dialog comes first
   * (`dialog`), exactly as if the guard had answered Retry; with one, it is
   * `TrySaveFile` straight away.
   */
  function FileSave(blank: string, dialog: Option<Picked>, passes: seq<SavePass>, mode: FileMode, fileName: string,
                    enc: Encoding, eoln: Eoln): (r: SaveResult)
    requires Closed(passes)
    ensures fileName == "" ==>
      var viaRetry := [SavePass(ToSaveAs, dialog, false)] + passes;
      Closed(viaRetry) && r == TrySaveFile(blank, viaRetry, mode, fileName, enc, eoln)
    ensures fileName != "" ==> r == TrySaveFile(blank, passes, mode, fileName, enc, eoln)
    ensures r.ok <==> (fileName != "" || dialog.Some?) && Writes(passes)
    ensures r.ok ==> r.mode == Normal
    ensures !r.ok ==> r.mode == mode
  {
    var viaRetry := [SavePass(ToSaveAs, dialog, false)] + passes;
    assert viaRetry[1..] == passes;
    if fileName != "" then TrySaveFile(blank, passes, mode, fileName, enc, eoln)
    else if dialog.None? then SaveResult(false, mode, fileName, enc, eoln)
    else TrySaveFile(blank, passes, mode, StoredName(blank, dialog.value.name), dialog.value.enc, dialog.value.eoln)
  }

  /**
   * Retry in the loss box, a name picked, and a write that succeeds: the
   * tab is saved NORMAL under the new name, in the encoding and line ending
   * picked, whatever its mode was.
   */
  lemma SaveAsThenWrite(blank: string, mode: FileMode, fileName: string, enc: Encoding, eoln: Eoln, p: Picked, reply: bool)
    requires p.name != ""
    ensures var passes := [SavePass(ToSaveAs, Some(p), reply), SavePass(Proceed, None, true)];
      Closed(passes) && TrySaveFile(blank, passes, mode, fileName, enc, eoln) == SaveResult(true, Normal, p.name, p.enc, p.eoln)
  {
    var passes := [SavePass(ToSaveAs, Some(p), reply), SavePass(Proceed, None, true)];
    assert passes[1..] == [SavePass(Proceed, None, true)];
  }

  /**
   * A named document whose write fails, as written: the save is refused
   * and the global file name becomes "Untitled".
   */
  lemma FailedWriteDropsName(mode: FileMode, fileName: string, enc: Encoding, eoln: Eoln)
    requires fileName != ""
    ensures var passes := [SavePass(Proceed, None, false)];
      Closed(passes) && FileSave(BLANK_AS_WRITTEN, None, passes, mode, fileName, enc, eoln) == SaveResult(false, mode, UNTITLED, enc, eoln)
  {
    var passes := [SavePass(Proceed, None, false)];
    assert passes[1..] == [];
  }

  /**
   * As written, the save after such a failure finds the name "Untitled",
   * skips the Save-As dialog and writes a file of that name: the dialog's
   * choice, whatever it is, plays no part.
   */
  lemma SaveAfterFailureSkipsDialogAsWritten(mode: FileMode, fileName: string, enc: Encoding, eoln: Eoln,
                                             dialog: Option<Picked>)
    requires fileName != ""
    ensures var failed := FileSave(BLANK_AS_WRITTEN, None, [SavePass(Proceed, None, false)], mode, fileName, enc, eoln);
      var next := [SavePass(Proceed, None, true)];
      Closed(next) && !failed.ok
      && FileSave(BLANK_AS_WRITTEN, dialog, next, failed.mode, failed.fileName, failed.enc, failed.eoln)
         == SaveResult(true, Normal, UNTITLED, enc, eoln)
  {
    FailedWriteDropsName(mode, fileName, enc, eoln);
    var next := [SavePass(Proceed, None, true)];
    assert next[1..] == [];
  }

  /**
   * Corrected: a failed write leaves the document without a name, so the
   * next save opens the Save-As dialog, writes nothing when it is
   * cancelled, and saves under the name picked otherwise.
   */
  lemma {:induction false} SaveAfterFailureAsks(mode: FileMode, fileName: string, enc: Encoding, eoln: Eoln,
                                                dialog: Option<Picked>, next: SaveRun)
    requires fileName != ""
    ensures var failed := FileSave(BLANK, None, [SavePass(Proceed, None, false)], mode, fileName, enc, eoln);
      var again := FileSave(BLANK, dialog, next, failed.mode, failed.fileName, failed.enc, failed.eoln);
      && !failed.ok && failed.fileName == ""
      && (dialog.None? ==> !again.ok && again.fileName == "")
      && (dialog.Some? && dialog.value.name != "" && next == [SavePass(Proceed, None, true)] ==>
            again == SaveResult(true, Normal, dialog.value.name, dialog.value.enc, dialog.value.eoln))
  {
    var passes := [SavePass(Proceed, None, false)];
    assert passes[1..] == [];
    var failed := FileSave(BLANK, None, passes, mode, fileName, enc, eoln);
    assert failed.fileName == "";
    if dialog.Some? && dialog.value.name != "" && next == [SavePass(Proceed, None, true)] {
      assert next[1..] == [];
    }
  }

  // ---------------------------------------------------------------------
  // The Save-As hook

  /**
   * The Encoding combobox items in the order added: UTF-16 BE is offered
   * only when it is the current encoding.
   */
  function EncodingItems(cur: Encoding): (r: seq<Encoding>)
    ensures forall k :: 0 <= k < |r| ==> EncodingValue(r[k]) == k
    ensures Utf16Be in r <==> cur == Utf16Be
    ensures cur != Auto ==> cur in r
    ensures Auto !in r
  {
    [Utf8, Utf8Bom, AnsiOem, Utf16Le] + (if cur == Utf16Be then [Utf16Be] else [])
  }

  /** The line-end combobox items: CR is offered only when it is the current style. */
  function EolnItems(cur: Eoln): (r: seq<Eoln>)
    ensures forall k :: 0 <= k < |r| ==> EolnValue(r[k]) == k
    ensures Cr in r <==> cur == Cr
    ensures cur in r
  {
    [Lf, CrLf] + (if cur == Cr then [Cr] else [])
  }

  /**
   * On CDN_FILEOK the selected index is stored as the `ENCODING` itself;
   * no selection (CB_ERR, -1) stores ENCODING_AUTO.
   */
  function ChosenEncoding(items: seq<Encoding>, sel: int): (r: Encoding)
    requires items == EncodingItems(if Utf16Be in items then Utf16Be else Utf8)
    requires -1 <= sel < |items|
    ensures sel >= 0 ==> r == items[sel]
    ensures sel == -1 ==> r == Auto
  {
    EncodingOfValue(sel).value
  }

  /** The selected line-end index stored as the `EOLN`. */
  function ChosenEoln(items: seq<Eoln>, sel: int): (r: Eoln)
    requires items == EolnItems(if Cr in items then Cr else Lf)
    requires 0 <= sel < |items|
    ensures r == items[sel]
  {
    EolnOfValue(sel).value
  }

  /** Accepting the dialog without touching the comboboxes keeps the current encoding and line end. */
  lemma SaveAsHookKeepsCurrent(enc: Encoding, eoln: Eoln)
    requires enc != Auto
    ensures var items := EncodingItems(enc);
      0 <= EncodingValue(enc) < |items| && ChosenEncoding(items, EncodingValue(enc)) == enc
    ensures var items := EolnItems(eoln);
      0 <= EolnValue(eoln) < |items| && ChosenEoln(items, EolnValue(eoln)) == eoln
  {
    var items := EncodingItems(enc);
    assert EncodingItems(if Utf16Be in items then Utf16Be else Utf8) == items;
    var eitems := EolnItems(eoln);
    assert EolnItems(if Cr in eitems then Cr else Lf) == eitems;
  }

  // ---------------------------------------------------------------------
  // GoTo

  /** `DIALOG_GoTo_DialogProc` accepts the (unsigned) line number iff it is a line of the text. */
  predicate GoToAccepts(iLine: nat, cLines: nat)
  {
    !(iLine <= 0 || cLines < iLine)
  }

  /**
   * The caret target for the zero-based line `line` (a UINT): the start for
   * line 0, the end of the text from `cLines` on, and otherwise the line's
   * first character (`EM_LINEINDEX`, a parameter).
   */
  function GoToTarget(line: nat, cLines: nat, cch: int, lineIndex: nat -> int): (ich: int)
    ensures line == 0 ==> ich == 0
    ensures 0 < line < cLines ==> ich == lineIndex(line)
    ensures line > 0 && line >= cLines ==> ich == cch
  {
    if line <= 0 then 0 else if line >= cLines then cch else lineIndex(line)
  }

  /**
   * After the dialog accepts `iLine`, the zero-based line is a line of the
   * text: the caret goes to its start, and the end-of-text branch is never
   * taken.
   */
  lemma GoToAcceptedLine(iLine: nat, cLines: nat, cch: int, lineIndex: nat -> int)
    requires GoToAccepts(iLine, cLines)
    ensures 1 <= iLine <= cLines
    ensures var ich := GoToTarget(iLine - 1, cLines, cch, lineIndex);
      ich == (if iLine == 1 then 0 else lineIndex(iLine - 1))
  {
  }
}

=== FILE: file_utils.dfy ===
/**
 * Notepad's small file utilities: the middle-ellipsis shortener used for
 * tab captions and recent-file menu items, the "has an extension" test of
 * the command line, and the comparison of file write times that decides
 * whether a file changed on disk.
 */
module FileUtils {
  import opened Win32
  import opened NotepadTypes

  // ---------------------------------------------------------------------
  // ShortenPath (also LimitStrLen)

  /** The limit a caller's 0 stands for. */
  const DEFAULT_LIMIT: int := 32

  function EffectiveLimit(maxlen: int): (limit: int)
    ensures maxlen != 0 ==> limit == maxlen
    ensures maxlen == 0 ==> limit == DEFAULT_LIMIT
  {
    if maxlen == 0 then DEFAULT_LIMIT else maxlen
  }

  /**
   * A limit the C code can apply: 0 (the default) or at least 4.  With a
   * limit of 1 to 3, or a negative one, `mid` is negative and the first copy
   * writes before the buffer; every caller passes 0.
   */
  predicate UsableLimit(maxlen: int)
  {
    maxlen == 0 || maxlen >= 4
  }

  /** The number of leading characters kept: `mid` in the C code. */
  function HeadKept(limit: int): int
  {
    limit / 2 - 2
  }

  /** The number of trailing characters kept after the ellipsis. */
  function TailKept(limit: int): int
  {
    limit - limit / 2 - 1
  }

  /**
   * `ShortenPath(szStr, maxlen)`: a string longer than the limit is cut to
   * exactly the limit, keeping its first `HeadKept` and last `TailKept`
   * characters around `"..."`; a string that fits is left alone.
   */
  function ShortenPath(s: string, maxlen: int): (r: string)
    requires UsableLimit(maxlen)
    ensures var limit := EffectiveLimit(maxlen);
      && (|s| <= limit ==> r == s)
      && (|s| > limit ==>
            && |r| == limit
            && HeadKept(limit) + 3 + TailKept(limit) == limit
            && r[..HeadKept(limit)] == s[..HeadKept(limit)]
            && r[HeadKept(limit)..HeadKept(limit) + 3] == "..."
            && r[HeadKept(limit) + 3..] == s[|s| - TailKept(limit)..])
  {
    var limit := EffectiveLimit(maxlen);
    if |s| <= limit then s
    else
      var mid := limit / 2 - 2;
      var r := s[..mid] + "..." + s[|s| - mid - limit % 2 - 1..];
      assert r[mid + 3..] == s[|s| - mid - limit % 2 - 1..];
      r
  }

  /**
   * The in-place copy is sound: the tail the second `_tcscpy` reads starts
   * after the terminator the first one writes at `mid + 3`.
   */
  lemma ShortenPathCopyDisjoint(s: string, maxlen: int)
    requires UsableLimit(maxlen) && |s| > EffectiveLimit(maxlen)
    ensures var limit := EffectiveLimit(maxlen);
      HeadKept(limit) + 3 < |s| - TailKept(limit)
  {
  }

  /** Shortening never yields more than the limit, and shortening again changes nothing. */
  lemma ShortenPathIdempotent(s: string, maxlen: int)
    requires UsableLimit(maxlen)
    ensures |ShortenPath(s, maxlen)| <= EffectiveLimit(maxlen)
    ensures ShortenPath(ShortenPath(s, maxlen), maxlen) == ShortenPath(s, maxlen)
  {
  }

  /** A shortened string is a prefix and a suffix of the original around the ellipsis. */
  lemma ShortenPathKeepsEnds(s: string, maxlen: int)
    requires UsableLimit(maxlen) && |s| > EffectiveLimit(maxlen)
    ensures var r := ShortenPath(s, maxlen);
      var limit := EffectiveLimit(maxlen);
      && r[..HeadKept(limit)] <= s
      && r[|r| - TailKept(limit)..] == s[|s| - TailKept(limit)..]
      && HeadKept(limit) >= 0 && TailKept(limit) >= HeadKept(limit) + 1
  {
    var r := ShortenPath(s, maxlen);
    var limit := EffectiveLimit(maxlen);
    assert r[|r| - TailKept(limit)..] == r[HeadKept(limit) + 3..];
  }

  // ---------------------------------------------------------------------
  // HasFileExtension

  /** `_tcsrchr(s, c)`: the index of the last `c` in `s`, or -1. */
  function LastIndexOf(s: string, c: char): (r: int)
    ensures -1 <= r < |s|
    ensures r >= 0 ==> s[r] == c
    ensures forall j :: r < j < |s| ==> s[j] != c
    decreases |s|
  {
    if s == [] then -1
    else if s[|s| - 1] == c then |s| - 1
    else LastIndexOf(s[..|s| - 1], c)
  }

  /**
   * `HasFileExtension`: a `'.'` at or after the last backslash (the whole
   * name when there is none).  Forward slashes are not path separators here.
   */
  function HasFileExtension(name: string): (b: bool)
  {
    var sep := LastIndexOf(name, '\\');
    var component := if sep >= 0 then name[sep..] else name;
    LastIndexOf(component, '.') >= 0
  }

  /** The reference reading: some dot has no backslash after it. */
  predicate DotInLastComponent(name: string)
  {
    exists i :: 0 <= i < |name| && name[i] == '.' && NoBackslashAfter(name, i)
  }

  predicate NoBackslashAfter(name: string, i: int)
  {
    forall j :: 0 <= j < |name| && j > i ==> name[j] != '\\'
  }

  lemma HasFileExtensionMeaning(name: string)
    ensures HasFileExtension(name) <==> DotInLastComponent(name)
  {
    var sep := LastIndexOf(name, '\\');
    var start := if sep >= 0 then sep else 0;
    var component := name[start..];
    var k := LastIndexOf(component, '.');
    if k >= 0 {
      assert name[start + k] == '.';
      assert NoBackslashAfter(name, start + k);
    }
    if DotInLastComponent(name) {
      var i :| 0 <= i < |name| && name[i] == '.' && NoBackslashAfter(name, i);
      assert i >= start by {
        if sep >= 0 {
          assert name[sep] == '\\';
        }
      }
      assert component[i - start] == '.';
    }
  }

  // ---------------------------------------------------------------------
  // FileTimeCompare

  /** The 64-bit count a `FILETIME` holds. */
  function Ticks(t: FileTime): int
  {
    t.high * DWORD_RANGE + t.low
  }

  /** 0.1 s in 100 ns ticks. */
  const SLACK_TICKS: int := 1_000_000

  /**
   * `FileTimeCompare` as written: the high words' DWORD difference read as
   * an `int`, else the low words' DWORD difference divided by 1,000,000.
   */
  function FileTimeCompareAsWritten(a: FileTime, b: FileTime): (r: int)
    requires a.Valid() && b.Valid()
    ensures INT_MIN <= r <= INT_MAX
    ensures a.high != b.high ==> r != 0
    ensures a.high == b.high ==> (r == 0 <==> ToDword(a.low - b.low) < SLACK_TICKS)
  {
    var dt := DwordAsInt(ToDword(a.high - b.high));
    if dt != 0 then dt else ToDword(a.low - b.low) / SLACK_TICKS
  }

  /**
   * The slack as written is one-sided: a disk time one tick earlier than the
   * stored time counts as a change, while one tick later does not.
   */
  lemma FileTimeSlackOneSided()
    ensures var a, b := FileTime(0, 5), FileTime(1, 5);
      FileTimeCompareAsWritten(a, b) != 0 && FileTimeCompareAsWritten(b, a) == 0
      && -SLACK_TICKS < Ticks(a) - Ticks(b) < SLACK_TICKS
  {
    var a, b := FileTime(0, 5), FileTime(1, 5);
    assert ToDword(a.low - b.low) == DWORD_RANGE - 1;
    assert ToDword(b.low - a.low) == 1;
  }

  /**
   * `FileTimeCompare` with the 0.1 s slack applied in both directions over
   * the whole 64-bit time: 0 for times within the slack, else the sign of
   * the difference.
   */
  function FileTimeCompare(a: FileTime, b: FileTime): (r: int)
    requires a.Valid() && b.Valid()
    ensures -1 <= r <= 1
    ensures r == 0 <==> -SLACK_TICKS < Ticks(a) - Ticks(b) < SLACK_TICKS
    ensures r > 0 <==> Ticks(a) - Ticks(b) >= SLACK_TICKS
  {
    var d := Ticks(a) - Ticks(b);
    if d >= SLACK_TICKS then 1 else if d <= -SLACK_TICKS then -1 else 0
  }

  /** The corrected comparison is antisymmetric, so "changed" no longer depends on the argument order. */
  lemma FileTimeCompareAntisymmetric(a: FileTime, b: FileTime)
    requires a.Valid() && b.Valid()
    ensures FileTimeCompare(a, b) == -FileTimeCompare(b, a)
  {
  }

  /**
   * Where the as-written slack does apply -- same high word, disk time not
   * earlier -- both comparisons agree on "unchanged".
   */
  lemma FileTimeCompareAgrees(a: FileTime, b: FileTime)
    requires a.Valid() && b.Valid()
    requires a.high == b.high && a.low >= b.low
    ensures FileTimeCompareAsWritten(a, b) == 0 <==> FileTimeCompare(a, b) == 0
  {
    assert ToDword(a.low - b.low) == a.low - b.low;
  }
}

=== FILE: legacy_misc.dfy ===
/**
 * The older copy of Notepad's bookkeeping in `notepad/misc.c`.  Most of it
 * matches the live code (`LimitStrLen` is `ShortenPath`, `MRU_Add` and the
 * duplicate-path lookup are unchanged).  What differs and is modelled here:
 * `MRU_Save` leaves the keys past the saved entries as they were;
 * `DoCloseAllFiles` asks from the last tab to the first, and with a
 * `DoCloseFile` that only asks it deletes nothing; `DIALOG_FileClose`
 * deletes the tab itself after `DoCloseFile` agreed.  This copy's `MRU_Load`
 * does not call `MRU_Init` first; the round trip below reads back with the
 * live loader, which does.
 */
module LegacyMisc {
  import opened Win32
  import opened Mru
  import MruRoundTrip
  import Tabs

  // ---------------------------------------------------------------------
  // MRU_Save without blanking

  /** The keys `MRU(k)`, …, `MRU(|e|-1)` written from `e`. */
  function WriteEntries(ini: map<string, string>, e: seq<string>, k: nat): (r: map<string, string>)
    requires |e| <= MRU_MAX && k <= |e|
    ensures forall j :: k <= j < |e| ==> Key(j) in r && r[Key(j)] == e[j]
    decreases |e| - k, 1
  {
    if k == |e| then ini
    else
      KeyNotLater(k);
      WriteEntriesKeeps(ini[Key(k) := e[k]], e, k + 1, Key(k));
      WriteEntries(ini[Key(k) := e[k]], e, k + 1)
  }

  /** A key that is none of the written ones is left as it was, present or absent. */
  lemma {:induction false} WriteEntriesKeeps(ini: map<string, string>, e: seq<string>, k: nat, key: string)
    requires |e| <= MRU_MAX && k <= |e|
    requires forall j :: k <= j < |e| ==> key != Key(j)
    ensures key in WriteEntries(ini, e, k) <==> key in ini
    ensures key in ini ==> WriteEntries(ini, e, k)[key] == ini[key]
    decreases |e| - k, 2
  {
    if k < |e| {
      WriteEntriesKeeps(ini[Key(k) := e[k]], e, k + 1, key);
    }
  }

  /**
   * `MRU_Save` of this copy: the non-empty entries newest first under
   * `MRU00`, `MRU01`, …; the keys after them keep what the INI file held.
   */
  function SaveNoBlank(t: Table, ini: map<string, string>): (r: map<string, string>)
    requires Valid(t)
    ensures forall j :: 0 <= j < |SaveList(t)| ==> ReadKey(r, j) == SaveList(t)[j]
    ensures forall j :: |SaveList(t)| <= j < MRU_MAX ==> ReadKey(r, j) == ReadKey(ini, j)
    ensures forall key :: key in ini && !IsKey(key) ==> key in r && r[key] == ini[key]
  {
    var e := SaveList(t);
    var r := WriteEntries(ini, e, 0);
    forall j | |e| <= j < MRU_MAX
      ensures ReadKey(r, j) == ReadKey(ini, j)
    {
      forall i | 0 <= i < |e|
        ensures Key(j) != Key(i)
      {
        if Key(j) == Key(i) { KeyInjective(i, j); }
      }
      WriteEntriesKeeps(ini, e, 0, Key(j));
    }
    forall key | key in ini && !IsKey(key)
      ensures key in r && r[key] == ini[key]
    {
      WriteEntriesKeeps(ini, e, 0, key);
    }
    r
  }

  /** Where the two saves differ: only on the keys past the saved entries, which the live one blanks. */
  lemma SaveNoBlankAgainstLive(t: Table, ini: map<string, string>)
    requires Valid(t)
    ensures forall j :: 0 <= j < |SaveList(t)| ==> ReadKey(SaveNoBlank(t, ini), j) == ReadKey(Save(t, ini), j)
    ensures forall j :: |SaveList(t)| <= j < MRU_MAX ==>
      ReadKey(Save(t, ini), j) == "" && ReadKey(SaveNoBlank(t, ini), j) == ReadKey(ini, j)
  {
  }

  /**
   * A list that never got shorter than the one stored before is stored
   * exactly, as by the live `MRU_Save`: the earlier keys past it were
   * already empty.
   */
  lemma SaveNoBlankHoldsEntries(t: Table, ini: map<string, string>, e0: seq<string>)
    requires Valid(t) && MruRoundTrip.HoldsEntries(ini, e0) && |e0| <= |SaveList(t)|
    ensures MruRoundTrip.HoldsEntries(SaveNoBlank(t, ini), SaveList(t))
  {
  }

  /**
   * So the list still comes back after saving and loading, when it did not
   * shrink since the last save.
   */
  lemma SaveNoBlankRoundTrip(t: Table, ini: map<string, string>, e0: seq<string>, exists_: string -> bool)
    requires Valid(t) && DistinctPaths(t)
    requires forall k :: 0 <= k < MRU_MAX && Enum(t, k) != "" ==> exists_(Enum(t, k))
    requires MruRoundTrip.HoldsEntries(ini, e0) && |e0| <= |SaveList(t)|
    ensures EnumList(Sort(Load(SaveNoBlank(t, ini), exists_))) == MruRoundTrip.Padded(SaveList(t))
  {
    var e := SaveList(t);
    SaveNoBlankHoldsEntries(t, ini, e0);
    MruRoundTrip.SavedEntries(t, e, exists_);
    MruRoundTrip.LoadEntries(e, SaveNoBlank(t, ini), exists_);
  }

  /**
   * After a shorter list is saved over a longer one, the keys past it still
   * hold the old entries, which the next `MRU_Load` adds back.
   */
  lemma SaveNoBlankKeepsStale(t: Table, ini: map<string, string>, e0: seq<string>)
    requires Valid(t) && MruRoundTrip.HoldsEntries(ini, e0) && |SaveList(t)| < |e0|
    ensures forall j :: |SaveList(t)| <= j < |e0| ==> ReadKey(SaveNoBlank(t, ini), j) == e0[j]
    ensures e0[|SaveList(t)|] != "" ==> !MruRoundTrip.HoldsEntries(SaveNoBlank(t, ini), SaveList(t))
  {
  }

  // ---------------------------------------------------------------------
  // Closing tabs
  //
  // This copy calls a `DoCloseFile` whose body it does not hold.  Since
  // `DIALOG_FileClose` deletes the tab itself once `DoCloseFile` agrees,
  // that `DoCloseFile` is taken as the prompt of the live one
  // (`Tabs.AskToClose`), which deletes nothing.

  /**
   * Every tab of `front` agrees with the answer of the round that asks it:
   * with `n` tabs in all, round `n - 1 - j` asks tab `j`, under its own path.
   */
  predicate PrefixAgrees(front: seq<Tabs.Tab>, answers: seq<Tabs.Answer>, n: int)
    requires |front| <= n <= |answers|
  {
    forall j :: 0 <= j < |front| ==> Tabs.Agrees(front[j], front[j].info.path, answers[n - 1 - j])
  }

  lemma PrefixAgreesStep(tabs: seq<Tabs.Tab>, answers: seq<Tabs.Answer>, i: int)
    requires 0 <= i < |tabs| <= |answers|
    ensures PrefixAgrees(tabs[..i + 1], answers, |tabs|) <==>
      PrefixAgrees(tabs[..i], answers, |tabs|) && Tabs.Agrees(tabs[i], tabs[i].info.path, answers[|tabs| - 1 - i])
  {
    assert forall j :: 0 <= j < i ==> tabs[..i + 1][j] == tabs[..i][j] == tabs[j];
  }

  /**
   * One round of `DoCloseAllFiles` in this copy: select tab `i` and ask.
   * It goes ahead exactly when the tab agrees with the round's answer; only
   * tab `i` can change, and it keeps its path and text.
   */
  function AskRound(s: Tabs.Session, answers: seq<Tabs.Answer>, i: int): (r: (bool, Tabs.Session))
    requires Tabs.Valid(s) && 0 <= i < |s.tabs| <= |answers|
    ensures r.0 <==> Tabs.Agrees(s.tabs[i], s.tabs[i].info.path, answers[|s.tabs| - 1 - i])
    ensures Tabs.Valid(r.1) && |r.1.tabs| == |s.tabs| && r.1.current == i
    ensures r.1.tabs == s.tabs[i := r.1.tabs[i]]
    ensures r.1.tabs[i].info.path == s.tabs[i].info.path && r.1.tabs[i].text == s.tabs[i].text
  {
    Tabs.AskToClose(Tabs.SelectTab(s, i), answers[|s.tabs| - 1 - i])
  }

  /**
   * The rounds of `DoCloseAllFiles` in this copy from tab `i` down to tab
   * 0: each selects its tab and asks, and the first refusal stops with
   * FALSE and the refusing tab selected.  No tab is deleted; a save only
   * makes its tab NORMAL and unmodified, and the tabs after `i` are not
   * visited.
   */
  function AskFrom(s: Tabs.Session, answers: seq<Tabs.Answer>, i: int): (r: (bool, Tabs.Session))
    requires Tabs.Valid(s) && -1 <= i < |s.tabs| <= |answers|
    ensures Tabs.Valid(r.1) && |r.1.tabs| == |s.tabs|
    ensures forall j :: 0 <= j < |s.tabs| ==>
      r.1.tabs[j].info.path == s.tabs[j].info.path && r.1.tabs[j].text == s.tabs[j].text
    ensures forall j :: i < j < |s.tabs| ==> r.1.tabs[j] == s.tabs[j]
    ensures i == -1 ==> r == (true, s)
    ensures i >= 0 ==> 0 <= r.1.current <= i
    ensures r.0 && i >= 0 ==> r.1.current == 0
    decreases i + 1
  {
    if i < 0 then (true, s)
    else
      var asked := AskRound(s, answers, i);
      if !asked.0 then asked
      else AskFrom(asked.1, answers, i - 1)
  }

  /** The rounds from tab `i` down all go ahead exactly when each of those tabs agrees with its round's answer. */
  lemma {:induction false} AskFromSucceeds(s: Tabs.Session, answers: seq<Tabs.Answer>, i: int)
    requires Tabs.Valid(s) && -1 <= i < |s.tabs| <= |answers|
    ensures AskFrom(s, answers, i).0 <==> PrefixAgrees(s.tabs[..i + 1], answers, |s.tabs|)
    decreases i + 1
  {
    if i >= 0 {
      var n := |s.tabs|;
      var asked := AskRound(s, answers, i);
      var here := Tabs.Agrees(s.tabs[i], s.tabs[i].info.path, answers[n - 1 - i]);
      PrefixAgreesStep(s.tabs, answers, i);
      assert PrefixAgrees(s.tabs[..i + 1], answers, n) == (PrefixAgrees(s.tabs[..i], answers, n) && here);
      if asked.0 {
        AskFromSucceeds(asked.1, answers, i - 1);
        assert asked.1.tabs[..i] == s.tabs[..i];
        assert AskFrom(s, answers, i).0 == AskFrom(asked.1, answers, i - 1).0;
      } else {
        assert !here;
        assert !AskFrom(s, answers, i).0;
      }
    }
  }

  /**
   * `DoCloseAllFiles` of this copy: the rounds run from the last tab to the
   * first.  Every tab is still open afterwards, and when all rounds agree
   * the first tab is left selected.
   */
  function CloseAllFromLast(s: Tabs.Session, answers: seq<Tabs.Answer>): (r: (bool, Tabs.Session))
    requires Tabs.Valid(s) && |answers| >= |s.tabs|
    ensures Tabs.Valid(r.1) && |r.1.tabs| == |s.tabs|
    ensures forall j :: 0 <= j < |s.tabs| ==>
      r.1.tabs[j].info.path == s.tabs[j].info.path && r.1.tabs[j].text == s.tabs[j].text
    ensures s.tabs == [] ==> r == (true, s)
    ensures r.0 && s.tabs != [] ==> r.1.current == 0
  {
    AskFrom(s, answers, |s.tabs| - 1)
  }

  /** Closing everything from the last tab returns TRUE exactly when every tab agrees with the answer of the round that visits it. */
  lemma CloseAllFromLastSucceeds(s: Tabs.Session, answers: seq<Tabs.Answer>)
    requires Tabs.Valid(s) && |answers| >= |s.tabs|
    ensures CloseAllFromLast(s, answers).0 <==> PrefixAgrees(s.tabs, answers, |s.tabs|)
  {
    AskFromSucceeds(s, answers, |s.tabs| - 1);
    assert s.tabs[..|s.tabs|] == s.tabs;
  }

  /**
   * `DIALOG_FileClose` of this copy: a refused close keeps the tabs and the
   * selection; otherwise the selected tab is deleted, WM_CLOSE is posted
   * when none remain, and else the tab at the same index, or the previous
   * one when the last was deleted, is selected.  Returns (session, quit).
   */
  function FileClose(s: Tabs.Session, answer: Tabs.Answer): (r: (Tabs.Session, bool))
    requires Tabs.Open(s)
    ensures !Tabs.Agrees(s.tabs[s.current], s.fileName, answer) ==>
      !r.1 && r.0.tabs == s.tabs && r.0.current == s.current
    ensures Tabs.Agrees(s.tabs[s.current], s.fileName, answer) ==>
      && r.0.tabs == Tabs.RemoveAt(s.tabs, s.current)
      && (r.1 <==> r.0.tabs == [])
      && (!r.1 ==> Tabs.Coherent(r.0) && r.0.current == if s.current == |r.0.tabs| then s.current - 1 else s.current)
  {
    var asked := Tabs.AskToClose(s, answer);
    if !asked.0 then (asked.1, false)
    else
      var i := s.current;
      var rest := Tabs.RemoveAt(asked.1.tabs, i);
      assert rest == Tabs.RemoveAt(s.tabs, i);
      var n := |rest|;
      if n == 0 then (asked.1.(tabs := rest, current := -1), true)
      else (Tabs.SelectTab(asked.1.(tabs := rest), if i == n then i - 1 else i), false)
  }

  /**
   * This copy's close ends where the live `DoCloseFile` does: the same tabs
   * and WM_CLOSE, and, while a tab remains, the same session.
   */
  lemma FileCloseMatchesLive(s: Tabs.Session, answer: Tabs.Answer)
    requires Tabs.Open(s)
    ensures var legacy, live := FileClose(s, answer), Tabs.DoCloseFile(s, answer);
      && legacy.0.tabs == live.1.tabs
      && legacy.1 == live.2
      && (!legacy.1 ==> legacy.0 == live.1)
  {
  }
}

=== FILE: mru.dfy ===
/**
 * Notepad's list of the ten most recently used files.
 *
 * The table is an array of ten slots. Each slot carries a generation number
 * (the C member `seq`, here `age`: 0 for a slot never used, larger is newer)
 * and an `index` naming the physical slot whose `path` it owns; sorting moves
 * the (age, index) pairs and never the paths, so a path is always reached
 * through the indirection `MRU[MRU[i].index].path`.
 */
module Mru {
  import opened Win32
  import Decimal

  const MRU_MAX: nat := 10

  datatype Slot = Slot(age: int, index: int)

  /** The static state of the MRU service: slots, paths, `youngest` and `oldest`. */
  datatype Table = Table(slots: seq<Slot>, paths: seq<string>, youngest: int, oldest: int)

  /** The `index` members are a permutation of the ten physical slots. */
  predicate IndexPermutation(s: seq<Slot>)
  {
    && |s| == MRU_MAX
    && (forall i :: 0 <= i < |s| ==> 0 <= s[i].index < MRU_MAX)
    && (forall i, j :: 0 <= i < j < |s| ==> s[i].index != s[j].index)
  }

  predicate Valid(t: Table)
  {
    && IndexPermutation(t.slots)
    && |t.paths| == MRU_MAX
    && t.youngest >= 0
    && (forall i :: 0 <= i < |t.slots| ==> 0 <= t.slots[i].age <= t.youngest)
  }

  /** `MRU_Add` indexes the array with `oldest`, so it must name a slot. */
  predicate Addable(t: Table)
  {
    Valid(t) && 0 <= t.oldest < MRU_MAX
  }

  /** `MRUDATA(i)`: the path owned by slot `i`. */
  function PathAt(t: Table, i: int): string
    requires Valid(t) && 0 <= i < MRU_MAX
  {
    t.paths[t.slots[i].index]
  }

  /** No two slots hold the same non-empty path, letter case aside. */
  predicate DistinctPaths(t: Table)
    requires Valid(t)
  {
    forall i, j :: 0 <= i < MRU_MAX && 0 <= j < MRU_MAX && i != j && PathAt(t, i) != "" ==>
      !EqualsIgnoreCase(PathAt(t, i), PathAt(t, j))
  }

  /** `MRU_Init`: every slot unused and owning its own path, `oldest` at slot 0. */
  function Init(): (t: Table)
    ensures Addable(t) && DistinctPaths(t)
    ensures forall i :: 0 <= i < MRU_MAX ==> PathAt(t, i) == "" && t.slots[i].age == 0
  {
    Table(seq(MRU_MAX, i => Slot(0, i)), seq(MRU_MAX, i => ""), 0, 0)
  }

  // ---------------------------------------------------------------------
  // Adding a path

  /** The first slot at or after `i` whose path equals `p` ignoring case. */
  function FindFrom(t: Table, p: string, i: nat): (r: Option<nat>)
    requires Valid(t) && i <= MRU_MAX
    ensures r.Some? ==> i <= r.value < MRU_MAX && EqualsIgnoreCase(PathAt(t, r.value), p)
    ensures r.Some? ==> forall j :: i <= j < r.value ==> !EqualsIgnoreCase(PathAt(t, j), p)
    ensures r.None? ==> forall j :: i <= j < MRU_MAX ==> !EqualsIgnoreCase(PathAt(t, j), p)
    decreases MRU_MAX - i
  {
    if i == MRU_MAX then None
    else if EqualsIgnoreCase(PathAt(t, i), p) then Some(i)
    else FindFrom(t, p, i + 1)
  }

  /**
   * The scan that picks the next `oldest`: starting from `lowest`, a slot
   * is taken whenever its age is strictly below the lowest seen so far.
   */
  function LowestFrom(s: seq<Slot>, i: nat, lowest: int, oldest: int): (r: int)
    requires i <= |s|
    ensures (forall j :: i <= j < |s| ==> s[j].age >= lowest) ==> r == oldest
    ensures (exists j :: i <= j < |s| && s[j].age < lowest) ==>
      && i <= r < |s| && s[r].age < lowest
      && (forall j :: i <= j < |s| ==> s[r].age <= s[j].age)
      && (forall j :: i <= j < r ==> s[j].age > s[r].age)
    decreases |s| - i
  {
    if i == |s| then oldest
    else if s[i].age < lowest then LowestFrom(s, i + 1, s[i].age, i)
    else LowestFrom(s, i + 1, lowest, oldest)
  }

  /** The branch of `MRU_Add` for a listed path: slot `i` becomes the newest, nothing else changes. */
  function Refresh(t: Table, i: nat): (u: Table)
    requires Valid(t) && i < MRU_MAX
    ensures Valid(u) && u.youngest == t.youngest + 1
    ensures u.paths == t.paths && u.oldest == t.oldest
    ensures u.slots[i].age == u.youngest && u.slots[i].index == t.slots[i].index
    ensures forall j :: 0 <= j < MRU_MAX && j != i ==> u.slots[j] == t.slots[j]
  {
    var y := t.youngest + 1;
    Table(Stamp(t.slots, i, y), t.paths, y, t.oldest)
  }

  /** Slot `i` gets age `y`; every index stays where it was. */
  function Stamp(s: seq<Slot>, i: nat, y: int): (r: seq<Slot>)
    requires IndexPermutation(s) && i < MRU_MAX
    ensures IndexPermutation(r) && r[i] == Slot(y, s[i].index)
    ensures forall j :: 0 <= j < MRU_MAX && j != i ==> r[j] == s[j]
  {
    s[i := s[i].(age := y)]
  }

  /**
   * The branch of `MRU_Add` for a new path: it replaces the path owned by
   * slot `oldest`, which becomes the newest; every other slot keeps its age
   * and path, and the new `oldest` is the first slot of lowest age.
   */
  function Replace(t: Table, p: string): (u: Table)
    requires Addable(t)
    ensures Addable(u) && u.youngest == t.youngest + 1
    ensures PathAt(u, t.oldest) == p && u.slots[t.oldest].age == u.youngest
    ensures forall j :: 0 <= j < MRU_MAX ==> u.slots[j].index == t.slots[j].index
    ensures forall j :: 0 <= j < MRU_MAX && j != t.oldest ==> u.slots[j] == t.slots[j] && PathAt(u, j) == PathAt(t, j)
    ensures forall j :: 0 <= j < MRU_MAX ==> u.slots[u.oldest].age <= u.slots[j].age
    ensures forall j :: 0 <= j < u.oldest ==> u.slots[j].age > u.slots[u.oldest].age
  {
    var y := t.youngest + 1;
    var o := t.oldest;
    var slots := Stamp(t.slots, o, y);
    var paths := t.paths[t.slots[o].index := p];
    assert forall j :: 0 <= j < MRU_MAX && j != o ==> paths[slots[j].index] == t.paths[t.slots[j].index];
    Table(slots, paths, y, NextOldest(slots, y, o))
  }

  /** The scan after a replacement: slot `o` holds the newest age `y`, every other slot is older. */
  function NextOldest(s: seq<Slot>, y: int, o: nat): (r: nat)
    requires |s| == MRU_MAX && o < MRU_MAX && s[o].age == y
    requires forall j :: 0 <= j < MRU_MAX && j != o ==> s[j].age < y
    ensures r < MRU_MAX
    ensures forall j :: 0 <= j < MRU_MAX ==> s[r].age <= s[j].age
    ensures forall j :: 0 <= j < r ==> s[j].age > s[r].age
  {
    var other := if o == 0 then 1 else 0;
    assert s[other].age < y;
    LowestFrom(s, 0, y, o)
  }

  /**
   * `MRU_Add`: a path already listed (ignoring case) only has its slot made
   * the newest; a new path replaces the one owned by slot `oldest`, which
   * must then name a slot. Either way the path ends up in a slot of the new
   * `youngest` generation.
   */
  function Add(t: Table, p: string): (u: Table)
    requires Valid(t) && (FindFrom(t, p, 0).None? ==> 0 <= t.oldest < MRU_MAX)
    ensures Valid(u) && (Addable(u) <==> Addable(t))
    ensures u.youngest == t.youngest + 1
    ensures exists i :: 0 <= i < MRU_MAX && EqualsIgnoreCase(PathAt(u, i), p) && u.slots[i].age == u.youngest
    ensures forall i :: 0 <= i < MRU_MAX ==> u.slots[i].index == t.slots[i].index
  {
    match FindFrom(t, p, 0)
    case Some(i) =>
      var u := Refresh(t, i);
      assert PathAt(u, i) == PathAt(t, i);
      u
    case None =>
      var u := Replace(t, p);
      EqualsIgnoreCaseReflexive(p);
      u
  }

  lemma EqualsIgnoreCaseReflexive(a: string)
    ensures EqualsIgnoreCase(a, a)
  {
  }

  /** A path listed first at slot `i` is refreshed there. */
  lemma AddRefreshes(t: Table, p: string, i: nat)
    requires Valid(t) && i < MRU_MAX
    requires EqualsIgnoreCase(PathAt(t, i), p)
    requires forall j :: 0 <= j < i ==> !EqualsIgnoreCase(PathAt(t, j), p)
    ensures Add(t, p) == Refresh(t, i)
  {
    var r := FindFrom(t, p, 0);
    assert r.Some?;
    assert r.value == i;
  }

  /** A path not listed replaces the oldest one. */
  lemma AddReplacesOldest(t: Table, p: string)
    requires Addable(t)
    requires forall j :: 0 <= j < MRU_MAX ==> !EqualsIgnoreCase(PathAt(t, j), p)
    ensures Add(t, p) == Replace(t, p)
  {
    assert FindFrom(t, p, 0).None?;
  }

  lemma EqualsIgnoreCaseSymmetric(a: string, b: string)
    ensures EqualsIgnoreCase(a, b) <==> EqualsIgnoreCase(b, a)
  {
  }

  /** Adding keeps the listed non-empty paths distinct. */
  lemma AddKeepsDistinct(t: Table, p: string)
    requires Valid(t) && (FindFrom(t, p, 0).None? ==> 0 <= t.oldest < MRU_MAX)
    requires DistinctPaths(t)
    ensures DistinctPaths(Add(t, p))
  {
    var u := Add(t, p);
    match FindFrom(t, p, 0)
    case Some(i) =>
      assert forall j :: 0 <= j < MRU_MAX ==> PathAt(u, j) == PathAt(t, j);
    case None =>
      AddReplacesOldest(t, p);
      forall i, j | 0 <= i < MRU_MAX && 0 <= j < MRU_MAX && i != j && PathAt(u, i) != ""
        ensures !EqualsIgnoreCase(PathAt(u, i), PathAt(u, j))
      {
        if i == t.oldest {
          assert !EqualsIgnoreCase(PathAt(t, j), p);
          EqualsIgnoreCaseSymmetric(p, PathAt(t, j));
        } else if j == t.oldest {
          assert !EqualsIgnoreCase(PathAt(t, i), p);
        }
      }
  }

  // ---------------------------------------------------------------------
  // Sorting

  predicate Sorted(s: seq<Slot>)
  {
    forall i, j :: 0 <= i < j < |s| ==> s[i].age <= s[j].age
  }

  /** The slots of age `k`, in order. */
  function WithAge(s: seq<Slot>, k: int): seq<Slot>
    decreases |s|
  {
    if s == [] then []
    else WithAge(s[..|s| - 1], k) + (if s[|s| - 1].age == k then [s[|s| - 1]] else [])
  }

  /**
   * One pass of the insertion sort: entries of `r` older than `x` are moved
   * up from the back, and `x` goes after the last one that is not older.
   */
  function Insert(x: Slot, r: seq<Slot>): (u: seq<Slot>)
    ensures |u| == |r| + 1
    decreases |r|
  {
    if r == [] || r[|r| - 1].age <= x.age then r + [x]
    else Insert(x, r[..|r| - 1]) + [r[|r| - 1]]
  }

  /** The insertion sort of `MRU_Sort`, as a function of the slot sequence. */
  function SortSlots(s: seq<Slot>): (u: seq<Slot>)
    ensures |u| == |s|
    decreases |s|
  {
    if s == [] then [] else Insert(s[|s| - 1], SortSlots(s[..|s| - 1]))
  }

  lemma {:induction false} InsertSorted(x: Slot, r: seq<Slot>)
    requires Sorted(r)
    ensures Sorted(Insert(x, r))
    decreases |r|
  {
    if r != [] && r[|r| - 1].age > x.age {
      var front, last := r[..|r| - 1], r[|r| - 1];
      InsertSorted(x, front);
      var v := Insert(x, front);
      assert v[|v| - 1].age <= last.age by {
        InsertLast(x, front);
      }
      SortedSnoc(v, last);
    }
  }

  /** The last slot after an insertion is `x` or the last slot before it, whichever is older. */
  lemma InsertLast(x: Slot, r: seq<Slot>)
    ensures r == [] || r[|r| - 1].age <= x.age ==> Insert(x, r)[|r|] == x
    ensures r != [] && r[|r| - 1].age > x.age ==> Insert(x, r)[|r|] == r[|r| - 1]
  {
  }

  /** Appending a slot no younger than the last keeps a sequence sorted. */
  lemma SortedSnoc(v: seq<Slot>, last: Slot)
    requires Sorted(v) && (v == [] || v[|v| - 1].age <= last.age)
    ensures Sorted(v + [last])
  {
    var w := v + [last];
    forall i, j | 0 <= i < j < |w|
      ensures w[i].age <= w[j].age
    {
      if j == |v| && i < |v| - 1 {
        assert v[i].age <= v[|v| - 1].age;
      }
    }
  }

  lemma {:induction false} InsertWithAge(x: Slot, r: seq<Slot>, k: int)
    ensures WithAge(Insert(x, r), k) == WithAge(r, k) + (if x.age == k then [x] else [])
    decreases |r|
  {
    if r == [] || r[|r| - 1].age <= x.age {
      assert (r + [x])[..|r|] == r;
    } else {
      var front := r[..|r| - 1];
      var last := r[|r| - 1];
      InsertWithAge(x, front, k);
      var v := Insert(x, front);
      assert (v + [last])[..|v|] == v;
      if x.age == k {
        assert last.age != k;
      }
    }
  }

  lemma {:induction false} InsertMultiset(x: Slot, r: seq<Slot>)
    ensures multiset(Insert(x, r)) == multiset(r) + multiset{x}
    decreases |r|
  {
    if r != [] && r[|r| - 1].age > x.age {
      var front := r[..|r| - 1];
      InsertMultiset(x, front);
      assert r == front + [r[|r| - 1]];
    }
  }

  /** The sort orders the slots by age, keeps every slot, and is stable. */
  lemma {:induction false} SortSlotsCorrect(s: seq<Slot>)
    ensures Sorted(SortSlots(s))
    ensures multiset(SortSlots(s)) == multiset(s)
    ensures forall k :: WithAge(SortSlots(s), k) == WithAge(s, k)
    decreases |s|
  {
    if s != [] {
      var front := s[..|s| - 1];
      var last := s[|s| - 1];
      SortSlotsCorrect(front);
      InsertSorted(last, SortSlots(front));
      InsertMultiset(last, SortSlots(front));
      assert s == front + [last];
      forall k
        ensures WithAge(SortSlots(s), k) == WithAge(s, k)
      {
        InsertWithAge(last, SortSlots(front), k);
      }
    }
  }

  /** Shifting one older entry past `x` moves it from the unsorted front to the tail. */
  lemma InsertShift(x: Slot, p: seq<Slot>, j: int)
    requires 0 <= j < |p| && p[j].age > x.age
    ensures Insert(x, p[..j + 1]) + p[j + 1..] == Insert(x, p[..j]) + p[j..]
  {
    assert p[..j + 1][..j] == p[..j];
    assert [p[j]] + p[j + 1..] == p[j..];
  }

  /** `x` goes straight after an entry that is not older than it. */
  lemma InsertStop(x: Slot, p: seq<Slot>, j: int)
    requires -1 <= j < |p| && (j == -1 || p[j].age <= x.age)
    ensures Insert(x, p[..j + 1]) == p[..j + 1] + [x]
  {
  }

  /**
   * The inner loop of `MRU_Sort`: slot `i` is lifted out, the older slots
   * before it move up by one, and it is dropped into the gap.
   */
  method ShiftInsert(a0: seq<Slot>, i: nat) returns (a: seq<Slot>)
    requires i < |a0|
    ensures |a| == |a0|
    ensures a[..i + 1] == Insert(a0[i], a0[..i])
    ensures a[i + 1..] == a0[i + 1..]
  {
    a := a0;
    var x := a[i];
    ghost var p := a0[..i];
    var j := i - 1;
    assert p[..j + 1] == p && p[j + 1..] == [];
    while j >= 0 && a[j].age > x.age
      invariant -1 <= j < i
      invariant |a| == |a0|
      invariant forall k :: 0 <= k <= j ==> a[k] == a0[k]
      invariant forall k :: j + 2 <= k <= i ==> a[k] == a0[k - 1]
      invariant forall k :: i < k < |a0| ==> a[k] == a0[k]
      invariant Insert(x, p) == Insert(x, p[..j + 1]) + p[j + 1..]
      decreases j
    {
      InsertShift(x, p, j);
      a := a[j + 1 := a[j]];
      j := j - 1;
    }
    InsertStop(x, p, j);
    assert p[..j + 1] == a0[..j + 1] && p[j + 1..] == a0[j + 1..i];
    DropIn(a, a0, i, j);
    a := a[j + 1 := x];
  }

  /** After the shift, writing the lifted slot into the gap yields the insertion. */
  lemma DropIn(a: seq<Slot>, a0: seq<Slot>, i: nat, j: int)
    requires i < |a0| == |a| && -1 <= j < i
    requires forall k :: 0 <= k <= j ==> a[k] == a0[k]
    requires forall k :: j + 2 <= k <= i ==> a[k] == a0[k - 1]
    requires Insert(a0[i], a0[..i]) == a0[..j + 1] + [a0[i]] + a0[j + 1..i]
    ensures a[j + 1 := a0[i]][..i + 1] == Insert(a0[i], a0[..i])
  {
    var b := a[j + 1 := a0[i]];
    var sorted := a0[..j + 1] + [a0[i]] + a0[j + 1..i];
    forall k | 0 <= k <= i
      ensures b[k] == sorted[k]
    {
      if k > j + 1 {
        assert sorted[k] == a0[k - 1];
      }
    }
    assert b[..i + 1] == sorted;
  }

  /**
   * `MRU_Sort`'s loop over the slot array, written as the C writes it: each
   * slot in turn is lifted out and the older slots before it are shifted up.
   */
  method InsertionSort(s: seq<Slot>) returns (a: seq<Slot>)
    ensures a == SortSlots(s)
  {
    a := s;
    if |s| == 0 {
      return;
    }
    assert s[..1] == [s[0]] && s[..0] == [];
    var i := 1;
    while i < |a|
      invariant 1 <= i <= |a| == |s|
      invariant a[..i] == SortSlots(s[..i])
      invariant a[i..] == s[i..]
      decreases |a| - i
    {
      ghost var a0 := a;
      a := ShiftInsert(a, i);
      assert s[..i + 1][..i] == s[..i];
      assert a0[i] == s[i];
      i := i + 1;
    }
    assert a[..i] == a;
    assert s[..i] == s;
  }

  /** The `kk` scan: the highest slot at or below `k` whose age is not positive, or -1. */
  function LastUnused(s: seq<Slot>, k: int): (r: int)
    requires -1 <= k < |s|
    ensures -1 <= r <= k
    ensures r >= 0 ==> s[r].age <= 0
    ensures forall j :: r < j <= k ==> s[j].age > 0
    decreases k + 1
  {
    if k < 0 then -1 else if s[k].age > 0 then LastUnused(s, k - 1) else k
  }

  /** `MRU_Sort` as written: slots sorted, `oldest` at the last unused slot or -1. */
  function SortAsWritten(t: Table): (u: Table)
    requires Valid(t)
    ensures Valid(u) && u.paths == t.paths && u.youngest == t.youngest
    ensures u.slots == SortSlots(t.slots)
    ensures u.oldest == -1 <==> forall i :: 0 <= i < MRU_MAX ==> t.slots[i].age > 0
  {
    var s := SortSlots(t.slots);
    SortKeepsValid(t);
    SortSlotsCorrect(t.slots);
    LastUnusedFull(t.slots, s);
    Table(s, t.paths, t.youngest, LastUnused(s, MRU_MAX - 1))
  }

  /** The scan finds no unused slot exactly when every slot has been used. */
  lemma LastUnusedFull(s: seq<Slot>, u: seq<Slot>)
    requires |s| == |u| == MRU_MAX && multiset(u) == multiset(s)
    ensures LastUnused(u, MRU_MAX - 1) == -1 <==> forall i :: 0 <= i < MRU_MAX ==> s[i].age > 0
  {
    var r := LastUnused(u, MRU_MAX - 1);
    if r != -1 {
      assert u[r] in multiset(s);
    } else if exists i :: 0 <= i < MRU_MAX && s[i].age <= 0 {
      var i :| 0 <= i < MRU_MAX && s[i].age <= 0;
      assert s[i] in multiset(u);
    }
  }

  /** A full table shows that `MRU_Sort` leaves `oldest` outside the array. */
  lemma SortAsWrittenLosesOldest()
    ensures var t := Table(seq(MRU_MAX, i => Slot(i + 1, i)), seq(MRU_MAX, i => "f"), MRU_MAX, 0);
      Valid(t) && SortAsWritten(t).oldest == -1 && !Addable(SortAsWritten(t))
  {
  }

  /**
   * After the written sort of a full table, a listed path is still refreshed,
   * but a new one would be stored through `MRU[-1]`: `MRU_Add`'s
   * requirement on `oldest` fails.
   */
  lemma SortAsWrittenThenAdd()
    ensures var t := Table(seq(MRU_MAX, i => Slot(i + 1, i)), seq(MRU_MAX, i => "f"), MRU_MAX, 0);
      var w := SortAsWritten(t);
      && FindFrom(w, "f", 0).Some? && Add(w, "f").oldest == -1
      && FindFrom(w, "g", 0).None? && w.oldest == -1
  {
    var t := Table(seq(MRU_MAX, i => Slot(i + 1, i)), seq(MRU_MAX, i => "f"), MRU_MAX, 0);
    var w := SortAsWritten(t);
    EqualsIgnoreCaseReflexive("f");
    assert PathAt(w, 0) == "f";
    assert FoldCase("f")[0] != FoldCase("g")[0];
    assert forall j :: 0 <= j < MRU_MAX ==> PathAt(w, j) == "f";
  }

  /** `MRU_Sort` with `oldest` kept inside the array: slot 0, the oldest after sorting, when no slot is unused. */
  function Sort(t: Table): (u: Table)
    requires Valid(t)
    ensures Addable(u) && u.paths == t.paths && u.youngest == t.youngest
    ensures Sorted(u.slots)
    ensures forall j :: 0 <= j < MRU_MAX ==> u.slots[u.oldest].age <= u.slots[j].age
  {
    var w := SortAsWritten(t);
    SortSlotsCorrect(t.slots);
    w.(oldest := if w.oldest < 0 then 0 else w.oldest)
  }

  /** Sorting keeps every slot, and slots of equal age keep their order. */
  lemma SortPermutes(t: Table)
    requires Valid(t)
    ensures multiset(Sort(t).slots) == multiset(t.slots)
    ensures forall k :: WithAge(Sort(t).slots, k) == WithAge(t.slots, k)
  {
    SortSlotsCorrect(t.slots);
  }

  lemma SortKeepsValid(t: Table)
    requires Valid(t)
    ensures Valid(t.(slots := SortSlots(t.slots)))
  {
    SortIndexPermutation(t.slots);
    SortSlotsCorrect(t.slots);
    var u := SortSlots(t.slots);
    forall i | 0 <= i < |u|
      ensures 0 <= u[i].age <= t.youngest
    {
      assert u[i] in multiset(t.slots);
    }
  }

  lemma SortIndexPermutation(s: seq<Slot>)
    requires IndexPermutation(s)
    ensures IndexPermutation(SortSlots(s))
  {
    SortSlotsCorrect(s);
    var u := SortSlots(s);
    forall i | 0 <= i < |u|
      ensures 0 <= u[i].index < MRU_MAX
    {
      assert u[i] in multiset(s);
    }
    forall i, j | 0 <= i < j < |u|
      ensures u[i].index != u[j].index
    {
      if u[i].index == u[j].index {
        assert u[i] in multiset(s);
        assert u[j] in multiset(s);
        var a :| 0 <= a < |s| && s[a] == u[i];
        var b :| 0 <= b < |s| && s[b] == u[j];
        assert a == b;
        assert u[i] == u[j];
        MultisetDuplicate(u, i, j);
        assert multiset(s)[u[i]] >= 2;
        IndexesUnique(s, a);
      }
    }
  }

  /** Two equal entries at distinct positions occur at least twice. */
  lemma MultisetDuplicate(u: seq<Slot>, i: int, j: int)
    requires 0 <= i < j < |u| && u[i] == u[j]
    ensures multiset(u)[u[i]] >= 2
  {
    assert u == u[..i] + [u[i]] + u[i + 1..j] + [u[j]] + u[j + 1..];
    assert multiset(u) == multiset(u[..i]) + multiset{u[i]} + multiset(u[i + 1..j]) + multiset{u[j]} + multiset(u[j + 1..]);
  }

  /** Under a permutation of indexes, each slot value occurs once. */
  lemma IndexesUnique(s: seq<Slot>, a: int)
    requires IndexPermutation(s) && 0 <= a < |s|
    ensures multiset(s)[s[a]] == 1
  {
    var pre, post := s[..a], s[a + 1..];
    assert forall k :: 0 <= k < |pre| ==> pre[k].index != s[a].index;
    assert s[a] !in pre;
    assert forall k :: 0 <= k < |post| ==> post[k] == s[a + 1 + k];
    assert forall k :: 0 <= k < |post| ==> post[k].index != s[a].index;
    assert s[a] !in post;
    assert s == pre + [s[a]] + post;
    assert multiset(s) == multiset(pre) + multiset{s[a]} + multiset(post);
  }

  // ---------------------------------------------------------------------
  // Enumeration, saving and loading

  /** `MRU_Enum(n)`: the n-th newest entry once sorted (n = 0 is the newest). */
  function Enum(t: Table, n: int): string
    requires Valid(t) && 0 <= n < MRU_MAX
  {
    PathAt(t, MRU_MAX - n - 1)
  }

  /** After sorting, entry n of the enumeration is never older than entry n + 1. */
  lemma EnumNewestFirst(t: Table, n: int, m: int)
    requires Valid(t) && 0 <= n < m < MRU_MAX
    ensures Sort(t).slots[MRU_MAX - n - 1].age >= Sort(t).slots[MRU_MAX - m - 1].age
  {
  }

  /** `MRU_Enum(0)`, …, `MRU_Enum(9)`. */
  function EnumList(t: Table): (l: seq<string>)
    requires Valid(t)
    ensures |l| == MRU_MAX
    ensures forall k :: 0 <= k < MRU_MAX ==> l[k] == Enum(t, k)
  {
    seq(MRU_MAX, k requires 0 <= k < MRU_MAX => Enum(t, k))
  }

  function NonEmpty(l: seq<string>): (r: seq<string>)
    ensures |r| <= |l|
    ensures forall k :: 0 <= k < |r| ==> r[k] != ""
    decreases |l|
  {
    if l == [] then [] else (if l[0] != "" then [l[0]] else []) + NonEmpty(l[1..])
  }

  /** The INI key `MRU%02d`. */
  function Key(k: nat): (s: string)
    requires k < MRU_MAX
    ensures |s| == 5 && s[..3] == "MRU"
  {
    "MRU" + Decimal.Pad2(k)
  }

  lemma KeyInjective(a: nat, b: nat)
    requires a < MRU_MAX && b < MRU_MAX && Key(a) == Key(b)
    ensures a == b
  {
    assert Key(a)[3..] == Decimal.Pad2(a);
    assert Key(b)[3..] == Decimal.Pad2(b);
  }

  lemma KeyNotLater(k: nat)
    requires k < MRU_MAX
    ensures forall j :: k < j < MRU_MAX ==> Key(k) != Key(j)
  {
    forall j | k < j < MRU_MAX
      ensures Key(k) != Key(j)
    {
      if Key(k) == Key(j) { KeyInjective(k, j); }
    }
  }

  predicate IsKey(key: string)
  {
    exists k :: 0 <= k < MRU_MAX && key == Key(k)
  }

  /**
   * The keys from `MRU%02d` of `k` on, each written with its entry or an
   * empty string.  The keys are distinct, so the order of the writes does
   * not matter; key `k` is written after the later ones here.
   */
  function WriteKeys(ini: map<string, string>, e: seq<string>, k: nat): (r: map<string, string>)
    requires k <= MRU_MAX
    ensures forall j :: k <= j < MRU_MAX ==> Key(j) in r && r[Key(j)] == (if j < |e| then e[j] else "")
    ensures forall key :: key in r ==> key in ini || IsKey(key)
    decreases MRU_MAX - k
  {
    if k == MRU_MAX then ini
    else
      KeyNotLater(k);
      WriteKeys(ini, e, k + 1)[Key(k) := if k < |e| then e[k] else ""]
  }

  /** A key that is none of those written keeps its value. */
  lemma {:induction false} WriteKeysKeeps(ini: map<string, string>, e: seq<string>, k: nat, key: string)
    requires k <= MRU_MAX && key in ini
    requires forall j :: k <= j < MRU_MAX ==> key != Key(j)
    ensures key in WriteKeys(ini, e, k) && WriteKeys(ini, e, k)[key] == ini[key]
    decreases MRU_MAX - k
  {
    if k < MRU_MAX {
      WriteKeysKeeps(ini, e, k + 1, key);
    }
  }

  /** The entries `MRU_Save` stores, newest first: the non-empty ones of the enumeration. */
  function SaveList(t: Table): (e: seq<string>)
    requires Valid(t)
    ensures |e| <= MRU_MAX
    ensures forall k :: 0 <= k < |e| ==> e[k] != ""
  {
    NonEmpty(EnumList(t))
  }

  /**
   * `MRU_Save`: the non-empty entries newest first under `MRU00`, `MRU01`, …,
   * and every remaining key of the ten written as an empty string; other
   * keys are left alone.
   */
  function Save(t: Table, ini: map<string, string>): (r: map<string, string>)
    requires Valid(t)
    ensures forall j :: 0 <= j < MRU_MAX ==>
      Key(j) in r && r[Key(j)] == if j < |SaveList(t)| then SaveList(t)[j] else ""
    ensures forall key :: key in ini && !IsKey(key) ==> key in r && r[key] == ini[key]
  {
    WrittenKeys(ini, SaveList(t));
    var r := WriteKeys(ini, SaveList(t), 0);
    forall key | key in ini && !IsKey(key)
      ensures key in r && r[key] == ini[key]
    {
      WriteKeysKeeps(ini, SaveList(t), 0, key);
    }
    r
  }

  lemma WrittenKeys(ini: map<string, string>, e: seq<string>)
    ensures forall j :: 0 <= j < MRU_MAX ==>
      Key(j) in WriteKeys(ini, e, 0) && WriteKeys(ini, e, 0)[Key(j)] == (if j < |e| then e[j] else "")
  {
  }

  /** `ReadIniString(key, "")`. */
  function ReadKey(ini: map<string, string>, k: nat): string
    requires k < MRU_MAX
  {
    if Key(k) in ini then ini[Key(k)] else ""
  }

  /** The body of `MRU_Load` from key `k` down to `MRU00`: non-empty names of existing files are added. */
  function LoadFrom(t: Table, ini: map<string, string>, exists_: string -> bool, k: int): (u: Table)
    requires Addable(t) && -1 <= k < MRU_MAX
    ensures Addable(u)
    decreases k + 1
  {
    if k < 0 then t
    else
      var path := ReadKey(ini, k);
      LoadFrom(if path != "" && exists_(path) then Add(t, path) else t, ini, exists_, k - 1)
  }

  /** `MRU_Load`: a fresh table, then the keys from `MRU09` down to `MRU00`. */
  function Load(ini: map<string, string>, exists_: string -> bool): (u: Table)
    ensures Addable(u)
  {
    LoadFrom(Init(), ini, exists_, MRU_MAX - 1)
  }
}

=== FILE: mru_roundtrip.dfy ===
/**
 * Saving the recent-file list and loading it back: `MRU_Save` writes the
 * entries newest first, `MRU_Load` adds them back oldest first, and once
 * sorted the list enumerates the same paths in the same order.
 */
module MruRoundTrip {
  import opened Win32
  import opened Mru

  /** The entries of `s` last first. */
  function Reverse(s: seq<string>): (r: seq<string>)
    ensures |r| == |s|
  {
    seq(|s|, i requires 0 <= i < |s| => s[|s| - 1 - i])
  }

  /** No non-empty entry equals another entry, letter case aside. */
  predicate Pairwise(l: seq<string>)
  {
    forall i, j :: 0 <= i < |l| && 0 <= j < |l| && i != j && l[i] != "" ==> !EqualsIgnoreCase(l[i], l[j])
  }

  /**
   * The table after `MRU_Init` and adding the distinct paths `l` in order:
   * slot j (j < |l|) has age j + 1 and owns path l[j]; the rest are unused.
   */
  predicate Shape(t: Table, l: seq<string>)
  {
    && |l| <= MRU_MAX
    && Addable(t)
    && |t.slots| == MRU_MAX && |t.paths| == MRU_MAX
    && (forall j :: 0 <= j < MRU_MAX ==> t.slots[j] == if j < |l| then Slot(j + 1, j) else Slot(0, j))
    && (forall j :: 0 <= j < MRU_MAX ==> t.paths[j] == if j < |l| then l[j] else "")
    && t.youngest == |l|
    && t.oldest == |l| % MRU_MAX
  }

  lemma ShapeAddable(t: Table, l: seq<string>)
    requires Shape(t, l)
    ensures forall j :: 0 <= j < MRU_MAX ==> PathAt(t, j) == if j < |l| then l[j] else ""
  {
  }

  lemma InitShape()
    ensures Shape(Init(), [])
  {
  }

  lemma EmptyMatchesOnlyEmpty(p: string)
    requires p != ""
    ensures !EqualsIgnoreCase("", p)
  {
  }

  lemma ReplaceSlots(t: Table, l: seq<string>, p: string)
    requires Shape(t, l) && |l| < MRU_MAX
    ensures forall j :: 0 <= j < MRU_MAX ==>
      Replace(t, p).slots[j] == if j <= |l| then Slot(j + 1, j) else Slot(0, j)
  {
    forall j | 0 <= j < MRU_MAX
      ensures Replace(t, p).slots[j] == if j <= |l| then Slot(j + 1, j) else Slot(0, j)
    {
      ReplaceSlotAt(t, p, j, |l|);
    }
  }

  /** Slot j after replacing the oldest of a table whose first n slots are used. */
  lemma ReplaceSlotAt(t: Table, p: string, j: int, n: int)
    requires Addable(t) && 0 <= j < MRU_MAX && t.oldest == n == t.youngest
    requires t.slots[j] == if j < n then Slot(j + 1, j) else Slot(0, j)
    ensures Replace(t, p).slots[j] == if j <= n then Slot(j + 1, j) else Slot(0, j)
  {
    if j == n {
      ReplacedSlot(t, p);
    } else {
      KeptSlot(t, p, j);
    }
  }

  /** Every slot but `oldest` is left alone. */
  lemma KeptSlot(t: Table, p: string, j: int)
    requires Addable(t) && 0 <= j < MRU_MAX && j != t.oldest
    ensures Replace(t, p).slots[j] == t.slots[j]
  {
  }

  /** Slot `oldest` keeps its index and becomes the newest. */
  lemma ReplacedSlot(t: Table, p: string)
    requires Addable(t)
    ensures Replace(t, p).slots[t.oldest] == Slot(t.youngest + 1, t.slots[t.oldest].index)
  {
  }

  lemma ReplacePaths(t: Table, l: seq<string>, p: string)
    requires Shape(t, l) && |l| < MRU_MAX
    ensures forall j :: 0 <= j < MRU_MAX ==>
      Replace(t, p).paths[j] == if j < |l| then l[j] else if j == |l| then p else ""
  {
    var u := Replace(t, p);
    ReplaceSlots(t, l, p);
    forall j | 0 <= j < MRU_MAX
      ensures u.paths[j] == if j < |l| then l[j] else if j == |l| then p else ""
    {
      assert u.slots[j].index == j;
      if j != |l| {
        assert PathAt(u, j) == PathAt(t, j);
      }
    }
  }

  lemma ReplaceOldest(t: Table, l: seq<string>, p: string)
    requires Shape(t, l) && |l| < MRU_MAX
    ensures Replace(t, p).oldest == (|l| + 1) % MRU_MAX
  {
    var u := Replace(t, p);
    ReplaceSlots(t, l, p);
    OldestOfAges(u.slots, u.oldest, |l| + 1);
  }

  /**
   * In slots whose ages are 1..m followed by zeros, the first slot of lowest
   * age is slot m, or slot 0 when all ten are used.
   */
  lemma OldestOfAges(s: seq<Slot>, o: int, m: int)
    requires |s| == MRU_MAX && 0 <= o < MRU_MAX && 0 < m <= MRU_MAX
    requires forall j :: 0 <= j < MRU_MAX ==> s[j].age == if j < m then j + 1 else 0
    requires forall j :: 0 <= j < MRU_MAX ==> s[o].age <= s[j].age
    requires forall j :: 0 <= j < o ==> s[j].age > s[o].age
    ensures o == m % MRU_MAX
  {
    if m < MRU_MAX {
      assert s[m].age == 0;
    } else {
      assert s[0].age == 1;
    }
  }

  /** A non-empty path that is none of `l` is not listed in the table of shape `l`. */
  lemma ShapeNotListed(t: Table, l: seq<string>, p: string)
    requires Shape(t, l) && p != ""
    requires forall k :: 0 <= k < |l| ==> !EqualsIgnoreCase(l[k], p)
    ensures forall j :: 0 <= j < MRU_MAX ==> !EqualsIgnoreCase(PathAt(t, j), p)
  {
    ShapeAddable(t, l);
    EmptyMatchesOnlyEmpty(p);
    forall j | 0 <= j < MRU_MAX
      ensures !EqualsIgnoreCase(PathAt(t, j), p)
    {
      if j < |l| {
        assert PathAt(t, j) == l[j];
      } else {
        assert PathAt(t, j) == "";
      }
    }
  }

  /** Replacing the oldest entry of the shape `l` by `p` gives the shape `l + [p]`. */
  lemma ShapeReplace(t: Table, l: seq<string>, p: string)
    requires Shape(t, l) && |l| < MRU_MAX
    ensures Shape(Replace(t, p), l + [p])
  {
    var u := Replace(t, p);
    var l' := l + [p];
    ReplaceSlots(t, l, p);
    ReplacePaths(t, l, p);
    ReplaceOldest(t, l, p);
    assert forall j :: 0 <= j < MRU_MAX ==> u.slots[j] == if j < |l'| then Slot(j + 1, j) else Slot(0, j);
    assert forall j :: 0 <= j < MRU_MAX ==> u.paths[j] == if j < |l'| then l'[j] else "";
  }

  /** Adding a new non-empty path to a table of this shape extends the shape by one. */
  lemma ShapeAdd(t: Table, l: seq<string>, p: string)
    requires Shape(t, l) && |l| < MRU_MAX && p != ""
    requires forall k :: 0 <= k < |l| ==> !EqualsIgnoreCase(l[k], p)
    ensures Shape(Add(t, p), l + [p])
  {
    ShapeNotListed(t, l, p);
    AddReplacesOldest(t, p);
    ShapeReplace(t, l, p);
  }

  /** The entries after `k` loaded so far, in the order they were added. */
  function LoadedAfter(e: seq<string>, k: int): seq<string>
    requires -1 <= k
  {
    if k + 1 >= |e| then [] else Reverse(e[k + 1..])
  }

  lemma LoadedAfterStep(e: seq<string>, k: int)
    requires 0 <= k < |e|
    ensures LoadedAfter(e, k - 1) == LoadedAfter(e, k) + [e[k]]
  {
    var a := Reverse(e[k..]);
    var b := LoadedAfter(e, k) + [e[k]];
    assert |b| == |e| - k;
    forall i | 0 <= i < |a|
      ensures a[i] == b[i]
    {
      if i < |e| - k - 1 {
        assert b[i] == Reverse(e[k + 1..])[i] == e[|e| - 1 - i];
      }
    }
    assert a == b;
  }

  lemma LoadedAfterFresh(e: seq<string>, k: int)
    requires 0 <= k < |e| && Pairwise(e)
    requires forall j :: 0 <= j < |e| ==> e[j] != ""
    ensures forall i :: 0 <= i < |LoadedAfter(e, k)| ==> !EqualsIgnoreCase(LoadedAfter(e, k)[i], e[k])
  {
    var l := LoadedAfter(e, k);
    forall i | 0 <= i < |l|
      ensures !EqualsIgnoreCase(l[i], e[k])
    {
      var j := |e| - 1 - i;
      assert l[i] == e[j];
      assert !EqualsIgnoreCase(e[k], e[j]);
      EqualsIgnoreCaseSymmetric(e[k], e[j]);
    }
  }

  /** Loading the keys `k` down to 0 adds the entries of `e` not yet added, oldest first. */
  lemma {:induction false} LoadShape(t: Table, e: seq<string>, ini: map<string, string>, exists_: string -> bool, k: int)
    requires HoldsEntries(ini, e) && Restorable(e, exists_)
    requires -1 <= k < MRU_MAX
    requires Shape(t, LoadedAfter(e, k))
    ensures Shape(LoadFrom(t, ini, exists_, k), Reverse(e))
    decreases k + 1
  {
    if k < 0 {
      assert e[0..] == e;
    } else if k >= |e| {
      assert ReadKey(ini, k) == "";
      assert LoadFrom(t, ini, exists_, k) == LoadFrom(t, ini, exists_, k - 1);
      LoadShape(t, e, ini, exists_, k - 1);
    } else {
      assert ReadKey(ini, k) == e[k] && e[k] != "" && exists_(e[k]);
      var u := Add(t, e[k]);
      assert LoadFrom(t, ini, exists_, k) == LoadFrom(u, ini, exists_, k - 1);
      LoadStep(t, e, k);
      LoadShape(u, e, ini, exists_, k - 1);
    }
  }

  /** Adding entry `k` to the table of the entries after it gives the table of the entries from it. */
  lemma LoadStep(t: Table, e: seq<string>, k: int)
    requires 0 <= k < |e| <= MRU_MAX && Pairwise(e)
    requires forall j :: 0 <= j < |e| ==> e[j] != ""
    requires Shape(t, LoadedAfter(e, k))
    ensures Shape(Add(t, e[k]), LoadedAfter(e, k - 1))
  {
    LoadedAfterStep(e, k);
    LoadedAfterFresh(e, k);
    ShapeAdd(t, LoadedAfter(e, k), e[k]);
  }

  // ---------------------------------------------------------------------
  // Sorting a loaded table

  /** A sorted sequence is left as it is. */
  lemma {:induction false} SortOfSorted(s: seq<Slot>)
    requires Sorted(s)
    ensures SortSlots(s) == s
    decreases |s|
  {
    if s != [] {
      var front := s[..|s| - 1];
      assert Sorted(front);
      SortOfSorted(front);
      assert front == [] || front[|front| - 1].age <= s[|s| - 1].age;
      InsertStop(s[|s| - 1], front, |front| - 1);
      assert front[..|front|] == front;
      assert front + [s[|s| - 1]] == s;
    }
  }

  /** `x` passes every newer slot at the back and stops after `p`. */
  lemma {:induction false} InsertPast(x: Slot, p: seq<Slot>, a: seq<Slot>)
    requires p == [] || p[|p| - 1].age <= x.age
    requires forall i :: 0 <= i < |a| ==> a[i].age > x.age
    ensures Insert(x, p + a) == p + [x] + a
    decreases |a|
  {
    if a == [] {
      assert p + a == p;
      InsertStop(x, p, |p| - 1);
      assert p[..|p|] == p;
    } else {
      var front := a[..|a| - 1];
      assert (p + a)[..|p + a| - 1] == p + front;
      InsertPast(x, p, front);
      assert p + [x] + front + [a[|a| - 1]] == p + [x] + a;
    }
  }

  /** Unused slots appended after newer sorted slots all move to the front, in order. */
  lemma {:induction false} SortUnusedFirst(a: seq<Slot>, z: seq<Slot>)
    requires Sorted(a)
    requires forall i :: 0 <= i < |a| ==> a[i].age > 0
    requires forall i :: 0 <= i < |z| ==> z[i].age == 0
    ensures SortSlots(a + z) == z + a
    decreases |z|
  {
    if z == [] {
      assert a + z == a;
      SortOfSorted(a);
    } else {
      var front := z[..|z| - 1];
      var x := z[|z| - 1];
      assert (a + z)[..|a + z| - 1] == a + front;
      assert (a + z)[|a + z| - 1] == x;
      SortUnusedFirst(a, front);
      InsertPast(x, front, a);
      assert front + [x] == z;
    }
  }

  /** The slots of a loaded table: the used ones in age order, then the unused ones. */
  lemma ShapeSlots(t: Table, l: seq<string>)
    requires Shape(t, l)
    ensures t.slots == seq(|l|, j => Slot(j + 1, j)) + seq(MRU_MAX - |l|, j => Slot(0, |l| + j))
  {
  }

  /** Sorting the loaded shape moves the unused slots in front of the used ones. */
  lemma SortShape(t: Table, l: seq<string>)
    requires Shape(t, l)
    ensures forall q :: 0 <= q < MRU_MAX ==>
      Sort(t).slots[q].index == if q < MRU_MAX - |l| then |l| + q else q - MRU_MAX + |l|
  {
    var a := seq(|l|, j => Slot(j + 1, j));
    var z := seq(MRU_MAX - |l|, j => Slot(0, |l| + j));
    ShapeSlots(t, l);
    SortUnusedFirst(a, z);
    assert Sort(t).slots == SortAsWritten(t).slots;
    forall q | 0 <= q < MRU_MAX
      ensures Sort(t).slots[q].index == if q < MRU_MAX - |l| then |l| + q else q - MRU_MAX + |l|
    {
      SortedSlotIndex(|l|, q);
    }
  }

  /** Slot q of the sorted loaded shape. */
  lemma SortedSlotIndex(n: nat, q: int)
    requires n <= MRU_MAX && 0 <= q < MRU_MAX
    ensures (seq(MRU_MAX - n, j => Slot(0, n + j)) + seq(n, j => Slot(j + 1, j)))[q].index
      == if q < MRU_MAX - n then n + q else q - MRU_MAX + n
  {
  }

  /** Entry k of the enumeration of a table laid out as the sorted loaded shape. */
  lemma EntryOfSortedShape(u: Table, e: seq<string>, k: int)
    requires |e| <= MRU_MAX && Valid(u) && 0 <= k < MRU_MAX
    requires forall j :: 0 <= j < MRU_MAX ==> u.paths[j] == if j < |e| then e[|e| - 1 - j] else ""
    requires forall q :: 0 <= q < MRU_MAX ==>
      u.slots[q].index == if q < MRU_MAX - |e| then |e| + q else q - MRU_MAX + |e|
    ensures Enum(u, k) == if k < |e| then e[k] else ""
  {
    var n := |e|;
    var q := MRU_MAX - k - 1;
    var i := u.slots[q].index;
    assert i == if k < n then n - 1 - k else n + q;
    assert Enum(u, k) == u.paths[i];
  }

  lemma ShapePaths(t: Table, e: seq<string>)
    requires Shape(t, Reverse(e))
    ensures forall j :: 0 <= j < MRU_MAX ==> t.paths[j] == if j < |e| then e[|e| - 1 - j] else ""
  {
  }

  /** Entry k of the sorted enumeration of a loaded table. */
  lemma SortedShapeEntry(t: Table, e: seq<string>, k: int)
    requires Shape(t, Reverse(e)) && 0 <= k < MRU_MAX
    ensures Enum(Sort(t), k) == if k < |e| then e[k] else ""
  {
    SortShape(t, Reverse(e));
    ShapePaths(t, e);
    var u := Sort(t);
    assert forall j :: 0 <= j < MRU_MAX ==> u.paths[j] == if j < |e| then e[|e| - 1 - j] else "";
    assert Valid(u) && |e| <= MRU_MAX;
    EntryOfSortedShape(u, e, k);
  }

  /** A list of at most ten entries followed by empty strings up to ten. */
  function Padded(e: seq<string>): (r: seq<string>)
    requires |e| <= MRU_MAX
    ensures |r| == MRU_MAX
    ensures forall k :: 0 <= k < MRU_MAX ==> r[k] == if k < |e| then e[k] else ""
  {
    e + seq(MRU_MAX - |e|, _ => "")
  }

  /** Sorting the loaded shape enumerates the loaded paths newest first. */
  lemma SortedShapeEnum(t: Table, e: seq<string>)
    requires Shape(t, Reverse(e))
    ensures EnumList(Sort(t)) == Padded(e)
  {
    var l, r := EnumList(Sort(t)), Padded(e);
    forall k | 0 <= k < MRU_MAX
      ensures l[k] == r[k]
    {
      SortedShapeEntry(t, e, k);
    }
    assert |l| == |r|;
  }

  // ---------------------------------------------------------------------
  // The round trip

  lemma {:induction false} NonEmptyPairwise(l: seq<string>)
    requires Pairwise(l)
    ensures Pairwise(NonEmpty(l))
    ensures forall k :: 0 <= k < |NonEmpty(l)| ==> NonEmpty(l)[k] in l[..]
    decreases |l|
  {
    if l != [] {
      var rest := NonEmpty(l[1..]);
      PairwiseTail(l);
      NonEmptyPairwise(l[1..]);
      if l[0] != "" {
        PairwiseCons(l, rest);
      }
    }
  }

  lemma PairwiseTail(l: seq<string>)
    requires l != [] && Pairwise(l)
    ensures Pairwise(l[1..])
  {
    forall i, j | 0 <= i < |l[1..]| && 0 <= j < |l[1..]| && i != j && l[1..][i] != ""
      ensures !EqualsIgnoreCase(l[1..][i], l[1..][j])
    {
      assert l[1..][i] == l[i + 1] && l[1..][j] == l[j + 1];
    }
  }

  /** A non-empty head of a pairwise list, before a pairwise list drawn from its tail. */
  lemma PairwiseCons(l: seq<string>, rest: seq<string>)
    requires l != [] && l[0] != "" && Pairwise(l) && Pairwise(rest)
    requires forall k :: 0 <= k < |rest| ==> rest[k] in l[1..][..]
    ensures Pairwise([l[0]] + rest)
  {
    var r := [l[0]] + rest;
    forall i, j | 0 <= i < |r| && 0 <= j < |r| && i != j && r[i] != ""
      ensures !EqualsIgnoreCase(r[i], r[j])
    {
      if i == 0 {
        assert r[j] == rest[j - 1] && r[j] in l[1..][..];
        var m :| 0 <= m < |l[1..]| && l[1..][m] == r[j];
        assert l[m + 1] == r[j];
      } else if j == 0 {
        assert r[i] == rest[i - 1] && r[i] in l[1..][..];
        var m :| 0 <= m < |l[1..]| && l[1..][m] == r[i];
        assert l[m + 1] == r[i];
      } else {
        assert r[i] == rest[i - 1] && r[j] == rest[j - 1];
      }
    }
  }

  /** Distinct slots enumerate as a list without duplicates. */
  lemma EnumListPairwise(t: Table)
    requires Valid(t) && DistinctPaths(t)
    ensures Pairwise(EnumList(t))
  {
    var l := EnumList(t);
    forall i, j | 0 <= i < |l| && 0 <= j < |l| && i != j && l[i] != ""
      ensures !EqualsIgnoreCase(l[i], l[j])
    {
      assert l[i] == PathAt(t, MRU_MAX - i - 1) && l[j] == PathAt(t, MRU_MAX - j - 1);
    }
  }

  /** `ini` holds the entries `e` under MRU00, MRU01, ..., and empty strings under the other keys. */
  predicate HoldsEntries(ini: map<string, string>, e: seq<string>)
  {
    |e| <= MRU_MAX && forall j :: 0 <= j < MRU_MAX ==> ReadKey(ini, j) == if j < |e| then e[j] else ""
  }

  /** Entries that `MRU_Load` takes back: distinct, non-empty, naming existing files. */
  predicate Restorable(e: seq<string>, exists_: string -> bool)
  {
    Pairwise(e) && forall j :: 0 <= j < |e| ==> e[j] != "" && exists_(e[j])
  }

  /** The keys written by `MRU_Save` read back as the non-empty entries, then empty strings. */
  lemma SavedKeys(t: Table, ini: map<string, string>)
    requires Valid(t)
    ensures HoldsEntries(Save(t, ini), SaveList(t))
  {
  }

  /** The saved entries are distinct, non-empty, and name existing files. */
  lemma SavedEntries(t: Table, e: seq<string>, exists_: string -> bool)
    requires Valid(t) && DistinctPaths(t) && e == SaveList(t)
    requires forall k :: 0 <= k < MRU_MAX && Enum(t, k) != "" ==> exists_(Enum(t, k))
    ensures Restorable(e, exists_)
  {
    var l := EnumList(t);
    EnumListPairwise(t);
    NonEmptyPairwise(l);
    forall k | 0 <= k < |l| && l[k] != ""
      ensures exists_(l[k])
    {
      assert l[k] == Enum(t, k);
    }
    NonEmptyKeeps(l, exists_);
  }

  /** Dropping the empty entries keeps a property that every non-empty entry has. */
  lemma {:induction false} NonEmptyKeeps(l: seq<string>, ok: string -> bool)
    requires forall k :: 0 <= k < |l| && l[k] != "" ==> ok(l[k])
    ensures forall k :: 0 <= k < |NonEmpty(l)| ==> ok(NonEmpty(l)[k])
    decreases |l|
  {
    if l != [] {
      assert forall k :: 0 <= k < |l[1..]| && l[1..][k] != "" ==> ok(l[1..][k]) by {
        forall k | 0 <= k < |l[1..]| && l[1..][k] != ""
          ensures ok(l[1..][k])
        {
          assert l[1..][k] == l[k + 1];
        }
      }
      NonEmptyKeeps(l[1..], ok);
    }
  }

  /** Loading keys that hold the distinct existing entries `e`, then sorting, enumerates `e`. */
  lemma LoadEntries(e: seq<string>, ini: map<string, string>, exists_: string -> bool)
    requires HoldsEntries(ini, e) && Restorable(e, exists_)
    ensures EnumList(Sort(Load(ini, exists_))) == Padded(e)
  {
    InitShape();
    assert LoadedAfter(e, MRU_MAX - 1) == [];
    LoadShape(Init(), e, ini, exists_, MRU_MAX - 1);
    SortedShapeEnum(Load(ini, exists_), e);
  }

  /**
   * Saving a list whose paths all still exist and loading it back, into any
   * INI file, reproduces the enumeration: the saved paths newest first,
   * then empty entries.
   */
  lemma SaveLoadRoundTrip(t: Table, ini: map<string, string>, exists_: string -> bool)
    requires Valid(t) && DistinctPaths(t)
    requires forall k :: 0 <= k < MRU_MAX && Enum(t, k) != "" ==> exists_(Enum(t, k))
    ensures var e := SaveList(t);
      EnumList(Sort(Load(Save(t, ini), exists_))) == Padded(e)
  {
    var e := SaveList(t);
    SavedKeys(t, ini);
    SavedEntries(t, e, exists_);
    LoadEntries(e, Save(t, ini), exists_);
  }
}

=== FILE: notepad_main.dfy ===
/**
 * Notepad's start-up rules: the command line (`/p`, `/r`, a quoted or bare
 * file name, the `.txt` retry for a name without an extension), the
 * separator rewrite of the "more types" file filter, and the dispatch of
 * the recent-file menu commands.
 *
 * Whether a file exists, `GetFullPathName` and the user's answer to "create
 * this file?" are parameters.  Strings stand for C strings and hold no NUL.
 */
module NotepadMain {
  import opened Win32
  import FileUtils
  import Mru

  // ---------------------------------------------------------------------
  // Options

  datatype Options = Options(toPrinter: bool, readOnly: bool)

  const NO_OPTIONS: Options := Options(false, false)

  /** The characters the option loop consumes at the start of the line. */
  predicate IsOptionLead(c: char)
  {
    c == ' ' || c == '-' || c == '/'
  }

  /** `while (*cmdline == ' ') cmdline++` from position `j`. */
  function SkipBlanks(line: string, j: nat): (k: nat)
    requires j <= |line|
    ensures j <= k <= |line|
    ensures k == |line| || line[k] != ' '
    ensures forall m :: j <= m < k ==> line[m] == ' '
    decreases |line| - j
  {
    if j < |line| && line[j] == ' ' then SkipBlanks(line, j + 1) else j
  }

  /** The switch on `tolower(option)`: `p` asks for printing, `v` and `r` for read-only; others are ignored. */
  function ApplyOption(o: Options, option: char): (r: Options)
    ensures r.toPrinter <==> o.toPrinter || LowerAscii(option as int) == 'p' as int
    ensures r.readOnly <==> o.readOnly || LowerAscii(option as int) in {'v' as int, 'r' as int}
  {
    var c := LowerAscii(option as int);
    if c == 'p' as int then o.(toPrinter := true)
    else if c == 'v' as int || c == 'r' as int then o.(readOnly := true)
    else o
  }

  /**
   * The option loop from position `i` with options `o`: a blank is
   * skipped; a `-` or `/` takes the next character as the option letter,
   * then skips blanks.  Returns the options and where the loop stopped.
   */
  function ParseFrom(line: string, i: nat, o: Options): (r: (Options, nat))
    requires i <= |line|
    ensures i <= r.1 <= |line|
    ensures r.1 == |line| || !IsOptionLead(line[r.1])
    ensures o.toPrinter ==> r.0.toPrinter
    ensures o.readOnly ==> r.0.readOnly
    decreases |line| - i
  {
    if i == |line| || !IsOptionLead(line[i]) then (o, i)
    else if line[i] == ' ' then ParseFrom(line, i + 1, o)
    else if i + 1 == |line| then (o, |line|)
    else ParseFrom(line, SkipBlanks(line, i + 2), ApplyOption(o, line[i + 1]))
  }

  /** The options of a command line and the rest of it, which starts with none of blank, `-`, `/`. */
  function ParseOptions(line: string): (r: (Options, string))
    ensures |r.1| <= |line| && r.1 == line[|line| - |r.1|..]
    ensures r.1 == [] || !IsOptionLead(r.1[0])
  {
    var (o, k) := ParseFrom(line, 0, NO_OPTIONS);
    (o, line[k..])
  }

  /** A command line that asks for the options `o` and names `rest`. */
  function FormatOptions(o: Options, rest: string): string
  {
    (if o.toPrinter then "/p " else "") + (if o.readOnly then "/r " else "") + rest
  }

  /** A `/c ` switch at `i`, followed by no further blank, sets option `c` and moves on by three. */
  lemma ParseSwitch(line: string, i: nat, o: Options)
    requires i + 3 <= |line| && line[i] == '/' && line[i + 2] == ' '
    requires i + 3 == |line| || line[i + 3] != ' '
    ensures ParseFrom(line, i, o) == ParseFrom(line, i + 3, ApplyOption(o, line[i + 1]))
  {
    assert SkipBlanks(line, i + 2) == i + 3 by {
      assert SkipBlanks(line, i + 3) == i + 3;
    }
  }

  /** The letters `p` and `r` set their own flag and nothing else. */
  lemma OptionLetters(o: Options)
    ensures ApplyOption(o, 'p') == o.(toPrinter := true)
    ensures ApplyOption(o, 'r') == o.(readOnly := true)
  {
    assert LowerAscii('p' as int) == 'p' as int;
    assert LowerAscii('r' as int) == 'r' as int;
  }

  /** Parsing a formatted line gives back its options and its file name. */
  lemma ParseFormatRoundTrip(o: Options, rest: string)
    requires rest == [] || !IsOptionLead(rest[0])
    ensures ParseOptions(FormatOptions(o, rest)) == (o, rest)
  {
    var line := FormatOptions(o, rest);
    var p := if o.toPrinter then 3 else 0;
    var n := p + if o.readOnly then 3 else 0;
    assert line[n..] == rest;
    assert ParseFrom(line, n, o) == (o, n);
    if o.readOnly {
      var before := o.(readOnly := false);
      OptionLetters(before);
      assert line[p] == '/' && line[p + 1] == 'r' && line[p + 2] == ' ';
      ParseSwitch(line, p, before);
      assert ParseFrom(line, p, before) == (o, n);
    }
    if o.toPrinter {
      OptionLetters(NO_OPTIONS);
      assert line[0] == '/' && line[1] == 'p' && line[2] == ' ';
      ParseSwitch(line, 0, NO_OPTIONS);
    }
    assert ParseFrom(line, 0, NO_OPTIONS) == (o, n);
  }

  /** The option loop stops for good: the rest it leaves holds no further options. */
  lemma ParseOptionsStops(line: string)
    ensures var r := ParseOptions(line); ParseOptions(r.1) == (NO_OPTIONS, r.1)
  {
    var r := ParseOptions(line);
    assert r.1[0..] == r.1;
  }

  // ---------------------------------------------------------------------
  // The file name

  /**
   * A name starting with `"` loses that quote and its last character,
   * whatever that is; a lone `"` leaves an empty name.
   */
  function StripQuotes(rest: string): (name: string)
    ensures rest == [] || rest[0] != '"' ==> name == rest
    ensures rest != [] && rest[0] == '"' ==> |name| == (if |rest| >= 2 then |rest| - 2 else 0)
    ensures |name| <= |rest|
  {
    if rest != [] && rest[0] == '"' then (if |rest| >= 2 then rest[1..|rest| - 1] else [])
    else rest
  }

  /** Quoting a name and stripping the quotes gives the name back. */
  lemma StripQuotesRoundTrip(name: string)
    ensures StripQuotes("\"" + name + "\"") == name
  {
    assert ("\"" + name + "\"")[1..|name| + 1] == name;
  }

  /** A missing closing quote costs the name its last character. */
  lemma StripQuotesDropsLast()
    ensures StripQuotes("\"notes.txt") == "notes.tx"
  {
  }

  const TXT: string := ".txt"
  const MAX_PATH: int := 260

  /** The `_tcsncpy` count: `MAX_PATH - _tcslen(txt) - 1` characters. */
  const COPY_LIMIT: int := MAX_PATH - |TXT| - 1

  /**
   * The retry name as written: `_tcsncpy(buf, name, 255)` then
   * `_tcscat(buf, ".txt")`.  A name of 255 characters or more fills the
   * copy without a terminator, so `_tcscat` appends after whatever the
   * uninitialised buffer holds: None stands for that undefined result.
   */
  function TxtCandidateAsWritten(name: string): (r: Option<string>)
    ensures r.Some? <==> |name| < COPY_LIMIT
    ensures r.Some? ==> |r.value| == |name| + |TXT| && r.value[..|name|] == name && r.value[|name|..] == TXT
  {
    if |name| < COPY_LIMIT then Some(name + TXT) else None
  }

  /** A long name without an extension hits the unterminated copy. */
  lemma TxtCandidateUnterminated()
    ensures var name := seq(COPY_LIMIT, _ => 'a');
      && !FileUtils.HasFileExtension(name)
      && TxtCandidateAsWritten(name).None?
      && |TxtCandidate(name)| == MAX_PATH - 1
  {
    var name := seq(COPY_LIMIT, _ => 'a');
    FileUtils.HasFileExtensionMeaning(name);
  }

  /**
   * The retry name as intended: at most 255 characters of the name, then
   * `.txt`; it fits `MAX_PATH` with its terminator and has an extension.
   */
  function TxtCandidate(name: string): (r: string)
    ensures var kept := if |name| < COPY_LIMIT then |name| else COPY_LIMIT;
      |r| == kept + |TXT| && r[..kept] == name[..kept] && r[kept..] == TXT
    ensures |r| < MAX_PATH
  {
    var kept := if |name| < COPY_LIMIT then |name| else COPY_LIMIT;
    name[..kept] + TXT
  }

  /** Both agree where the copy is terminated. */
  lemma TxtCandidateAgrees(name: string)
    requires |name| < COPY_LIMIT
    ensures TxtCandidateAsWritten(name) == Some(TxtCandidate(name))
  {
    assert name[..|name|] == name;
  }

  /** The retry name always has an extension, so it is never retried again. */
  lemma TxtCandidateHasExtension(name: string)
    ensures FileUtils.HasFileExtension(TxtCandidate(name))
  {
    var r := TxtCandidate(name);
    var i := |r| - |TXT|;
    assert r[i] == '.';
    assert FileUtils.NoBackslashAfter(r, i) by {
      assert r[i..] == TXT;
      forall j | 0 <= j < |r| && j > i
        ensures r[j] != '\\'
      {
        assert r[j] == TXT[j - i];
      }
    }
    FileUtils.HasFileExtensionMeaning(r);
  }

  /**
   * `!_tcscmp(txt, cmdline + len - 4)`: the four characters of the command
   * line that end where the name ends.  `end` is that position in `line`.
   * With fewer than four characters before it the C code reads before the
   * argument string; the model counts that as no match.
   */
  predicate TailIsTxt(line: string, end: int)
    requires 0 <= end <= |line|
  {
    end >= |TXT| && line[end - |TXT|..end] == TXT
  }

  /** A name without an extension never ends in `.txt` itself: only characters before it can match. */
  lemma NameNeverEndsInTxt(name: string)
    requires !FileUtils.HasFileExtension(name) && |name| >= |TXT|
    ensures name[|name| - |TXT|..] != TXT
  {
    FileUtils.HasFileExtensionMeaning(name);
    TxtTailIsExtension(name);
  }

  /** A name ending in `.txt` has a dot with no backslash after it. */
  lemma TxtTailIsExtension(name: string)
    requires |name| >= |TXT|
    ensures name[|name| - |TXT|..] == TXT ==> FileUtils.DotInLastComponent(name)
  {
    var i := |name| - |TXT|;
    if name[i..] == TXT {
      assert name[i] == name[i..][0] == '.';
      assert FileUtils.NoBackslashAfter(name, i) by {
        forall j | 0 <= j < |name| && j > i
          ensures name[j] != '\\'
        {
          assert name[j] == name[i..][j - i];
        }
      }
    }
  }

  // ---------------------------------------------------------------------
  // HandleCommandLine

  /** What becomes of the named file: nothing named, opened, created on request, or left alone. */
  datatype Action = NoFile | OpenExisting(path: string) | CreateNew(path: string) | Declined(name: string)

  /** The effect of `HandleCommandLine`; `proceed` is its return value (FALSE ends Notepad). */
  datatype Launch = Launch(options: Options, action: Action, proceed: bool)

  /**
   * The name tried and whether it exists: the name itself when it exists;
   * for a missing name without an extension the `.txt` retry, unless the
   * command line already ends in `.txt` there.
   */
  function ResolveName(name: string, tailIsTxt: bool, fileExists: string -> bool): (r: (string, bool))
    ensures fileExists(name) ==> r == (name, true)
    ensures r.1 ==> fileExists(r.0)
    ensures r.0 == name || (r.0 == TxtCandidate(name) && !FileUtils.HasFileExtension(name))
  {
    if fileExists(name) then (name, true)
    else if FileUtils.HasFileExtension(name) then (name, false)
    else if tailIsTxt then (name, false)
    else
      var candidate := TxtCandidate(name);
      (candidate, fileExists(candidate))
  }

  /**
   * The rest of `HandleCommandLine` once the options are parsed: with a
   * name left, open it when it (or its `.txt` retry) exists, printing and
   * ending Notepad under `/p`; otherwise ask, and create it on Yes.
   * `tailIsTxt` is the `.txt` comparison on the command line.
   */
  function HandleName(options: Options, rest: string, tailIsTxt: bool, fileExists: string -> bool,
                      fullPath: string -> string, createAnswer: bool): (r: Launch)
    ensures r.options == options
    ensures !r.proceed <==> r.action.OpenExisting? && options.toPrinter
    ensures r.action == NoFile <==> rest == []
    ensures r.action.OpenExisting? ==> exists n :: fileExists(n) && r.action.path == fullPath(n)
    ensures rest != [] && fileExists(StripQuotes(rest)) ==> r.action == OpenExisting(fullPath(StripQuotes(rest)))
  {
    if rest == [] then Launch(options, NoFile, true)
    else
      var name := StripQuotes(rest);
      var (tried, found) := ResolveName(name, tailIsTxt, fileExists);
      if found then Launch(options, OpenExisting(fullPath(tried)), !options.toPrinter)
      else if createAnswer then Launch(options, CreateNew(fullPath(tried)), true)
      else Launch(options, Declined(tried), true)
  }

  /**
   * `HandleCommandLine(line)`: the options, then the name.  The name ends
   * one character early when the closing quote was cut off.
   */
  function HandleCommandLine(line: string, fileExists: string -> bool, fullPath: string -> string,
                             createAnswer: bool): (r: Launch)
    ensures r.options == ParseOptions(line).0
    ensures !r.proceed <==> r.action.OpenExisting? && r.options.toPrinter
    ensures r.action == NoFile <==> ParseOptions(line).1 == []
  {
    var (options, rest) := ParseOptions(line);
    var end := if rest != [] && rest[0] == '"' && |rest| >= 2 then |line| - 1 else |line|;
    HandleName(options, rest, TailIsTxt(line, end), fileExists, fullPath, createAnswer)
  }

  /** `/r` is parsed and has no effect: only the flag itself differs. */
  lemma ReadOnlyHasNoEffect(options: Options, rest: string, tailIsTxt: bool, fileExists: string -> bool,
                            fullPath: string -> string, createAnswer: bool)
    ensures var a := HandleName(options.(readOnly := true), rest, tailIsTxt, fileExists, fullPath, createAnswer);
      var b := HandleName(options.(readOnly := false), rest, tailIsTxt, fileExists, fullPath, createAnswer);
      a.action == b.action && a.proceed == b.proceed
  {
  }

  // ---------------------------------------------------------------------
  // The file filter

  const NUL: char := '\0'

  /** In the "more types" filter segment every line break and `$` becomes a NUL separator. */
  function SeparateFilter(s: string): (r: string)
    ensures |r| == |s|
    ensures forall i :: 0 <= i < |s| ==> (r[i] == NUL <==> s[i] == '\n' || s[i] == '$' || s[i] == NUL)
    ensures forall i :: 0 <= i < |s| && r[i] != NUL ==> r[i] == s[i]
  {
    seq(|s|, i requires 0 <= i < |s| => if s[i] == '\n' || s[i] == '$' then NUL else s[i])
  }

  /** Writing each separator back as `$`. */
  function JoinFilter(r: string): (s: string)
    ensures |s| == |r|
  {
    seq(|r|, i requires 0 <= i < |r| => if r[i] == NUL then '$' else r[i])
  }

  /** A filter written with `$` separators only is recovered from its separated form. */
  lemma SeparateJoinRoundTrip(s: string)
    requires forall i :: 0 <= i < |s| ==> s[i] != '\n' && s[i] != NUL
    ensures JoinFilter(SeparateFilter(s)) == s
  {
  }

  // ---------------------------------------------------------------------
  // Recent-file menu commands

  const MENU_RECENT: int := 0x140
  const MENU_RECENT1: int := 0x141
  const MENU_RECENT9: int := 0x149

  /** `UpdateMenuRecent` gives the entry `MRU_Enum(ii)` the command id `MENU_RECENT1 + ii`. */
  function RecentMenuId(ii: int): (id: int)
    requires 0 <= ii < Mru.MRU_MAX
    ensures MENU_RECENT1 <= id < MENU_RECENT1 + Mru.MRU_MAX
  {
    MENU_RECENT1 + ii
  }

  /**
   * The `WM_COMMAND` default branch as written: ids `MENU_RECENT1` to
   * `MENU_RECENT9` open `MRU_Enum(id - MENU_RECENT - 1)`.
   */
  function RecentCommandAsWritten(id: int): (r: Option<int>)
    ensures r.Some? <==> MENU_RECENT1 <= id <= MENU_RECENT9
    ensures r.Some? ==> 0 <= r.value < Mru.MRU_MAX - 1
  {
    if MENU_RECENT1 <= id <= MENU_RECENT9 then Some(id - MENU_RECENT - 1) else None
  }

  /** The tenth recent-file item gets an id the dispatch does not accept. */
  lemma TenthRecentIgnored()
    ensures RecentCommandAsWritten(RecentMenuId(Mru.MRU_MAX - 1)).None?
  {
  }

  /** The dispatch over the ids the menu hands out: every entry's id. */
  function RecentCommand(id: int): (r: Option<int>)
    ensures r.Some? ==> 0 <= r.value < Mru.MRU_MAX && RecentMenuId(r.value) == id
  {
    if MENU_RECENT1 <= id < MENU_RECENT1 + Mru.MRU_MAX then Some(id - MENU_RECENT - 1) else None
  }

  /** Every menu entry's command opens that entry, and the two dispatches agree on the first nine. */
  lemma RecentCommandInverse(ii: int)
    requires 0 <= ii < Mru.MRU_MAX
    ensures RecentCommand(RecentMenuId(ii)) == Some(ii)
    ensures ii < Mru.MRU_MAX - 1 ==> RecentCommandAsWritten(RecentMenuId(ii)) == Some(ii)
  {
  }
}

=== FILE: notepad_types.dfy ===
/**
 * The enumerations and the per-tab record of Notepad's shared header:
 * text encodings, end-of-line styles, the file-modification state and the
 * edit information kept for every tab.
 */
module NotepadTypes {
  import opened Win32

  /** `ENCODING`; the numeric values are the Encoding combobox indexes. */
  datatype Encoding = Auto | Utf8 | Utf8Bom | AnsiOem | Utf16Le | Utf16Be

  function EncodingValue(e: Encoding): int
  {
    match e
    case Auto => -1
    case Utf8 => 0
    case Utf8Bom => 1
    case AnsiOem => 2
    case Utf16Le => 3
    case Utf16Be => 4
  }

  /** The encoding whose value is `v`, if any (a cast `(ENCODING) v`). */
  function EncodingOfValue(v: int): (r: Option<Encoding>)
    ensures r.Some? <==> -1 <= v <= 4
    ensures r.Some? ==> EncodingValue(r.value) == v
  {
    if v == -1 then Some(Auto)
    else if v == 0 then Some(Utf8)
    else if v == 1 then Some(Utf8Bom)
    else if v == 2 then Some(AnsiOem)
    else if v == 3 then Some(Utf16Le)
    else if v == 4 then Some(Utf16Be)
    else None
  }

  const ENCODING_DEFAULT: Encoding := Utf8

  /** `EOLN`; the values index the end-of-line tables of the writer. */
  datatype Eoln = Lf | CrLf | Cr

  function EolnValue(e: Eoln): int
  {
    match e
    case Lf => 0
    case CrLf => 1
    case Cr => 2
  }

  function EolnOfValue(v: int): (r: Option<Eoln>)
    ensures r.Some? <==> 0 <= v <= 2
    ensures r.Some? ==> EolnValue(r.value) == v
  {
    if v == 0 then Some(Lf)
    else if v == 1 then Some(CrLf)
    else if v == 2 then Some(Cr)
    else None
  }

  const EOLN_DEFAULT: Eoln := Lf

  const CR: uint16 := 0x0D
  const LF: uint16 := 0x0A
  const NUL: uint16 := 0x00
  const SPACE: uint16 := 0x20
  const BOM: uint16 := 0xFEFF

  /** The line terminator `WideEOL[iEoln]`, as code units. */
  function EolUnits(e: Eoln): (r: Text)
    ensures 1 <= |r| <= 2
    ensures e == CrLf <==> |r| == 2
    ensures r[0] == (if e == Lf then LF else CR)
    ensures |r| == 2 ==> r[1] == LF
  {
    match e
    case Lf => [LF]
    case CrLf => [CR, LF]
    case Cr => [CR]
  }

  /**
   * `FILEMODE`: NORMAL (clean), READONLY, OUTDATE (clean but changed on disk),
   * EDITING (modified), CLASH (modified here and changed on disk).
   */
  datatype FileMode = Normal | ReadOnly | Outdate | Editing | Clash

  function FileModeValue(m: FileMode): int
  {
    match m
    case Normal => 0
    case ReadOnly => 1
    case Outdate => 2
    case Editing => 3
    case Clash => 4
  }

  /** A `FILETIME`: the low and high DWORD halves of a 100-nanosecond count. */
  datatype FileTime = FileTime(low: int, high: int)
  {
    predicate Valid() { 0 <= high < DWORD_RANGE && 0 <= low < DWORD_RANGE }
  }

  /** `EDITINFO`, the record each tab carries (window handle left out). */
  datatype EditInfo = EditInfo(
    enc: Encoding,
    eoln: Eoln,
    mode: FileMode,
    fileTime: FileTime,
    pathOk: bool,
    path: string)

  /** A zero-filled `EDITINFO`, as `calloc` returns it. */
  const ZERO_EDIT_INFO: EditInfo := EditInfo(Utf8, Lf, Normal, FileTime(0, 0), false, "")

  /** `STRING_UNTITLED`, the name `SetFileName` stores for a missing name. */
  const UNTITLED: string := "Untitled"

  /** `STROK(s)`: a non-null pointer to a non-empty string. */
  predicate StrOk(s: Option<string>)
  {
    s.Some? && s.value != ""
  }

  /** `STRNOT(s)`: a null pointer or an empty string. */
  predicate StrNot(s: Option<string>)
  {
    s.None? || s.value == ""
  }
}

=== FILE: search.dfy ===
/**
 * Notepad's Find / Replace: the match test at one position (`FindTextAt`)
 * and one step of "Find Next" / "Replace" (`Search_FindNext`), which may
 * replace the selected match and then scans down from the selection's end
 * or up from its start.
 *
 * The edit control's text is a sequence of WCHAR units and never holds a
 * NUL, and the target is a C string, so `_tcsncmp(p, target, n)` with
 * `n = |target|` is zero exactly when the `n` units at `p` exist and equal
 * the target.  `_tcsnicmp` compares with A-Z folded (the "C" locale), and
 * `_istalnum` is a parameter of the model.
 */
module Search {
  import opened Win32

  /** The FINDREPLACE flags that steer a search: FR_MATCHCASE, FR_WHOLEWORD, FR_DOWN. */
  datatype Flags = Flags(matchCase: bool, wholeWord: bool, down: bool)

  /** The edit control's selection, `EM_GETSEL` / `EM_SETSEL`. */
  datatype Selection = Selection(begin: int, end: int)

  predicate ValidSelection(text: Text, s: Selection)
  {
    0 <= s.begin <= s.end <= |text|
  }

  const UNDERSCORE: uint16 := 0x5F

  /** A unit that continues a word: `_istalnum(c) || c == L'_'`. */
  predicate IsWordUnit(isAlnum: uint16 -> bool, c: uint16)
  {
    isAlnum(c) || c == UNDERSCORE
  }

  /** The units with A-Z folded to lower case. */
  function FoldUnits(t: Text): (r: seq<int>)
    ensures |r| == |t|
    ensures forall i :: 0 <= i < |t| ==> r[i] == LowerAscii(t[i] as int)
  {
    seq(|t|, i requires 0 <= i < |t| => LowerAscii(t[i] as int))
  }

  /** `_tcsncmp` (match case) or `_tcsnicmp` (ignore case) reporting equality. */
  predicate SameUnits(matchCase: bool, a: Text, b: Text)
  {
    if matchCase then a == b else FoldUnits(a) == FoldUnits(b)
  }

  /**
   * `FindTextAt`: the target occurs at `pos` (under the case rule), and in
   * whole-word mode neither the unit before it nor the unit after it
   * continues a word.  An empty text never matches: the C code has no
   * buffer to look at then.
   */
  predicate FindTextAt(isAlnum: uint16 -> bool, flags: Flags, text: Text, target: Text, pos: int)
    requires 0 <= pos <= |text|
  {
    && |text| > 0
    && pos + |target| <= |text|
    && SameUnits(flags.matchCase, text[pos..pos + |target|], target)
    && (flags.wholeWord ==>
          && !(pos > 0 && IsWordUnit(isAlnum, text[pos - 1]))
          && !(pos + |target| < |text| && IsWordUnit(isAlnum, text[pos + |target|])))
  }

  /** No match starts in `[lo, hi)`. */
  predicate NoMatchIn(isAlnum: uint16 -> bool, flags: Flags, text: Text, target: Text, lo: int, hi: int)
    requires 0 <= lo && hi <= |text|
  {
    forall q :: lo <= q < hi ==> !FindTextAt(isAlnum, flags, text, target, q)
  }

  // ---------------------------------------------------------------------
  // Matching at one position

  /** A case-sensitive match is also a case-insensitive one. */
  lemma MatchCaseRefines(isAlnum: uint16 -> bool, flags: Flags, text: Text, target: Text, pos: int)
    requires 0 <= pos <= |text|
    requires FindTextAt(isAlnum, flags.(matchCase := true), text, target, pos)
    ensures FindTextAt(isAlnum, flags.(matchCase := false), text, target, pos)
  {
  }

  /** A whole-word match is also a plain match. */
  lemma WholeWordRefines(isAlnum: uint16 -> bool, flags: Flags, text: Text, target: Text, pos: int)
    requires 0 <= pos <= |text|
    requires FindTextAt(isAlnum, flags.(wholeWord := true), text, target, pos)
    ensures FindTextAt(isAlnum, flags.(wholeWord := false), text, target, pos)
  {
  }

  /** No unit of `t` is an ASCII letter. */
  predicate NoAsciiLetters(t: Text)
  {
    forall i :: 0 <= i < |t| ==> !('A' as uint16 <= t[i] <= 'Z' as uint16) && !('a' as uint16 <= t[i] <= 'z' as uint16)
  }

  /** For a target without ASCII letters the case rule makes no difference. */
  lemma IgnoreCaseWithoutLetters(isAlnum: uint16 -> bool, flags: Flags, text: Text, target: Text, pos: int)
    requires 0 <= pos <= |text|
    requires NoAsciiLetters(target)
    ensures FindTextAt(isAlnum, flags.(matchCase := true), text, target, pos)
        <==> FindTextAt(isAlnum, flags.(matchCase := false), text, target, pos)
  {
    if pos + |target| <= |text| {
      var a := text[pos..pos + |target|];
      if FoldUnits(a) == FoldUnits(target) {
        forall i | 0 <= i < |a|
          ensures a[i] == target[i]
        {
          assert FoldUnits(a)[i] == FoldUnits(target)[i];
        }
      }
    }
  }

  /** The empty target matches at every position of a non-empty text outside whole-word mode. */
  lemma EmptyTargetMatches(isAlnum: uint16 -> bool, flags: Flags, text: Text, pos: int)
    requires 0 <= pos <= |text| && |text| > 0 && !flags.wholeWord
    ensures FindTextAt(isAlnum, flags, text, [], pos)
  {
    assert text[pos..pos] == [];
  }

  // ---------------------------------------------------------------------
  // The scans

  /** The first match at or after `p`: the reference for the find-down loop. */
  function FirstMatchFrom(isAlnum: uint16 -> bool, flags: Flags, text: Text, target: Text, p: int): (r: Option<int>)
    requires 0 <= p <= |text|
    ensures r.Some? ==> (p <= r.value < |text| && FindTextAt(isAlnum, flags, text, target, r.value)
      && NoMatchIn(isAlnum, flags, text, target, p, r.value))
    ensures r.None? ==> NoMatchIn(isAlnum, flags, text, target, p, |text|)
    decreases |text| - p
  {
    if p == |text| then None
    else if FindTextAt(isAlnum, flags, text, target, p) then Some(p)
    else FirstMatchFrom(isAlnum, flags, text, target, p + 1)
  }

  /** The last match before `p`: the reference for the find-up loop. */
  function LastMatchBelow(isAlnum: uint16 -> bool, flags: Flags, text: Text, target: Text, p: int): (r: Option<int>)
    requires 0 <= p <= |text|
    ensures r.Some? ==> (0 <= r.value < p && FindTextAt(isAlnum, flags, text, target, r.value)
      && NoMatchIn(isAlnum, flags, text, target, r.value + 1, p))
    ensures r.None? ==> NoMatchIn(isAlnum, flags, text, target, 0, p)
    decreases p
  {
    if p == 0 then None
    else if FindTextAt(isAlnum, flags, text, target, p - 1) then Some(p - 1)
    else LastMatchBelow(isAlnum, flags, text, target, p - 1)
  }

  /** The find-down loop: test each position from `from` up to the text length. */
  method FindDown(isAlnum: uint16 -> bool, flags: Flags, text: Text, target: Text, from: int) returns (found: Option<int>)
    requires 0 <= from <= |text|
    ensures found.Some? ==> (from <= found.value < |text| && FindTextAt(isAlnum, flags, text, target, found.value)
      && NoMatchIn(isAlnum, flags, text, target, from, found.value))
    ensures found.None? ==> NoMatchIn(isAlnum, flags, text, target, from, |text|)
    ensures found == FirstMatchFrom(isAlnum, flags, text, target, from)
  {
    var position := from;
    while position < |text|
      invariant from <= position <= |text|
      invariant NoMatchIn(isAlnum, flags, text, target, from, position)
      invariant FirstMatchFrom(isAlnum, flags, text, target, from) == FirstMatchFrom(isAlnum, flags, text, target, position)
    {
      if FindTextAt(isAlnum, flags, text, target, position) {
        return Some(position);
      }
      position := position + 1;
    }
    return None;
  }

  /** The find-up loop: step back from `from` and test, down to position 0. */
  method FindUp(isAlnum: uint16 -> bool, flags: Flags, text: Text, target: Text, from: int) returns (found: Option<int>)
    requires 0 <= from <= |text|
    ensures found.Some? ==> (0 <= found.value < from && FindTextAt(isAlnum, flags, text, target, found.value)
      && NoMatchIn(isAlnum, flags, text, target, found.value + 1, from))
    ensures found.None? ==> NoMatchIn(isAlnum, flags, text, target, 0, from)
    ensures found == LastMatchBelow(isAlnum, flags, text, target, from)
  {
    var position := from;
    while position > 0
      invariant 0 <= position <= from
      invariant NoMatchIn(isAlnum, flags, text, target, position, from)
      invariant LastMatchBelow(isAlnum, flags, text, target, from) == LastMatchBelow(isAlnum, flags, text, target, position)
    {
      position := position - 1;
      if FindTextAt(isAlnum, flags, text, target, position) {
        return Some(position);
      }
    }
    return None;
  }

  // ---------------------------------------------------------------------
  // One Find Next / Replace step

  /**
   * The result of one step: the text after an optional replacement, the
   * new selection, and the match position in the text that was scanned.
   */
  datatype Outcome = Outcome(text: Text, sel: Selection, at: Option<int>)

  /** The Replace branch fires: the selection has the target's length and matches. */
  predicate ReplacesSelection(isAlnum: uint16 -> bool, flags: Flags, text: Text, sel: Selection, target: Text, replace: bool)
    requires ValidSelection(text, sel)
  {
    replace && sel.end - sel.begin == |target| && FindTextAt(isAlnum, flags, text, target, sel.begin)
  }

  /** `EM_REPLACESEL`: the selection's units give way to the replacement. */
  function Splice(text: Text, sel: Selection, replacement: Text): (r: Text)
    requires ValidSelection(text, sel)
    ensures |r| == |text| - (sel.end - sel.begin) + |replacement|
    ensures r[..sel.begin] == text[..sel.begin]
    ensures r[sel.begin..sel.begin + |replacement|] == replacement
    ensures r[sel.begin + |replacement|..] == text[sel.end..]
  {
    var r := text[..sel.begin] + replacement + text[sel.end..];
    assert r[sel.begin..sel.begin + |replacement|] == replacement;
    assert r[sel.begin + |replacement|..] == text[sel.end..];
    r
  }

  /** Where the caret rests when nothing is found. */
  function CaretAfter(sel: Selection, replaced: bool, replacement: Text): Selection
  {
    if replaced then Selection(sel.begin + |replacement|, sel.begin + |replacement|) else sel
  }

  /** `if (dwPosition > dwBegin) dwPosition += (DWORD) iAdjustment`, where the sum cannot wrap. */
  function DwordShift(q: int, begin: int, adjustment: int): (p: int)
    requires 0 <= q < DWORD_RANGE
    requires q > begin ==> 0 <= q + adjustment < DWORD_RANGE
    ensures q > begin ==> p == q + adjustment
    ensures q <= begin ==> p == q
  {
    if q > begin then ToDwordInRange(q + adjustment); ToDword(q + adjustment) else q
  }

  /** `EM_SETSEL` on a match at `q`, shifted as a DWORD when past `begin`: the sums cannot wrap. */
  function MatchSelection(q: int, begin: int, adjustment: int, len: nat): (s: Selection)
    requires 0 <= q && q + len <= INT_MAX
    requires q > begin ==> 0 <= q + adjustment && q + adjustment + len < DWORD_RANGE
    ensures var p := if q > begin then q + adjustment else q;
      s == Selection(p, p + len)
  {
    var p := DwordShift(q, begin, adjustment);
    ToDwordInRange(p + len);
    Selection(p, ToDword(p + len))
  }

  /**
   * `Search_FindNext` as written, up to the "cannot find" message box:
   * the scan runs over the text fetched BEFORE the replacement, and a match
   * past the old selection's start is moved by the length change, added as
   * a DWORD.
   */
  function FindNextAsWritten(isAlnum: uint16 -> bool, flags: Flags, text: Text, sel: Selection,
                             target: Text, replacement: Text, replace: bool): (r: Outcome)
    requires ValidSelection(text, sel)
    requires |text| <= INT_MAX && |replacement| <= INT_MAX
    ensures var replaced := ReplacesSelection(isAlnum, flags, text, sel, target, replace);
      && r.text == (if replaced then Splice(text, sel, replacement) else text)
      && (r.at.Some? ==>
            var p := if r.at.value > sel.begin then r.at.value + (|r.text| - |text|) else r.at.value;
            r.sel == Selection(p, p + |target|))
      && (r.at.None? ==> r.sel == CaretAfter(sel, replaced, replacement))
  {
    var replaced := ReplacesSelection(isAlnum, flags, text, sel, target, replace);
    var newText := if replaced then Splice(text, sel, replacement) else text;
    var adjustment := if replaced then |replacement| - (sel.end - sel.begin) else 0;
    var at := if flags.down then FirstMatchFrom(isAlnum, flags, text, target, sel.end)
              else LastMatchBelow(isAlnum, flags, text, target, sel.begin);
    match at
    case None => Outcome(newText, CaretAfter(sel, replaced, replacement), None)
    case Some(q) =>
      assert adjustment == |newText| - |text|;
      assert q + |target| <= |text|;
      assert q > sel.begin ==> 0 <= q + adjustment && q + adjustment + |target| <= |text| + |replacement|;
      Outcome(newText, MatchSelection(q, sel.begin, adjustment, |target|), at)
  }

  /**
   * The as-written step scans the text as it was before the replacement:
   * down, the first match from the selection's end; up, the last match
   * before the selection's start.
   */
  lemma FindNextAsWrittenScansOldText(isAlnum: uint16 -> bool, flags: Flags, text: Text, sel: Selection,
                                      target: Text, replacement: Text, replace: bool)
    requires ValidSelection(text, sel)
    requires |text| <= INT_MAX && |replacement| <= INT_MAX
    ensures var r := FindNextAsWritten(isAlnum, flags, text, sel, target, replacement, replace);
      && (flags.down ==>
            && (r.at.Some? ==> (sel.end <= r.at.value < |text| && FindTextAt(isAlnum, flags, text, target, r.at.value)
                  && NoMatchIn(isAlnum, flags, text, target, sel.end, r.at.value)))
            && (r.at.None? ==> NoMatchIn(isAlnum, flags, text, target, sel.end, |text|)))
      && (!flags.down ==>
            && (r.at.Some? ==> (0 <= r.at.value < sel.begin && FindTextAt(isAlnum, flags, text, target, r.at.value)
                  && NoMatchIn(isAlnum, flags, text, target, r.at.value + 1, sel.begin)))
            && (r.at.None? ==> NoMatchIn(isAlnum, flags, text, target, 0, sel.begin)))
  {
  }

  /** A step's final state and its `bSuccess`. */
  datatype Reply = Reply(outcome: Outcome, success: bool)

  /** The edit control can hold the text the step leaves behind: its length is an `int`. */
  predicate StepFits(isAlnum: uint16 -> bool, flags: Flags, text: Text, sel: Selection, target: Text, replacement: Text, replace: bool)
    requires ValidSelection(text, sel)
  {
    && |text| <= INT_MAX && |replacement| <= INT_MAX
    && (ReplacesSelection(isAlnum, flags, text, sel, target, replace) ==> |text| - (sel.end - sel.begin) + |replacement| <= INT_MAX)
  }

  /**
   * `Search_FindNext` as written, with the "cannot find" message box.  When
   * nothing is found and `alert` is set, the box asks Retry / Cancel; the
   * user's answers are `retries`, one per box shown, `true` for Retry, and
   * the box is cancelled once they run out.  On Retry a downward search
   * puts the caret at 0 and searches down again (`DIALOG_SearchNext(TRUE)`,
   * no replace, with the alert); an upward one puts the caret at the end
   * and searches up again, but only when `others` (`Flags & ~FR_DOWN` is
   * non-zero).  The step reports success only when its own scan found the
   * target, whatever the retried search finds.
   */
  function FindNextAlertAsWritten(isAlnum: uint16 -> bool, flags: Flags, others: bool, text: Text, sel: Selection,
                                  target: Text, replacement: Text, replace: bool, alert: bool, retries: seq<bool>): (r: Reply)
    requires ValidSelection(text, sel)
    requires StepFits(isAlnum, flags, text, sel, target, replacement, replace)
    ensures var o := FindNextAsWritten(isAlnum, flags, text, sel, target, replacement, replace);
      && (r.success <==> o.at.Some?)
      && r.outcome.text == o.text
      && (o.at.Some? || !alert || retries == [] || !retries[0] || (!flags.down && !others) ==> r.outcome == o)
    decreases |retries|
  {
    var o := FindNextAsWritten(isAlnum, flags, text, sel, target, replacement, replace);
    if o.at.Some? then Reply(o, true)
    else if !alert || retries == [] || !retries[0] then Reply(o, false)
    else if flags.down then
      var again := FindNextAlertAsWritten(isAlnum, flags, others, o.text, Selection(0, 0), target, [], false, true, retries[1..]);
      Reply(again.outcome, false)
    else if others then
      var last := |o.text|;
      var again := FindNextAlertAsWritten(isAlnum, flags, others, o.text, Selection(last, last), target, [], false, true, retries[1..]);
      Reply(again.outcome, false)
    else Reply(o, false)
  }

  /**
   * Retry on a downward search wraps to the top: however often the user
   * retries, the step ends selecting the first match in the whole text, or
   * with the caret at 0 when there is none.
   */
  lemma {:induction false} RetryDownWraps(isAlnum: uint16 -> bool, flags: Flags, others: bool, text: Text, sel: Selection,
                                          target: Text, replacement: Text, replace: bool, retries: seq<bool>)
    requires ValidSelection(text, sel)
    requires StepFits(isAlnum, flags, text, sel, target, replacement, replace)
    requires flags.down && retries != [] && retries[0]
    requires FindNextAsWritten(isAlnum, flags, text, sel, target, replacement, replace).at.None?
    ensures var t := FindNextAsWritten(isAlnum, flags, text, sel, target, replacement, replace).text;
      var r := FindNextAlertAsWritten(isAlnum, flags, others, text, sel, target, replacement, replace, true, retries);
      && !r.success
      && r.outcome.at == FirstMatchFrom(isAlnum, flags, t, target, 0)
      && r.outcome.sel == (match r.outcome.at case Some(p) => Selection(p, p + |target|) case None => Selection(0, 0))
  {
    var t := FindNextAsWritten(isAlnum, flags, text, sel, target, replacement, replace).text;
    RetryFrom(isAlnum, flags, others, t, Selection(0, 0), target, retries[1..]);
  }

  /**
   * Retry on an upward search with other flags set wraps to the bottom:
   * the step ends selecting the last match in the whole text, or with the
   * caret at the end when there is none.
   */
  lemma {:induction false} RetryUpWraps(isAlnum: uint16 -> bool, flags: Flags, text: Text, sel: Selection,
                                        target: Text, replacement: Text, replace: bool, retries: seq<bool>)
    requires ValidSelection(text, sel)
    requires StepFits(isAlnum, flags, text, sel, target, replacement, replace)
    requires !flags.down && retries != [] && retries[0]
    requires FindNextAsWritten(isAlnum, flags, text, sel, target, replacement, replace).at.None?
    ensures var t := FindNextAsWritten(isAlnum, flags, text, sel, target, replacement, replace).text;
      var r := FindNextAlertAsWritten(isAlnum, flags, true, text, sel, target, replacement, replace, true, retries);
      && !r.success
      && r.outcome.at == LastMatchBelow(isAlnum, flags, t, target, |t|)
      && r.outcome.sel == (match r.outcome.at case Some(p) => Selection(p, p + |target|) case None => Selection(|t|, |t|))
  {
    var t := FindNextAsWritten(isAlnum, flags, text, sel, target, replacement, replace).text;
    RetryFrom(isAlnum, flags, true, t, Selection(|t|, |t|), target, retries[1..]);
  }

  /**
   * The retried search, from the caret at the wrap point: it finds what a
   * whole-text scan finds, and when that is nothing, every further retry
   * starts over from the same caret and finds nothing again.
   */
  lemma {:induction false} RetryFrom(isAlnum: uint16 -> bool, flags: Flags, others: bool, t: Text, caret: Selection,
                                     target: Text, retries: seq<bool>)
    requires |t| <= INT_MAX
    requires caret == (if flags.down then Selection(0, 0) else Selection(|t|, |t|))
    requires flags.down || others
    ensures var r := FindNextAlertAsWritten(isAlnum, flags, others, t, caret, target, [], false, true, retries);
      var whole := if flags.down then FirstMatchFrom(isAlnum, flags, t, target, 0) else LastMatchBelow(isAlnum, flags, t, target, |t|);
      && r.outcome.text == t
      && r.outcome.at == whole
      && r.outcome.sel == (match whole case Some(p) => Selection(p, p + |target|) case None => caret)
    decreases |retries|
  {
    var o := FindNextAsWritten(isAlnum, flags, t, caret, target, [], false);
    assert !ReplacesSelection(isAlnum, flags, t, caret, target, false);
    if o.at.None? && retries != [] && retries[0] {
      RetryFrom(isAlnum, flags, others, t, caret, target, retries[1..]);
    }
  }

  /**
   * `Search_FindNext` with the scan over the text as it stands after the
   * replacement: down from the end of the inserted text, or up from its
   * start.
   */
  function FindNext(isAlnum: uint16 -> bool, flags: Flags, text: Text, sel: Selection,
                    target: Text, replacement: Text, replace: bool): (r: Outcome)
    requires ValidSelection(text, sel)
    ensures var replaced := ReplacesSelection(isAlnum, flags, text, sel, target, replace);
      && r.text == (if replaced then Splice(text, sel, replacement) else text)
      && (r.at.Some? ==> r.sel == Selection(r.at.value, r.at.value + |target|))
      && (r.at.None? ==> r.sel == CaretAfter(sel, replaced, replacement))
  {
    var replaced := ReplacesSelection(isAlnum, flags, text, sel, target, replace);
    var newText := if replaced then Splice(text, sel, replacement) else text;
    var from := if replaced then Selection(sel.begin, sel.begin + |replacement|) else sel;
    var at := if flags.down then FirstMatchFrom(isAlnum, flags, newText, target, from.end)
              else LastMatchBelow(isAlnum, flags, newText, target, from.begin);
    match at
    case None => Outcome(newText, CaretAfter(sel, replaced, replacement), None)
    case Some(p) => Outcome(newText, Selection(p, p + |target|), at)
  }

  /** After the corrected step, a found selection always holds a match in the current text. */
  lemma FindNextSelectsMatch(isAlnum: uint16 -> bool, flags: Flags, text: Text, sel: Selection,
                             target: Text, replacement: Text, replace: bool)
    requires ValidSelection(text, sel)
    ensures var r := FindNext(isAlnum, flags, text, sel, target, replacement, replace);
      r.at.Some? ==> 0 <= r.sel.begin <= |r.text| && FindTextAt(isAlnum, flags, r.text, target, r.sel.begin)
  {
  }

  /** Without a replacement the two steps are the same. */
  lemma FindNextAgreesWithoutReplace(isAlnum: uint16 -> bool, flags: Flags, text: Text, sel: Selection,
                                     target: Text, replacement: Text, replace: bool)
    requires ValidSelection(text, sel)
    requires |text| <= INT_MAX && |replacement| <= INT_MAX
    requires !ReplacesSelection(isAlnum, flags, text, sel, target, replace)
    ensures FindNextAsWritten(isAlnum, flags, text, sel, target, replacement, replace)
         == FindNext(isAlnum, flags, text, sel, target, replacement, replace)
  {
  }

  /**
   * Replace, searching up: in "aaa" with "aa" selected at 1..3 and replaced
   * by "b", the scan of the old text finds "aa" at 0 and selects 0..2 of
   * the new text "ab", which does not hold the target.
   */
  lemma FindUpAfterReplaceSelectsStale()
    ensures var a, b := 0x61 as uint16, 0x62 as uint16;
      var flags := Flags(true, false, false);
      var r := FindNextAsWritten(_ => false, flags, [a, a, a], Selection(1, 3), [a, a], [b], true);
      && r.text == [a, b]
      && r.sel == Selection(0, 2)
      && !FindTextAt(_ => false, flags, r.text, [a, a], r.sel.begin)
  {
    var a, b := 0x61 as uint16, 0x62 as uint16;
    var flags := Flags(true, false, false);
    var text: Text := [a, a, a];
    assert text[1..3] == [a, a];
    assert FindTextAt(_ => false, flags, text, [a, a], 1);
    assert text[0..2] == [a, a];
    assert FindTextAt(_ => false, flags, text, [a, a], 0);
    assert LastMatchBelow(_ => false, flags, text, [a, a], 1) == Some(0);
    var r := FindNextAsWritten(_ => false, flags, text, Selection(1, 3), [a, a], [b], true);
    assert r.text == [a, b];
    assert r.text[0..2] == [a, b];
  }
}

=== FILE: settings.dfy ===
/**
 * Notepad's settings store (`notepad/settings.c`): the startup defaults,
 * the integer keys written to and read back from the INI profile or the
 * registry, the font height kept as a point size in tenths of a point, and
 * the window rectangle kept as position plus extent.
 *
 * A store is a map from key to the number it holds (a missing key is a key
 * the program finds absent).  The settings are a map from field to value;
 * the fields are the LOGFONT members, the two BOOL flags, the margins, the
 * window position, and the three DWORD statics `dwPointSize`, `dx`, `dy`.
 */
module Settings {
  import opened Win32

  datatype IntField =
    | CharSet | ClipPrecision | Escapement | Italic | Orientation | OutPrecision
    | PitchAndFamily | Quality | StrikeOut | Underline | Weight
    | PointSize | Wrap | StatusBar
    | MarginLeft | MarginTop | MarginRight | MarginBottom
    | PosX | PosY | Width | Height

  /** The stored names, one per field; `KeyName` gives the text used in both stores. */
  datatype IntKey =
    | LfCharSet | LfClipPrecision | LfEscapement | LfItalic | LfOrientation | LfOutPrecision
    | LfPitchAndFamily | LfQuality | LfStrikeOut | LfUnderline | LfWeight
    | IPointSize | FWrap | FStatusBar
    | IMarginLeft | IMarginTop | IMarginRight | IMarginBottom
    | IWindowPosX | IWindowPosY | IWindowPosDX | IWindowPosDY

  function KeyName(k: IntKey): string
  {
    match k
    case LfCharSet => "lfCharSet"
    case LfClipPrecision => "lfClipPrecision"
    case LfEscapement => "lfEscapement"
    case LfItalic => "lfItalic"
    case LfOrientation => "lfOrientation"
    case LfOutPrecision => "lfOutPrecision"
    case LfPitchAndFamily => "lfPitchAndFamily"
    case LfQuality => "lfQuality"
    case LfStrikeOut => "lfStrikeOut"
    case LfUnderline => "lfUnderline"
    case LfWeight => "lfWeight"
    case IPointSize => "iPointSize"
    case FWrap => "fWrap"
    case FStatusBar => "fStatusBar"
    case IMarginLeft => "iMarginLeft"
    case IMarginTop => "iMarginTop"
    case IMarginRight => "iMarginRight"
    case IMarginBottom => "iMarginBottom"
    case IWindowPosX => "iWindowPosX"
    case IWindowPosY => "iWindowPosY"
    case IWindowPosDX => "iWindowPosDX"
    case IWindowPosDY => "iWindowPosDY"
  }

  /** The field each key is written from; both stores use the same names. */
  function SavedFrom(k: IntKey): IntField
  {
    match k
    case LfCharSet => CharSet
    case LfClipPrecision => ClipPrecision
    case LfEscapement => Escapement
    case LfItalic => Italic
    case LfOrientation => Orientation
    case LfOutPrecision => OutPrecision
    case LfPitchAndFamily => PitchAndFamily
    case LfQuality => Quality
    case LfStrikeOut => StrikeOut
    case LfUnderline => Underline
    case LfWeight => Weight
    case IPointSize => PointSize
    case FWrap => Wrap
    case FStatusBar => StatusBar
    case IMarginLeft => MarginLeft
    case IMarginTop => MarginTop
    case IMarginRight => MarginRight
    case IMarginBottom => MarginBottom
    case IWindowPosX => PosX
    case IWindowPosY => PosY
    case IWindowPosDX => Width
    case IWindowPosDY => Height
  }

  /** The key a field is written under. */
  function KeyOf(f: IntField): (k: IntKey)
    ensures SavedFrom(k) == f
  {
    match f
    case CharSet => LfCharSet
    case ClipPrecision => LfClipPrecision
    case Escapement => LfEscapement
    case Italic => LfItalic
    case Orientation => LfOrientation
    case OutPrecision => LfOutPrecision
    case PitchAndFamily => LfPitchAndFamily
    case Quality => LfQuality
    case StrikeOut => LfStrikeOut
    case Underline => LfUnderline
    case Weight => LfWeight
    case PointSize => IPointSize
    case Wrap => FWrap
    case StatusBar => FStatusBar
    case MarginLeft => IMarginLeft
    case MarginTop => IMarginTop
    case MarginRight => IMarginRight
    case MarginBottom => IMarginBottom
    case PosX => IWindowPosX
    case PosY => IWindowPosY
    case Width => IWindowPosDX
    case Height => IWindowPosDY
  }

  /** Every key is written from exactly one field: the naming is a bijection. */
  lemma KeyOfSavedFrom(k: IntKey)
    ensures KeyOf(SavedFrom(k)) == k
  {
  }

  // ---------------------------------------------------------------------
  // Field types

  /** The C type of each field: BYTE (LOGFONT), LONG or BOOL (int), DWORD (the statics). */
  datatype Kind = ByteField | LongField | BoolField | DwordField

  function KindOf(f: IntField): Kind
  {
    match f
    case CharSet | ClipPrecision | Italic | OutPrecision | PitchAndFamily | Quality
      | StrikeOut | Underline => ByteField
    case Wrap | StatusBar => BoolField
    case PointSize | Width | Height => DwordField
    case _ => LongField
  }

  /** The values a field of that type can hold. */
  predicate Representable(f: IntField, v: int)
  {
    match KindOf(f)
    case ByteField => 0 <= v < 0x100
    case DwordField => 0 <= v < DWORD_RANGE
    case _ => INT_MIN <= v <= INT_MAX
  }

  /** The field after assigning it a 32-bit result: truncated to a BYTE, reinterpreted as signed, or kept. */
  function Store(f: IntField, raw: int): (v: int)
    ensures Representable(f, v)
    ensures Representable(f, raw) && KindOf(f) != ByteField ==> v == raw
    ensures KindOf(f) == ByteField && 0 <= raw < 0x100 ==> v == raw
  {
    match KindOf(f)
    case ByteField => ToDword(raw) % 0x100
    case DwordField => ToDword(raw)
    case _ => DwordAsInt(ToDword(raw))
  }

  /** All fields present, each within its type; what a running Notepad holds. */
  predicate Wellformed(s: map<IntField, int>)
  {
    forall f :: f in s && Representable(f, s[f])
  }

  // ---------------------------------------------------------------------
  // Defaults

  const DEFAULT_CHARSET: int := 1
  const FIXED_PITCH: int := 1
  const FF_MODERN: int := 0x30
  const FW_NORMAL: int := 400
  const CW_USEDEFAULT: int := INT_MIN

  /**
   * The values set before any store is read: the status bar on, wrapping
   * off, the default margins and font, 10 point, and a window of a third of
   * the screen width (at most 700) by three quarters of its height (at most
   * 1000) at the system's default position.
   */
  function Defaults(cxScreen: int, cyScreen: int): (s: map<IntField, int>)
    requires 0 <= cxScreen < DWORD_RANGE && 0 <= cyScreen < DWORD_RANGE
    ensures Wellformed(s)
    ensures s[Width] <= 700 && s[Width] <= cxScreen / 3
    ensures s[Width] == 700 || s[Width] == cxScreen / 3
    ensures s[Height] <= 1000
    ensures 3 * cyScreen < DWORD_RANGE ==>
      s[Height] <= 3 * cyScreen / 4 && (s[Height] == 1000 || s[Height] == 3 * cyScreen / 4)
    ensures s[PointSize] == 100 && s[Wrap] == 0 && s[StatusBar] == 1
    ensures s[MarginLeft] == 750 && s[MarginTop] == 1000 && s[MarginRight] == 750 && s[MarginBottom] == 1000
    ensures s[CharSet] == DEFAULT_CHARSET && s[Weight] == FW_NORMAL
    ensures s[PitchAndFamily] == FIXED_PITCH + FF_MODERN
    ensures s[ClipPrecision] == 0 && s[Escapement] == 0 && s[Italic] == 0 && s[Orientation] == 0
    ensures s[OutPrecision] == 0 && s[Quality] == 0 && s[StrikeOut] == 0 && s[Underline] == 0
    ensures s[PosX] == CW_USEDEFAULT && s[PosY] == CW_USEDEFAULT
  {
    var (dx, dy) := DefaultExtents(cxScreen, cyScreen);
    DefaultsWellformed(dx, dy);
    DefaultFont(dx, dy);
    DefaultPage(dx, dy);
    DefaultWindow(dx, dy);
    DefaultMap(dx, dy)
  }

  lemma DefaultFont(dx: int, dy: int)
    ensures var s := DefaultMap(dx, dy);
      && s[CharSet] == DEFAULT_CHARSET && s[Weight] == FW_NORMAL
      && s[PitchAndFamily] == FIXED_PITCH + FF_MODERN
      && s[ClipPrecision] == 0 && s[Escapement] == 0 && s[Italic] == 0 && s[Orientation] == 0
      && s[OutPrecision] == 0 && s[Quality] == 0 && s[StrikeOut] == 0 && s[Underline] == 0
  {
  }

  lemma DefaultPage(dx: int, dy: int)
    ensures var s := DefaultMap(dx, dy);
      && s[PointSize] == 100 && s[Wrap] == 0 && s[StatusBar] == 1
      && s[MarginLeft] == 750 && s[MarginTop] == 1000 && s[MarginRight] == 750 && s[MarginBottom] == 1000
  {
  }

  lemma DefaultWindow(dx: int, dy: int)
    ensures var s := DefaultMap(dx, dy);
      s[PosX] == CW_USEDEFAULT && s[PosY] == CW_USEDEFAULT && s[Width] == dx && s[Height] == dy
  {
  }

  /** Every field at its default, with the window extents given. */
  function DefaultMap(dx: int, dy: int): (s: map<IntField, int>)
    ensures forall f :: f in s && s[f] == DefaultValue(f, dx, dy)
  {
    map f: IntField | true :: DefaultValue(f, dx, dy)
  }

  lemma DefaultsWellformed(dx: int, dy: int)
    requires 0 <= dx < DWORD_RANGE && 0 <= dy < DWORD_RANGE
    ensures Wellformed(DefaultMap(dx, dy))
  {
    var s := DefaultMap(dx, dy);
    forall f ensures f in s && Representable(f, s[f]) {
      DefaultRepresentable(f, dx, dy);
    }
  }

  /** `dx`, `dy` at startup, computed in DWORD arithmetic. */
  function DefaultExtents(cxScreen: int, cyScreen: int): (r: (int, int))
    requires 0 <= cxScreen < DWORD_RANGE && 0 <= cyScreen < DWORD_RANGE
    ensures 0 <= r.0 <= 700 && r.0 <= cxScreen / 3 && (r.0 == 700 || r.0 == cxScreen / 3)
    ensures 0 <= r.1 <= 1000
    ensures 3 * cyScreen < DWORD_RANGE ==>
      r.1 <= 3 * cyScreen / 4 && (r.1 == 1000 || r.1 == 3 * cyScreen / 4)
  {
    var third := ToDword(cxScreen * 1) / 3;
    var threeQuarters := ToDword(cyScreen * 3) / 4;
    (if third < 700 then third else 700, if threeQuarters < 1000 then threeQuarters else 1000)
  }

  function DefaultValue(f: IntField, dx: int, dy: int): int
  {
    match f
    case CharSet => DEFAULT_CHARSET
    case PitchAndFamily => FIXED_PITCH + FF_MODERN
    case Weight => FW_NORMAL
    case PointSize => 100
    case StatusBar => 1
    case MarginLeft | MarginRight => 750
    case MarginTop | MarginBottom => 1000
    case PosX | PosY => CW_USEDEFAULT
    case Width => dx
    case Height => dy
    case _ => 0
  }

  lemma DefaultRepresentable(f: IntField, dx: int, dy: int)
    requires 0 <= dx < DWORD_RANGE && 0 <= dy < DWORD_RANGE
    ensures Representable(f, DefaultValue(f, dx, dy))
  {
  }

  // ---------------------------------------------------------------------
  // Writing a store

  /** The number the INI text spells: flags as 0/1, the DWORD statics through `_itot_s`'s signed `int`. */
  function IniText(f: IntField, v: int): int
    requires Representable(f, v)
  {
    match KindOf(f)
    case BoolField => if v != 0 then 1 else 0
    case DwordField => DwordAsInt(v)
    case _ => v
  }

  /** The REG_DWORD written: flags as 0/1, everything else converted to DWORD. */
  function RegistryValue(f: IntField, v: int): int
  {
    ToDword(if KindOf(f) == BoolField && v != 0 then 1 else v)
  }

  /** `SaveSettingsFromProfile`: every key holds the text of the field it is named after. */
  function SaveIni(s: map<IntField, int>): (ini: map<IntKey, int>)
    requires Wellformed(s)
    ensures forall k :: k in ini && ini[k] == IniText(SavedFrom(k), s[SavedFrom(k)])
  {
    map k: IntKey | true :: IniText(SavedFrom(k), s[SavedFrom(k)])
  }

  /** `SaveAppSettings`' registry branch: every key holds the DWORD of the field it is named after. */
  function SaveRegistry(s: map<IntField, int>): (reg: map<IntKey, int>)
    requires Wellformed(s)
    ensures forall k :: k in reg && reg[k] == RegistryValue(SavedFrom(k), s[SavedFrom(k)])
  {
    map k: IntKey | true :: RegistryValue(SavedFrom(k), s[SavedFrom(k)])
  }

  // ---------------------------------------------------------------------
  // Reading a store

  /** A field is read from `key`, taking `fallback` when the store lacks it. */
  datatype Reading = Reading(key: IntKey, fallback: int)

  /** The field after its reading: the stored number, or the fallback, assigned to the field. */
  function Read(store: map<IntKey, int>, f: IntField, r: Reading): (v: int)
    ensures r.key in store ==> v == Store(f, store[r.key])
    ensures r.key !in store ==> v == Store(f, r.fallback)
  {
    Store(f, if r.key in store then store[r.key] else r.fallback)
  }

  /**
   * The fallbacks of `GetPrivateProfileInt` in `LoadSettingsFromProfile`:
   * the startup defaults except that a missing `fWrap` turns wrapping on,
   * and the extents fall back to the current `dx`, `dy`.
   */
  function IniFallback(f: IntField, s: map<IntField, int>): int
    requires Wellformed(s)
  {
    match f
    case Wrap => 1
    case PosX | PosY => 0
    case Width | Height => s[f]
    case _ => DefaultValue(f, 0, 0)
  }

  /** Each field read from the key it is saved under. */
  function IniReading(f: IntField, s: map<IntField, int>): Reading
    requires Wellformed(s)
  {
    Reading(KeyOf(f), IniFallback(f, s))
  }

  /**
   * The readings as the profile loader makes them: `lfUnderline` is read
   * into `lfStrikeOut` after `lfStrikeOut` itself, so that field ends with
   * the underline flag and `lfUnderline` is never read.
   */
  function IniReadingAsWritten(f: IntField, s: map<IntField, int>): Option<Reading>
    requires Wellformed(s)
  {
    if f == Underline then None
    else if f == StrikeOut then Some(Reading(LfUnderline, 0))
    else Some(IniReading(f, s))
  }

  /**
   * `LoadRegInt` takes the same defaults as the profile loader; the raw
   * `RegGetValueW` of the point size leaves `dwPointSize` as it was when
   * the value is missing.
   */
  function RegistryReading(f: IntField, s: map<IntField, int>): Reading
    requires Wellformed(s)
  {
    Reading(KeyOf(f), if f == PointSize then s[f] else IniFallback(f, s))
  }

  /** The registry readings as written: `dx` and `dy` are both read from `iPointSize`. */
  function RegistryReadingAsWritten(f: IntField, s: map<IntField, int>): Reading
    requires Wellformed(s)
  {
    if f == Width || f == Height then Reading(IPointSize, s[f]) else RegistryReading(f, s)
  }

  /** `LoadSettingsFromProfile` as written, from the values already set. */
  function LoadIniAsWritten(ini: map<IntKey, int>, s: map<IntField, int>): (r: map<IntField, int>)
    requires Wellformed(s)
    ensures Wellformed(r)
    ensures r[Underline] == s[Underline]
    ensures r[StrikeOut] == Read(ini, StrikeOut, Reading(LfUnderline, 0))
    ensures forall f :: f != Underline && f != StrikeOut ==> r[f] == Read(ini, f, IniReading(f, s))
  {
    map f: IntField | true :: match IniReadingAsWritten(f, s)
      case None => s[f]
      case Some(reading) => Read(ini, f, reading)
  }

  /** The profile loader with `lfUnderline` read into `lfUnderline`. */
  function LoadIni(ini: map<IntKey, int>, s: map<IntField, int>): (r: map<IntField, int>)
    requires Wellformed(s)
    ensures Wellformed(r)
    ensures forall f :: r[f] == Read(ini, f, IniReading(f, s))
  {
    map f: IntField | true :: Read(ini, f, IniReading(f, s))
  }

  /** The registry branch of `LoadAppSettings` as written; nothing is read when the key does not open. */
  function LoadRegistryAsWritten(reg: Option<map<IntKey, int>>, s: map<IntField, int>): (r: map<IntField, int>)
    requires Wellformed(s)
    ensures Wellformed(r)
    ensures reg.None? ==> r == s
    ensures reg.Some? ==> forall f :: r[f] == Read(reg.value, f, RegistryReadingAsWritten(f, s))
  {
    match reg
    case None => s
    case Some(values) => map f: IntField | true :: Read(values, f, RegistryReadingAsWritten(f, s))
  }

  /** The registry branch with the extents read from `iWindowPosDX` and `iWindowPosDY`. */
  function LoadRegistry(reg: Option<map<IntKey, int>>, s: map<IntField, int>): (r: map<IntField, int>)
    requires Wellformed(s)
    ensures Wellformed(r)
    ensures reg.None? ==> r == s
    ensures reg.Some? ==> forall f :: r[f] == Read(reg.value, f, RegistryReading(f, s))
  {
    match reg
    case None => s
    case Some(values) => map f: IntField | true :: Read(values, f, RegistryReading(f, s))
  }

  // ---------------------------------------------------------------------
  // Round trips

  /** A flag that holds 0 or 1, as the menu commands leave it. */
  predicate FlagsNormal(s: map<IntField, int>)
    requires Wellformed(s)
  {
    forall f :: KindOf(f) == BoolField ==> s[f] == 0 || s[f] == 1
  }

  /** A field's value written to either store and assigned back is unchanged. */
  lemma StoreWritten(f: IntField, v: int)
    requires Representable(f, v)
    requires KindOf(f) == BoolField ==> v == 0 || v == 1
    ensures Store(f, IniText(f, v)) == v
    ensures Store(f, RegistryValue(f, v)) == v
  {
  }

  /** Saving to the profile and loading it back restores every field. */
  lemma IniRoundTrip(s: map<IntField, int>, current: map<IntField, int>)
    requires Wellformed(s) && FlagsNormal(s) && Wellformed(current)
    ensures LoadIni(SaveIni(s), current) == s
  {
    var r := LoadIni(SaveIni(s), current);
    forall f ensures r[f] == s[f] {
      StoreWritten(f, s[f]);
    }
  }

  /**
   * As written, the profile load gives back the underline flag as the
   * strike-out flag and forgets the underline; every other field returns.
   */
  lemma IniUnderlineAsWritten(s: map<IntField, int>, current: map<IntField, int>)
    requires Wellformed(s) && FlagsNormal(s) && Wellformed(current)
    ensures var r := LoadIniAsWritten(SaveIni(s), current);
      && r[StrikeOut] == s[Underline]
      && r[Underline] == current[Underline]
      && forall f :: f != Underline && f != StrikeOut ==> r[f] == s[f]
  {
    var ini := SaveIni(s);
    var r := LoadIniAsWritten(ini, current);
    forall f | f != Underline && f != StrikeOut ensures r[f] == s[f] {
      IniFieldReturns(s, current, f);
    }
    assert r[StrikeOut] == Store(StrikeOut, ini[LfUnderline]);
  }

  /** One field other than the two flags, saved to the profile and loaded back as written. */
  lemma IniFieldReturns(s: map<IntField, int>, current: map<IntField, int>, f: IntField)
    requires Wellformed(s) && FlagsNormal(s) && Wellformed(current)
    requires f != Underline && f != StrikeOut
    ensures LoadIniAsWritten(SaveIni(s), current)[f] == s[f]
  {
    StoreWritten(f, s[f]);
  }

  /** An underlined, not struck-out font comes back struck out and not underlined. */
  lemma UnderlinedFontComesBackStruckOut(s: map<IntField, int>, current: map<IntField, int>)
    requires Wellformed(s) && FlagsNormal(s) && Wellformed(current)
    requires s[Underline] == 1 && s[StrikeOut] == 0 && current[Underline] == 0
    ensures var r := LoadIniAsWritten(SaveIni(s), current);
      r[StrikeOut] == 1 && r[Underline] == 0 && r != s
  {
    IniUnderlineAsWritten(s, current);
  }

  /** Saving to the registry and loading it back restores every field. */
  lemma RegistryRoundTrip(s: map<IntField, int>, current: map<IntField, int>)
    requires Wellformed(s) && FlagsNormal(s) && Wellformed(current)
    ensures LoadRegistry(Some(SaveRegistry(s)), current) == s
  {
    var r := LoadRegistry(Some(SaveRegistry(s)), current);
    forall f ensures r[f] == s[f] {
      StoreWritten(f, s[f]);
    }
  }

  /**
   * As written, the registry load makes the window as wide and as tall as
   * the point size: a 10-point font gives a 100 by 100 window.
   */
  lemma RegistryExtentsAsWritten(s: map<IntField, int>, current: map<IntField, int>)
    requires Wellformed(s) && FlagsNormal(s) && Wellformed(current)
    ensures var r := LoadRegistryAsWritten(Some(SaveRegistry(s)), current);
      && r[Width] == s[PointSize] && r[Height] == s[PointSize]
      && forall f :: f != Width && f != Height ==> r[f] == s[f]
  {
    var reg := SaveRegistry(s);
    var r := LoadRegistryAsWritten(Some(reg), current);
    forall f | f != Width && f != Height ensures r[f] == s[f] {
      RegistryFieldReturns(s, current, f);
    }
    RegistryExtentReadsPointSize(s, current, Width);
    RegistryExtentReadsPointSize(s, current, Height);
  }

  lemma RegistryExtentReadsPointSize(s: map<IntField, int>, current: map<IntField, int>, f: IntField)
    requires Wellformed(s) && Wellformed(current) && (f == Width || f == Height)
    ensures LoadRegistryAsWritten(Some(SaveRegistry(s)), current)[f] == s[PointSize]
  {
    var v := s[PointSize];
    ToDwordInRange(v);
    assert RegistryValue(PointSize, v) == v;
    var reg := SaveRegistry(s);
    assert reg[IPointSize] == v;
    assert Store(f, v) == v;
    assert LoadRegistryAsWritten(Some(reg), current)[f] == Read(reg, f, Reading(IPointSize, current[f]));
  }

  /** One field other than the extents, saved to the registry and loaded back as written. */
  lemma RegistryFieldReturns(s: map<IntField, int>, current: map<IntField, int>, f: IntField)
    requires Wellformed(s) && FlagsNormal(s) && Wellformed(current)
    requires f != Width && f != Height
    ensures LoadRegistryAsWritten(Some(SaveRegistry(s)), current)[f] == s[f]
  {
    StoreWritten(f, s[f]);
  }

  /** A store without `fWrap` turns wrapping on, although the startup default is off. */
  lemma MissingWrapTurnsWrapOn(ini: map<IntKey, int>, s: map<IntField, int>)
    requires Wellformed(s) && FWrap !in ini
    ensures LoadIni(ini, s)[Wrap] == 1 && LoadRegistry(Some(ini), s)[Wrap] == 1
  {
    assert Store(Wrap, 1) == 1;
  }

  // ---------------------------------------------------------------------
  // Point size and font height

  /**
   * Win32 `MulDiv`: `a * b / c` rounded to the nearest integer, halves away
   * from zero; -1 when `c` is 0 or the result does not fit an `int`.
   */
  function MulDiv(a: int, b: int, c: int): (r: int)
    ensures c == 0 ==> r == -1
    ensures INT_MIN <= r <= INT_MAX
  {
    if c == 0 then -1
    else
      var n := a * b;
      var q := (Abs(n) + Abs(c) / 2) / Abs(c);
      var signed := if (n < 0) != (c < 0) then -q else q;
      if INT_MIN <= signed <= INT_MAX then signed else -1
  }

  function Abs(x: int): nat { if x < 0 then -x else x }

  /** C `abs` on an `int`: the most negative value is its own absolute value. */
  function CAbs(x: int): (r: int)
    requires INT_MIN <= x <= INT_MAX
    ensures x != INT_MIN ==> r == Abs(x)
    ensures INT_MIN <= r <= INT_MAX
  {
    if x == INT_MIN then INT_MIN else Abs(x)
  }

  /** For the non-negative operands Notepad passes, `MulDiv` is the nearest integer to `a * b / c`. */
  lemma MulDivNearest(a: int, b: int, c: int)
    requires a >= 0 && b >= 0 && c > 0
    requires (a * b + c / 2) / c <= INT_MAX
    ensures var r := MulDiv(a, b, c);
      r >= 0 && c * r <= a * b + c / 2 < c * r + c
  {
  }

  /**
   * The save-time rounding of the point size to a multiple of ten, in
   * DWORD arithmetic: `p + 5`, its remainder by ten, that remainder less
   * five, and the subtraction all wrap modulo 2^32.
   */
  function RoundPointSize(p: int): (r: int)
    requires 0 <= p < DWORD_RANGE
    ensures 0 <= r < DWORD_RANGE
  {
    var remainder := ToDword(p + 5) % 10;
    ToDword(p - ToDword(remainder - 5))
  }

  /** Below the wrap, the rounding gives the multiple of ten nearest to `p`, halves going up. */
  lemma RoundPointSizeNearest(p: int)
    requires 0 <= p && p + 5 < DWORD_RANGE
    ensures var r := RoundPointSize(p);
      r % 10 == 0 && p - 5 < r <= p + 5
  {
    assert ToDword(p + 5) == p + 5;
    var remainder := (p + 5) % 10;
    var r := p + 5 - remainder;
    assert r % 10 == 0;
    if remainder >= 5 {
      assert ToDword(remainder - 5) == remainder - 5;
      assert RoundPointSize(p) == ToDword(r);
    } else {
      assert ToDword(remainder - 5) == remainder - 5 + DWORD_RANGE;
      assert RoundPointSize(p) == ToDword(r - DWORD_RANGE);
    }
  }

  /** The five values below 2^32, among them a `MulDiv` failure (-1), wrap round to 0. */
  lemma RoundPointSizeNearTop(p: int)
    requires DWORD_RANGE - 5 <= p < DWORD_RANGE
    ensures RoundPointSize(p) == 0
  {
    var remainder := p + 5 - DWORD_RANGE;
    assert ToDword(p + 5) == remainder && remainder % 10 == remainder;
    assert ToDword(remainder - 5) == remainder - 5 + DWORD_RANGE;
  }

  /** `LoadAppSettings`: the LOGFONT height for a point size in tenths, at `dpi` dots per inch. */
  function FontHeight(pointSize: int, dpi: int): (h: int)
    requires 0 <= pointSize < DWORD_RANGE
    ensures INT_MIN <= h <= INT_MAX
  {
    DwordAsInt(ToDword(-MulDiv(CAbs(DwordAsInt(pointSize)), dpi, 720)))
  }

  /** `SaveAppSettings`: the point size in tenths for a LOGFONT height, rounded to whole points. */
  function SavedPointSize(height: int, dpi: int): (p: int)
    requires INT_MIN <= height <= INT_MAX
    ensures 0 <= p < DWORD_RANGE && p % 10 == 0
  {
    var size := ToDword(MulDiv(CAbs(height), 720, dpi));
    if size + 5 < DWORD_RANGE then
      RoundPointSizeNearest(size);
      RoundPointSize(size)
    else
      RoundPointSizeNearTop(size);
      RoundPointSize(size)
  }

  /**
   * A whole point size survives the trip through the font height and back
   * at any resolution of 96 dpi or more: the two roundings of `MulDiv` stay
   * within four tenths, which the rounding to whole points removes.
   */
  lemma {:induction false} PointSizeRoundTrip(p: int, dpi: int)
    requires 0 <= p <= 100_000 && p % 10 == 0
    requires 96 <= dpi <= 4800
    ensures SavedPointSize(FontHeight(p, dpi), dpi) == p
  {
    var h := HeightOfWhole(p, dpi);
    var back := BackFromHeight(h, dpi);
    // 720 h lies within 360 of p dpi, and dpi back within dpi / 2 of 720 h.
    WithinFour(p, back, dpi, 720 * h - p * dpi, dpi * back - h * 720);
    RoundPointSizeNearest(back);
    SameTen(RoundPointSize(back), p);
  }

  /** The first rounding: the height's magnitude `h` has `720 h` within 360 of `p dpi`. */
  lemma HeightOfWhole(p: int, dpi: int) returns (h: int)
    requires 0 <= p <= 100_000 && 96 <= dpi <= 4800
    ensures FontHeight(p, dpi) == -h && 0 <= h <= 700_000
    ensures -360 < 720 * h - p * dpi <= 360
  {
    MulBounded(p, dpi);
    h := MulDiv(p, dpi, 720);
    MulDivNearest(p, dpi, 720);
    assert DwordAsInt(p) == p && CAbs(p) == p;
  }

  /** The second rounding: the saved size before rounding to whole points, `back`, has `dpi back` within `dpi / 2` of `720 h`. */
  lemma BackFromHeight(h: int, dpi: int) returns (back: int)
    requires 0 <= h <= 700_000 && 96 <= dpi <= 4800
    ensures 0 <= back && back + 5 < DWORD_RANGE
    ensures SavedPointSize(-h, dpi) == RoundPointSize(back)
    ensures -dpi + dpi / 2 < dpi * back - h * 720 <= dpi / 2
  {
    DivAtMost(h * 720 + dpi / 2, dpi);
    back := MulDiv(h, 720, dpi);
    MulDivNearest(h, 720, dpi);
    assert CAbs(-h) == h;
    assert ToDword(back) == back;
  }

  lemma SameTen(r: int, p: int)
    requires r % 10 == 0 && p % 10 == 0 && p - 10 < r < p + 10
    ensures r == p
  {
  }

  lemma MulBounded(p: int, dpi: int)
    requires 0 <= p <= 100_000 && 0 <= dpi <= 4800
    ensures 0 <= p * dpi <= 480_000_000
  {
    MulNonnegative(p, dpi);
    MulNonnegative(100_000 - p, dpi);
    MulNonnegative(100_000, 4800 - dpi);
  }

  lemma DivAtMost(x: int, d: int)
    requires x >= 0 && d >= 1
    ensures x / d <= x
  {
  }

  /**
   * The arithmetic core of the round trip: with `e1 = 720 h - p dpi` in
   * (-360, 360] and `e2 = dpi back - 720 h` in (-dpi / 2 - 1, dpi / 2],
   * `back` is within four of `p`.
   */
  lemma WithinFour(p: int, back: int, dpi: int, e1: int, e2: int)
    requires 96 <= dpi
    requires -360 < e1 <= 360 && -dpi + dpi / 2 < e2 <= dpi / 2
    requires dpi * back == p * dpi + e1 + e2
    ensures p - 4 <= back <= p + 4
  {
    var k := back - p;
    MulDistributes(dpi, back, p);
    assert dpi * k == e1 + e2;
    if k >= 5 {
      MulAtLeastFive(dpi, k);
    }
    if k <= -5 {
      MulAtLeastFive(dpi, -k);
      MulNegate(dpi, k);
    }
  }

  lemma MulDistributes(d: int, a: int, b: int)
    ensures d * (a - b) == d * a - b * d
  {
  }

  lemma MulNegate(d: int, k: int)
    ensures d * -k == -(d * k)
  {
  }

  lemma MulAtLeastFive(d: int, k: int)
    requires d >= 0 && k >= 5
    ensures d * k >= 5 * d
  {
    MulNonnegative(d, k - 5);
    assert d * k == d * (k - 5) + 5 * d;
  }

  lemma MulNonnegative(a: int, b: int)
    requires a >= 0 && b >= 0
    ensures a * b >= 0
  {
  }

  // ---------------------------------------------------------------------
  // The window and the font in use

  datatype Rect = Rect(left: int, top: int, right: int, bottom: int)

  /** The LONG rectangle of the window, the LOGFONT height and pitch the program runs with. */
  datatype Live = Live(rect: Rect, height: int, pitchAndFamily: int)

  predicate LongRect(r: Rect)
  {
    && INT_MIN <= r.left <= INT_MAX && INT_MIN <= r.top <= INT_MAX
    && INT_MIN <= r.right <= INT_MAX && INT_MIN <= r.bottom <= INT_MAX
  }

  const LANG_CHINESE: int := 0x04
  const LANG_JAPANESE: int := 0x11
  const LANG_KOREAN: int := 0x12

  predicate FarEast(primaryLanguage: int)
  {
    primaryLanguage == LANG_CHINESE || primaryLanguage == LANG_JAPANESE || primaryLanguage == LANG_KOREAN
  }

  /**
   * The end of `LoadAppSettings`: the font height from the point size, the
   * right and bottom edges as position plus extent (LONG plus DWORD, so
   * modulo 2^32), and any pitch for Chinese, Japanese and Korean users.
   */
  function Apply(s: map<IntField, int>, dpi: int, primaryLanguage: int): (live: Live)
    requires Wellformed(s)
    ensures LongRect(live.rect) && 0 <= live.pitchAndFamily < 0x100
    ensures live.rect.left == s[PosX] && live.rect.top == s[PosY]
    ensures ToDword(live.rect.right - live.rect.left) == s[Width]
    ensures ToDword(live.rect.bottom - live.rect.top) == s[Height]
    ensures live.pitchAndFamily == if FarEast(primaryLanguage) then 0 else s[PitchAndFamily]
  {
    assert Representable(PointSize, s[PointSize]) && Representable(PitchAndFamily, s[PitchAndFamily]);
    Live(WindowRect(s), FontHeight(s[PointSize], dpi),
         if FarEast(primaryLanguage) then 0 else s[PitchAndFamily])
  }

  /** The window rectangle from the stored position and extents. */
  function WindowRect(s: map<IntField, int>): (r: Rect)
    requires Wellformed(s)
    ensures LongRect(r) && r.left == s[PosX] && r.top == s[PosY]
    ensures ToDword(r.right - r.left) == s[Width] && ToDword(r.bottom - r.top) == s[Height]
  {
    assert Representable(Width, s[Width]) && Representable(Height, s[Height]);
    assert Representable(PosX, s[PosX]) && Representable(PosY, s[PosY]);
    Rect(s[PosX], s[PosY], Edge(s[PosX], s[Width]), Edge(s[PosY], s[Height]))
  }

  /** The far edge `left + extent` stored in a LONG: the extent comes back modulo 2^32. */
  function Edge(left: int, extent: int): (right: int)
    requires 0 <= extent < DWORD_RANGE
    ensures INT_MIN <= right <= INT_MAX
    ensures ToDword(right - left) == extent
  {
    var right := DwordAsInt(ToDword(left + extent));
    ModuloShift(left, extent, right);
    right
  }

  /** An edge that agrees with `left + extent` modulo 2^32 gives the extent back, modulo 2^32. */
  lemma ModuloShift(left: int, extent: int, right: int)
    requires 0 <= extent < DWORD_RANGE
    requires ToDword(right) == ToDword(left + extent)
    ensures ToDword(right - left) == extent
  {
    assert (right - (left + extent)) % DWORD_RANGE == 0 by {
      assert (right - ToDword(right)) % DWORD_RANGE == 0;
      assert (left + extent - ToDword(left + extent)) % DWORD_RANGE == 0;
    }
  }

  /**
   * The start of `SaveAppSettings`: the normal window rectangle becomes the
   * position and the extents, the font height the rounded point size, and
   * the pitch in use is what is written.
   */
  function Capture(s: map<IntField, int>, live: Live, dpi: int): (r: map<IntField, int>)
    requires Wellformed(s) && LongRect(live.rect)
    requires INT_MIN <= live.height <= INT_MAX && 0 <= live.pitchAndFamily < 0x100
    ensures Wellformed(r)

    ensures forall f :: Captured(f) || r[f] == s[f]
  {
    var pointSize := SavedPointSize(live.height, dpi);
    var width := ToDword(live.rect.right - live.rect.left);
    var height := ToDword(live.rect.bottom - live.rect.top);
    var r := map f: IntField | true ::
      match f
      case PosX => live.rect.left
      case PosY => live.rect.top
      case Width => width
      case Height => height
      case PointSize => pointSize
      case PitchAndFamily => live.pitchAndFamily
      case _ => s[f];
    assert forall f :: Captured(f) || r[f] == s[f];
    r
  }

  /** The fields `SaveAppSettings` takes from the running window and font. */
  predicate Captured(f: IntField)
  {
    f == PosX || f == PosY || f == Width || f == Height || f == PointSize || f == PitchAndFamily
  }

  /**
   * Running with the loaded settings and saving them again gives the same
   * settings, when the point size is whole and the display has at least 96
   * dpi; for Chinese, Japanese and Korean users the overriding pitch 0 is
   * what gets saved.
   */
  lemma ApplyCaptureRoundTrip(s: map<IntField, int>, dpi: int, primaryLanguage: int)
    requires Wellformed(s) && s[PointSize] <= 100_000 && s[PointSize] % 10 == 0
    requires 96 <= dpi <= 4800
    ensures var r := Capture(s, Apply(s, dpi, primaryLanguage), dpi);
      && (!FarEast(primaryLanguage) ==> r == s)
      && (FarEast(primaryLanguage) ==> r == s[PitchAndFamily := 0])
  {
    var live := Apply(s, dpi, primaryLanguage);
    PointSizeRoundTrip(s[PointSize], dpi);
    var r := Capture(s, live, dpi);
    var expected := if FarEast(primaryLanguage) then s[PitchAndFamily := 0] else s;
    forall f
      ensures r[f] == expected[f]
    {
      if f == PointSize {
        assert r[PointSize] == s[PointSize];
      }
    }
    assert r == expected;
  }
}

=== FILE: tabs.dfy ===
/**
 * Notepad's tabs: one edit control per open document, at most nine of
 * them, and the globals that mirror the selected tab (`Globals.szFileName`,
 * `Globals.encFile`, `Globals.iEoln`).  Covers adding and closing a tab,
 * the duplicate-path lookup, the open-or-reuse decision of `TryOpenFile`,
 * `DIALOG_FileNew` and closing every tab on exit.
 *
 * Window handles, captions, the status bar and message boxes are left out;
 * the user's answers and the results of file access are parameters.
 */
module Tabs {
  import opened Win32
  import opened NotepadTypes
  import TextCodec
  import DialogRules

  /** `MAX_NTAB`: the tab control holds at most nine tabs. */
  const MAX_NTAB: int := 9

  /** One tab: its `EDITINFO`, and the text and modify flag of its edit control. */
  datatype Tab = Tab(info: EditInfo, text: Text, modified: bool)

  /** The tab control, its selection, and the globals copied from the selected tab. */
  datatype Session = Session(tabs: seq<Tab>, current: int, fileName: string, enc: Encoding, eoln: Eoln)

  predicate Valid(s: Session)
  {
    |s.tabs| <= MAX_NTAB && (s.tabs != [] ==> 0 <= s.current < |s.tabs|)
  }

  /** While Notepad runs there is a selected tab. */
  predicate Open(s: Session)
  {
    Valid(s) && s.tabs != []
  }

  /**
   * The global file name belongs to the selected tab: the name Save writes
   * to is the path of the document on screen.
   */
  predicate Coherent(s: Session)
  {
    Open(s) && s.fileName == s.tabs[s.current].info.path
  }

  /** A new tab: a zero-filled `EDITINFO` and an empty, unmodified edit control. */
  const NEW_TAB: Tab := Tab(ZERO_EDIT_INFO, [], false)

  // ---------------------------------------------------------------------
  // Adding, selecting and closing tabs

  /**
   * `AddNewEditTab`: refused (FALSE, nothing changes) when nine tabs exist;
   * otherwise a new tab is appended and selected.  The globals are not
   * touched.
   */
  function AddNewEditTab(s: Session): (r: (bool, Session))
    ensures r.0 <==> |s.tabs| < MAX_NTAB
    ensures !r.0 ==> r.1 == s
    ensures r.0 ==> r.1.tabs == s.tabs + [NEW_TAB] && r.1.current == |s.tabs|
    ensures r.1.fileName == s.fileName && r.1.enc == s.enc && r.1.eoln == s.eoln
    ensures Valid(s) ==> Valid(r.1)
  {
    if |s.tabs| >= MAX_NTAB then (false, s)
    else (true, s.(tabs := s.tabs + [NEW_TAB], current := |s.tabs|))
  }

  /** `OnTabChange` after selecting tab `i`: the globals are restored from its `EDITINFO`. */
  function SelectTab(s: Session, i: int): (r: Session)
    requires 0 <= i < |s.tabs|
    ensures r.tabs == s.tabs && r.current == i
    ensures Valid(s) ==> Coherent(r)
    ensures r.enc == s.tabs[i].info.enc && r.eoln == s.tabs[i].info.eoln
  {
    var info := s.tabs[i].info;
    s.(current := i, fileName := info.path, enc := info.enc, eoln := info.eoln)
  }

  /** The tabs without the one at `i`. */
  function RemoveAt(tabs: seq<Tab>, i: int): (r: seq<Tab>)
    requires 0 <= i < |tabs|
    ensures |r| == |tabs| - 1
    ensures forall j :: 0 <= j < i ==> r[j] == tabs[j]
    ensures forall j :: i <= j < |r| ==> r[j] == tabs[j + 1]
  {
    tabs[..i] + tabs[i + 1..]
  }

  /**
   * `CloseTab`: the selected tab is deleted and the number left returned.
   * The selection stays at the same index, or moves to the previous one
   * when the deleted tab was the last.
   */
  function CloseTab(s: Session): (r: (int, Session))
    requires Open(s)
    ensures r.0 == |s.tabs| - 1 == |r.1.tabs|
    ensures r.1.tabs == RemoveAt(s.tabs, s.current)
    ensures Valid(r.1)
    ensures r.0 > 0 ==> (Coherent(r.1)
      && r.1.tabs[r.1.current] == (if s.current < r.0 then s.tabs[s.current + 1] else s.tabs[s.current - 1]))
  {
    var i := s.current;
    var rest := RemoveAt(s.tabs, i);
    var n := |rest|;
    if n > 0 then (n, SelectTab(s.(tabs := rest), if i == n then i - 1 else i))
    else (0, s.(tabs := rest, current := -1))
  }

  // ---------------------------------------------------------------------
  // Duplicate paths

  /** A tab that already holds `path` (compared case-insensitively). */
  predicate HoldsPath(t: Tab, path: string)
  {
    t.info.pathOk && t.info.path != "" && EqualsIgnoreCase(path, t.info.path)
  }

  /** The first tab at or after `k` holding `path`. */
  function FindDupFrom(tabs: seq<Tab>, path: string, k: int): (r: Option<int>)
    requires 0 <= k <= |tabs|
    ensures r.Some? ==> (k <= r.value < |tabs| && HoldsPath(tabs[r.value], path)
      && forall j :: k <= j < r.value ==> !HoldsPath(tabs[j], path))
    ensures r.None? ==> forall j :: k <= j < |tabs| ==> !HoldsPath(tabs[j], path)
    decreases |tabs| - k
  {
    if k == |tabs| then None
    else if HoldsPath(tabs[k], path) then Some(k)
    else FindDupFrom(tabs, path, k + 1)
  }

  /** `FindDupPathTab` (without its tab switch): the first tab holding `path`, if any. */
  function FindDupPathTab(tabs: seq<Tab>, path: string): (r: Option<int>)
    ensures r.Some? ==> (0 <= r.value < |tabs| && HoldsPath(tabs[r.value], path)
      && forall j :: 0 <= j < r.value ==> !HoldsPath(tabs[j], path))
    ensures r.None? ==> forall j :: 0 <= j < |tabs| ==> !HoldsPath(tabs[j], path)
  {
    FindDupFrom(tabs, path, 0)
  }

  /** A path is found again under any spelling that differs only in the case of A-Z. */
  lemma FindDupIgnoresCase(tabs: seq<Tab>, a: string, b: string)
    requires EqualsIgnoreCase(a, b)
    ensures FindDupPathTab(tabs, a) == FindDupPathTab(tabs, b)
  {
    var ra, rb := FindDupPathTab(tabs, a), FindDupPathTab(tabs, b);
    assert forall j :: 0 <= j < |tabs| ==> (HoldsPath(tabs[j], a) <==> HoldsPath(tabs[j], b));
    if ra.Some? && rb.Some? {
      assert !(ra.value < rb.value) && !(rb.value < ra.value);
    }
  }

  // ---------------------------------------------------------------------
  // Opening a file

  /** What `DoOpenFile` got from the disk: the decoded file, its read-only attribute and its time. */
  datatype Opened = Opened(loaded: TextCodec.Loaded, readOnly: bool, stamp: FileTime)

  /** How `TryOpenFile` treats a request. */
  datatype OpenChoice =
    | Ignore                  // no name, or the new file could not be created
    | KeepDuplicate(tab: int) // the path is open and unedited: switch to it, nothing else
    | ReuseTab                // load into the selected tab
    | NewTab                  // load into a new tab

  /**
   * The decision of `TryOpenFile`: an untitled selection is reused; a
   * duplicate path is reloaded in place when it changed on disk
   * (OUTDATE, CLASH), opened again in a new tab while edited (EDITING),
   * and otherwise only switched to; any other path gets a new tab.
   */
  function ChooseOpen(s: Session, name: string, newFile: bool, created: bool): (c: OpenChoice)
  {
    if name == "" || (newFile && !created) then Ignore
    else if s.fileName == "" then ReuseTab
    else
      match FindDupPathTab(s.tabs, name)
      case None => NewTab
      case Some(i) =>
        match s.tabs[i].info.mode
        case Outdate | Clash => ReuseTab
        case Editing => NewTab
        case Normal | ReadOnly => KeepDuplicate(i)
  }

  /** The tab switch `FindDupPathTab` makes when it finds a duplicate. */
  function AfterDupSearch(s: Session, name: string): (r: Session)
    ensures r.tabs == s.tabs
    ensures FindDupPathTab(s.tabs, name).Some? ==> r.current == FindDupPathTab(s.tabs, name).value
    ensures FindDupPathTab(s.tabs, name).None? ==> r == s
  {
    match FindDupPathTab(s.tabs, name)
    case None => s
    case Some(i) => SelectTab(s, i)
  }

  /**
   * The tail of `TryOpenFile` on the selected tab: the path is recorded, and
   * when `DoOpenFile` succeeds the tab takes the file's text, encoding, line
   * ending, mode and time, unmodified.
   */
  function LoadIntoCurrent(s: Session, name: string, disk: Option<Opened>): (r: Session)
    requires Open(s)
    ensures |r.tabs| == |s.tabs| && r.current == s.current && r.fileName == s.fileName
    ensures forall j :: 0 <= j < |s.tabs| && j != s.current ==> r.tabs[j] == s.tabs[j]
    ensures r.tabs[r.current].info.path == name && r.tabs[r.current].info.pathOk
    ensures disk.Some? ==>
      var t := r.tabs[r.current];
      && t.text == disk.value.loaded.text && !t.modified
      && t.info.mode == (if disk.value.readOnly then ReadOnly else Normal)
      && t.info.enc == r.enc == disk.value.loaded.enc
      && t.info.eoln == r.eoln == disk.value.loaded.eoln
  {
    var t := s.tabs[s.current];
    var info := t.info.(path := name, pathOk := true);
    match disk
    case None => s.(tabs := s.tabs[s.current := t.(info := info)])
    case Some(o) =>
      var l := o.loaded;
      var info2 := info.(enc := l.enc, eoln := l.eoln, mode := DialogRules.OpenMode(o.readOnly),
                         fileTime := o.stamp);
      s.(tabs := s.tabs[s.current := Tab(info2, l.text, false)], enc := l.enc, eoln := l.eoln)
  }

  /**
   * `TryOpenFile` as written: for a new tab the result of `AddNewEditTab`
   * is ignored, so with nine tabs open the file is loaded into the tab that
   * happens to be selected.
   */
  function TryOpenFileAsWritten(s: Session, name: string, newFile: bool, created: bool,
                                disk: Option<Opened>): (r: Session)
    requires Open(s)
    ensures Open(r)
    ensures var c := ChooseOpen(s, name, newFile, created);
      c == NewTab && |s.tabs| >= MAX_NTAB ==>
        && |r.tabs| == |s.tabs| && r.fileName == name && r.tabs[r.current].info.path == name
        && (disk.Some? ==> r.tabs[r.current].text == disk.value.loaded.text && !r.tabs[r.current].modified)
    ensures ChooseOpen(s, name, newFile, created) != NewTab || |s.tabs| < MAX_NTAB ==>
      r == TryOpenFile(s, name, newFile, created, disk)
  {
    var choice := ChooseOpen(s, name, newFile, created);
    var s1 := if s.fileName == "" then s else AfterDupSearch(s, name);
    match choice
    case Ignore => s
    case KeepDuplicate(_) => s1
    case ReuseTab => LoadIntoCurrent(s1.(fileName := name), name, disk)
    case NewTab => LoadIntoCurrent(AddNewEditTab(s1.(fileName := name)).1, name, disk)
  }

  /** `TryOpenFile` refusing a new tab when nine are open, instead of overwriting the selected one. */
  function TryOpenFile(s: Session, name: string, newFile: bool, created: bool, disk: Option<Opened>): (r: Session)
    requires Open(s)
    ensures Open(r)
    ensures var c := ChooseOpen(s, name, newFile, created);
      && (c == Ignore ==> r == s)
      && (c.KeepDuplicate? ==> r.tabs == s.tabs && r.current == c.tab)
      && (c == NewTab && |s.tabs| >= MAX_NTAB ==> r.tabs == s.tabs)
      && (c == ReuseTab ==> |r.tabs| == |s.tabs|)
      && (c == NewTab && |s.tabs| < MAX_NTAB ==>
            |r.tabs| == |s.tabs| + 1 && r.tabs[..|s.tabs|] == s.tabs && r.current == |s.tabs|)
      && (c == ReuseTab || (c == NewTab && |s.tabs| < MAX_NTAB) ==>
        && r.fileName == name && r.tabs[r.current].info.path == name
        && (disk.Some? ==> r.tabs[r.current].text == disk.value.loaded.text && !r.tabs[r.current].modified))
  {
    var choice := ChooseOpen(s, name, newFile, created);
    var s1 := if s.fileName == "" then s else AfterDupSearch(s, name);
    match choice
    case Ignore => s
    case KeepDuplicate(_) => s1
    case ReuseTab => LoadIntoCurrent(s1.(fileName := name), name, disk)
    case NewTab => OpenInNewTab(s1, name, disk)
  }

  /** A new tab for `name`, when there is room for one: the existing tabs stay, and the new one is selected. */
  function OpenInNewTab(s: Session, name: string, disk: Option<Opened>): (r: Session)
    requires Open(s)
    ensures Open(r)
    ensures |s.tabs| >= MAX_NTAB ==> r == s
    ensures |s.tabs| < MAX_NTAB ==>
      && |r.tabs| == |s.tabs| + 1 && r.tabs[..|s.tabs|] == s.tabs && r.current == |s.tabs|
      && r.fileName == name && r.tabs[r.current].info.path == name
      && (disk.Some? ==> r.tabs[r.current].text == disk.value.loaded.text && !r.tabs[r.current].modified)
  {
    var added := AddNewEditTab(s.(fileName := name));
    if added.0 then
      var r := LoadIntoCurrent(added.1, name, disk);
      assert r.tabs[..|s.tabs|] == added.1.tabs[..|s.tabs|];
      r
    else s
  }

  /**
   * The only existing tab the corrected open may change is the one it
   * chose to reuse: the untitled selection, or a duplicate that changed on
   * disk.  A new tab leaves every existing tab as it was.
   */
  lemma TryOpenFileTouchesOnlyTarget(s: Session, name: string, newFile: bool, created: bool, disk: Option<Opened>)
    requires Open(s)
    ensures var r := TryOpenFile(s, name, newFile, created, disk);
      var choice := ChooseOpen(s, name, newFile, created);
      && (choice == NewTab ==> r.tabs[..|s.tabs|] == s.tabs)
      && (choice != ReuseTab ==> forall j :: 0 <= j < |s.tabs| ==> r.tabs[j] == s.tabs[j])
      && (choice == ReuseTab ==> forall j :: 0 <= j < |s.tabs| && j != r.current ==> r.tabs[j] == s.tabs[j])
      && (choice == ReuseTab ==> s.fileName == "" || s.tabs[r.current].info.mode in {Outdate, Clash})
  {
    var r := TryOpenFile(s, name, newFile, created, disk);
    var choice := ChooseOpen(s, name, newFile, created);
    var s1 := if s.fileName == "" then s else AfterDupSearch(s, name);
    if choice == NewTab {
      var added := AddNewEditTab(s1.(fileName := name));
      if added.0 {
        assert r.tabs[..|s.tabs|] == added.1.tabs[..|s.tabs|];
      }
    }
  }

  /** After a corrected open that went ahead, the global name and the selected tab both hold the path. */
  lemma TryOpenFileCoherent(s: Session, name: string, newFile: bool, created: bool, disk: Option<Opened>)
    requires Coherent(s)
    ensures Coherent(TryOpenFile(s, name, newFile, created, disk))
  {
  }

  /**
   * Once a path is open, opening it again finds the tab: the second request
   * is never a fresh open of an unknown path.
   */
  lemma ReopenFindsDuplicate(s: Session, name: string, newFile: bool, created: bool, disk: Option<Opened>)
    requires Open(s)
    requires var c := ChooseOpen(s, name, newFile, created);
      c == ReuseTab || (c == NewTab && |s.tabs| < MAX_NTAB)
    ensures FindDupPathTab(TryOpenFile(s, name, newFile, created, disk).tabs, name).Some?
  {
    var r := TryOpenFile(s, name, newFile, created, disk);
    assert HoldsPath(r.tabs[r.current], name);
  }

  /**
   * With nine tabs open and an edited document selected, opening another
   * file as written replaces the edited text in place; the corrected open
   * leaves it alone.
   */
  lemma OpenAtTabLimitOverwrites()
    ensures var edited := Tab(ZERO_EDIT_INFO.(mode := Editing, pathOk := true, path := "a"), [0x61], true);
      var s := Session(seq(MAX_NTAB, _ => edited), 0, "a", Utf8, Lf);
      var o := Opened(TextCodec.Loaded([0x62], Utf8, Lf), false, FileTime(0, 0));
      && Coherent(s)
      && ChooseOpen(s, "b", false, true) == NewTab
      && TryOpenFileAsWritten(s, "b", false, true, Some(o)).tabs[0].text == [0x62]
      && !TryOpenFileAsWritten(s, "b", false, true, Some(o)).tabs[0].modified
      && TryOpenFile(s, "b", false, true, Some(o)).tabs == s.tabs
  {
    var edited := Tab(ZERO_EDIT_INFO.(mode := Editing, pathOk := true, path := "a"), [0x61], true);
    var s := Session(seq(MAX_NTAB, _ => edited), 0, "a", Utf8, Lf);
    assert !EqualsIgnoreCase("b", "a") by {
      assert FoldCase("b")[0] != FoldCase("a")[0];
    }
    assert forall j :: 0 <= j < |s.tabs| ==> !HoldsPath(s.tabs[j], "b");
    assert FindDupPathTab(s.tabs, "b") == None;
  }

  // ---------------------------------------------------------------------
  // New document

  /**
   * `DIALOG_FileNew` as written: a new tab (failure ignored) is emptied and
   * the globals take the defaults CRLF and `ENCODING_DEFAULT`; the global
   * file name keeps whatever the previously selected tab had.
   */
  function FileNewAsWritten(s: Session): (r: Session)
    requires Open(s)
    ensures Open(r) && r.fileName == s.fileName
    ensures r.eoln == CrLf && r.enc == ENCODING_DEFAULT
    ensures r.tabs[r.current].text == []
  {
    var added := AddNewEditTab(s).1;
    var t := added.tabs[added.current];
    added.(tabs := added.tabs[added.current := t.(text := [])], eoln := CrLf, enc := ENCODING_DEFAULT)
  }

  /**
   * `DIALOG_FileNew` with the limit respected and the global name cleared,
   * as selecting the new (untitled) tab would clear it.
   */
  function FileNew(s: Session): (r: Session)
    requires Open(s)
    ensures Open(r)
    ensures |s.tabs| >= MAX_NTAB ==> r == s
    ensures |s.tabs| < MAX_NTAB ==>
      && r.tabs == s.tabs + [NEW_TAB] && r.current == |s.tabs|
      && r.fileName == "" && r.eoln == CrLf && r.enc == ENCODING_DEFAULT
  {
    var added := AddNewEditTab(s);
    if !added.0 then s
    else added.1.(fileName := "", eoln := CrLf, enc := ENCODING_DEFAULT)
  }

  /** The corrected new document keeps the global name on the selected tab. */
  lemma FileNewCoherent(s: Session)
    requires Coherent(s)
    ensures Coherent(FileNew(s))
  {
  }

  /**
   * As written, after opening "a" a new document still carries the name
   * "a", so Save on the empty tab writes to "a"; at the tab limit the
   * selected document is emptied.
   */
  lemma FileNewKeepsStaleName()
    ensures var doc := Tab(ZERO_EDIT_INFO.(pathOk := true, path := "a"), [0x61], false);
      var s := Session([doc], 0, "a", Utf8, Lf);
      var r := FileNewAsWritten(s);
      && Coherent(s) && !Coherent(r) && r.fileName == "a" && r.tabs[r.current].info.path == ""
    ensures var doc := Tab(ZERO_EDIT_INFO.(pathOk := true, path := "a"), [0x61], false);
      var full := Session(seq(MAX_NTAB, _ => doc), 0, "a", Utf8, Lf);
      FileNewAsWritten(full).tabs[0].text == []
  {
  }

  // ---------------------------------------------------------------------
  // Closing

  /**
   * The user's answer to "save changes?".  Yes runs `DIALOG_FileSave`:
   * `dialog` is what the Save-As dialog gives when the document has no
   * name, and `passes` what each pass of `TrySaveFile` meets.
   */
  datatype Answer = Yes(dialog: Option<DialogRules.Picked>, passes: DialogRules.SaveRun) | No | Cancel

  /**
   * Closing the tab `t`, whose global file name is `name`, goes ahead under
   * `a`: it is unmodified, or the user said No, or Yes and the save wrote
   * the file (after a Save-As dialog closed with OK when there was no name).
   */
  predicate Agrees(t: Tab, name: string, a: Answer)
  {
    || !t.modified
    || a.No?
    || (a.Yes? && (name != "" || a.dialog.Some?) && DialogRules.Writes(a.passes))
  }

  /** Every tab's close goes ahead under its answer, each tab under its own path. */
  predicate AllAgree(tabs: seq<Tab>, answers: seq<Answer>)
    requires |answers| >= |tabs|
  {
    forall j :: 0 <= j < |tabs| ==> Agrees(tabs[j], tabs[j].info.path, answers[j])
  }

  lemma AllAgreeStep(tabs: seq<Tab>, answers: seq<Answer>)
    requires |answers| >= |tabs| > 0
    ensures AllAgree(tabs, answers) <==>
      Agrees(tabs[0], tabs[0].info.path, answers[0]) && AllAgree(tabs[1..], answers[1..])
  {
    if Agrees(tabs[0], tabs[0].info.path, answers[0]) && AllAgree(tabs[1..], answers[1..]) {
      forall j | 1 <= j < |tabs|
        ensures Agrees(tabs[j], tabs[j].info.path, answers[j])
      {
        assert tabs[1..][j - 1] == tabs[j] && answers[1..][j - 1] == answers[j];
      }
    }
    if AllAgree(tabs, answers) {
      forall j | 0 <= j < |tabs| - 1
        ensures Agrees(tabs[1..][j], tabs[1..][j].info.path, answers[1..][j])
      {
        assert tabs[1..][j] == tabs[j + 1] && answers[1..][j] == answers[j + 1];
      }
    }
  }


  /** What `DIALOG_FileSave` gives for the selected tab under a Yes answer. */
  function SaveOutcome(s: Session, a: Answer): (r: DialogRules.SaveResult)
    requires Open(s) && a.Yes?
  {
    DialogRules.FileSave(DialogRules.BLANK, a.dialog, a.passes, s.tabs[s.current].info.mode, s.fileName, s.enc, s.eoln)
  }

  /**
   * The prompt of `DoCloseFile`: an unmodified document, or No, goes ahead
   * and changes nothing; Cancel refuses and changes nothing; Yes saves,
   * and the globals keep whatever the save left in them (the name stored
   * by a Save-As dialog, no name after a failed write, the encoding and
   * line ending of the hook), while a saved tab becomes NORMAL and
   * unmodified.  Only the selected tab can change.
   */
  function AskToClose(s: Session, a: Answer): (r: (bool, Session))
    requires Open(s)
    ensures r.0 <==> Agrees(s.tabs[s.current], s.fileName, a)
    ensures |r.1.tabs| == |s.tabs| && r.1.current == s.current && Open(r.1)
    ensures r.1.tabs == s.tabs[s.current := r.1.tabs[s.current]]
    ensures r.1.tabs[s.current].info.path == s.tabs[s.current].info.path
    ensures r.1.tabs[s.current].text == s.tabs[s.current].text
    ensures !(a.Yes? && s.tabs[s.current].modified) ==> r.1 == s
    ensures a.Yes? && s.tabs[s.current].modified ==>
      var o := SaveOutcome(s, a);
      && r.1.fileName == o.fileName && r.1.enc == o.enc && r.1.eoln == o.eoln
      && (!o.ok ==> r.1.tabs == s.tabs)
      && (o.ok ==> r.1.tabs[s.current].info.mode == Normal && !r.1.tabs[s.current].modified)
  {
    var t := s.tabs[s.current];
    if !t.modified then (true, s)
    else match a
      case No => (true, s)
      case Cancel => (false, s)
      case Yes(_, _) =>
        var o := SaveOutcome(s, a);
        var saved := if o.ok then t.(info := t.info.(mode := Normal), modified := false) else t;
        (o.ok, s.(tabs := s.tabs[s.current := saved], fileName := o.fileName, enc := o.enc, eoln := o.eoln))
  }

  /**
   * `DoCloseFile`: after the prompt, a refused close keeps every tab and
   * the selection, with the globals the failed save left; otherwise the
   * file name is cleared, the tab is closed, and WM_CLOSE is posted when it
   * was the last.  Returns (closed, session, quit).
   */
  function DoCloseFile(s: Session, answer: Answer): (r: (bool, Session, bool))
    requires Open(s)
    ensures r.0 <==> Agrees(s.tabs[s.current], s.fileName, answer)
    ensures !r.0 ==> !r.2 && r.1.tabs == s.tabs && r.1.current == s.current
    ensures !r.0 && !answer.Yes? ==> r.1 == s
    ensures !r.0 && answer.Yes? ==>
      var o := SaveOutcome(s, answer);
      !o.ok && r.1.fileName == o.fileName && r.1.enc == o.enc && r.1.eoln == o.eoln
    ensures r.0 ==> r.1.tabs == RemoveAt(s.tabs, s.current) && (r.2 <==> r.1.tabs == [])
    ensures r.0 && !r.2 ==> Coherent(r.1)
    ensures Valid(r.1)
  {
    var asked := AskToClose(s, answer);
    if !asked.0 then (false, asked.1, false)
    else
      var closed := CloseTab(asked.1.(fileName := DialogRules.StoredName(DialogRules.BLANK, "")));
      assert closed.1.tabs == RemoveAt(s.tabs, s.current);
      (true, closed.1, closed.0 == 0)
  }

  /**
   * A modified "a.txt" whose save fails on Yes: the tab stays, and the
   * document is left without a name (as written, it would be called
   * "Untitled" and saved there next time without asking).
   */
  lemma RefusedCloseDropsName(t: Tab, enc: Encoding, eoln: Eoln)
    requires t.modified && t.info.path == "a.txt"
    ensures var s := Session([t], 0, "a.txt", enc, eoln);
      var a := Yes(None, [DialogRules.SavePass(DialogRules.Proceed, None, false)]);
      DoCloseFile(s, a) == (false, s.(fileName := ""), false)
  {
    var s := Session([t], 0, "a.txt", enc, eoln);
    var a := Yes(None, [DialogRules.SavePass(DialogRules.Proceed, None, false)]);
    assert a.passes[1..] == [];
    assert AskToClose(s, a).1.tabs == s.tabs;
  }

  /**
   * `DoCloseAllFiles`: as many rounds as there were tabs, each selecting
   * tab 0 and closing it; the first refused close stops with FALSE and the
   * refusing tab selected.  One answer per round.
   */
  function CloseAll(s: Session, answers: seq<Answer>): (r: (bool, Session))
    requires Valid(s) && |answers| >= |s.tabs|
    ensures Valid(r.1)
    ensures r.0 <==> r.1.tabs == []
    ensures |r.1.tabs| <= |s.tabs| && r.1.tabs == s.tabs[|s.tabs| - |r.1.tabs|..]
    ensures !r.0 ==> r.1.current == 0
    decreases |s.tabs|
  {
    if s.tabs == [] then (true, s)
    else
      var first := SelectTab(s, 0);
      var closed := DoCloseFile(first, answers[0]);
      if !closed.0 then
        assert closed.1.tabs == s.tabs == s.tabs[|s.tabs| - |closed.1.tabs|..];
        (false, closed.1)
      else
        assert closed.1.tabs == RemoveAt(s.tabs, 0) == s.tabs[1..];
        var rest := CloseAll(closed.1, answers[1..]);
        var n := |rest.1.tabs|;
        assert rest.1.tabs == s.tabs[1..][|s.tabs| - 1 - n..] == s.tabs[|s.tabs| - n..];
        rest
  }

  /** Closing everything succeeds exactly when no modified tab is refused. */
  lemma {:induction false} CloseAllSucceeds(s: Session, answers: seq<Answer>)
    requires Valid(s) && |answers| >= |s.tabs|
    ensures CloseAll(s, answers).0 <==> AllAgree(s.tabs, answers)
    decreases |s.tabs|
  {
    if s.tabs != [] {
      var closed := DoCloseFile(SelectTab(s, 0), answers[0]);
      AllAgreeStep(s.tabs, answers);
      if closed.0 {
        CloseAllSucceeds(closed.1, answers[1..]);
        assert closed.1.tabs == RemoveAt(s.tabs, 0) == s.tabs[1..];
      }
    }
  }
}

=== FILE: text_codec.dfy ===
/**
 * Notepad's file codec: encoding detection, the end-of-line census, the
 * decoding of a file's bytes, and the line-splitting writer.
 *
 * The file mapping, heap buffers and handles are left out: a file is its
 * byte sequence, the editor text is a sequence of UTF-16 code units.
 * `IsTextUnicode` and the ANSI code page are parameters (`Platform`).
 */
module TextCodec {
  import opened Win32
  import opened NotepadTypes
  import Utf8

  /** The size of the writer's line buffer `WriteBuf`. */
  const LINE_MAXSIZE: nat := 4100

  /** The operating-system services the codec calls but does not define. */
  datatype Platform = Platform(
    looksUtf16: Bytes -> bool,          // IsTextUnicode(..., SIGNATURE | STATISTICS)
    looksUtf16Reversed: Bytes -> bool,  // IsTextUnicode(..., REVERSE_SIGNATURE)
    ansiDecode: Bytes -> Text,          // MultiByteToWideChar(CP_ACP, 0, ...)
    ansiEncode: Text -> Bytes)          // WideCharToMultiByte(CP_ACP, 0, ...); empty on failure

  // ---------------------------------------------------------------------
  // Byte-order marks and byte orders

  const UTF8_BOM: Bytes := [0xEF, 0xBB, 0xBF]
  const UTF16LE_BOM: Bytes := [0xFF, 0xFE]
  const UTF16BE_BOM: Bytes := [0xFE, 0xFF]

  /** UTF-16 code units as little-endian byte pairs. */
  function LeBytes(t: Text): (b: Bytes)
    ensures |b| == 2 * |t|
    decreases |t|
  {
    if t == [] then []
    else [(t[0] as int % 256) as uint8, (t[0] as int / 256) as uint8] + LeBytes(t[1..])
  }

  /**
   * Bytes read as little-endian code units, `(n + 1) / 2` of them: an odd
   * final byte becomes a unit whose high byte is zero (the rest of the mapped
   * page is zero-filled).
   */
  function LeUnits(b: Bytes): (t: Text)
    ensures |t| == (|b| + 1) / 2
    decreases |b|
  {
    if b == [] then []
    else if |b| == 1 then [b[0] as int as uint16]
    else [(b[0] as int + 256 * b[1] as int) as uint16] + LeUnits(b[2..])
  }

  /** `_swab`: exchanges the bytes of every pair; an odd final byte stays. */
  function Swab(b: Bytes): (r: Bytes)
    ensures |r| == |b|
    decreases |b|
  {
    if |b| < 2 then b else [b[1], b[0]] + Swab(b[2..])
  }

  // ---------------------------------------------------------------------
  // AnalyzeEncoding

  /** A buffer whose every byte is in 1..127 (a positive `signed char`). */
  predicate AllAscii(b: Bytes)
  {
    forall i :: 0 <= i < |b| ==> 1 <= b[i] <= 127
  }

  /** The outcome of encoding detection: the encoding and the BOM length to skip. */
  datatype Detection = Detection(enc: Encoding, bomLength: nat)

  /**
   * The ASCII scan of `AnalyzeEncoding`: walks the buffer while bytes are
   * positive and reports "pure ASCII" on reaching the last byte.
   */
  method AsciiScan(b: Bytes) returns (pureAscii: bool)
    requires |b| > 0
    ensures pureAscii <==> AllAscii(b)
  {
    var i := 0;
    while 1 <= b[i] <= 127
      invariant 0 <= i < |b|
      invariant forall k :: 0 <= k < i ==> 1 <= b[k] <= 127
      decreases |b| - i
    {
      if i >= |b| - 1 {
        return true;
      }
      i := i + 1;
    }
    return false;
  }

  /** The detection steps that follow the BOM tests. */
  function SniffWithoutBom(p: Platform, b: Bytes): (enc: Encoding)
    requires |b| > 0
    ensures enc in {Utf16Le, Utf16Be, AnsiOem, Utf8}
    ensures enc == Utf8 ==> Utf8.IsValid(b) && !AllAscii(b)
    ensures !p.looksUtf16(b) && !p.looksUtf16Reversed(b) ==>
              (enc == Utf8 <==> Utf8.IsValid(b) && !AllAscii(b))
  {
    if p.looksUtf16(b) then Utf16Le
    else if p.looksUtf16Reversed(b) then Utf16Be
    else if AllAscii(b) then AnsiOem
    else if Utf8.IsValid(b) then Utf8
    else AnsiOem
  }

  /**
   * `AnalyzeEncoding` as written: BOMs are tested when at least two bytes are
   * present, and the UTF-8 BOM is reported as plain `ENCODING_UTF8`.
   * The caller never passes an empty buffer (an empty file is handled before).
   */
  function AnalyzeEncodingAsWritten(p: Platform, b: Bytes): (d: Detection)
    requires |b| > 0
    ensures d.enc != Auto && d.enc != Utf8Bom
    ensures d.bomLength <= |b|
    ensures d.bomLength == 3 <==> |b| >= 3 && b[..3] == UTF8_BOM
    ensures d.bomLength == 3 ==> d.enc == Utf8
    ensures d.bomLength == 2 <==> |b| >= 2 && (b[..2] == UTF16LE_BOM || b[..2] == UTF16BE_BOM)
    ensures d.bomLength == 2 ==> (d.enc == Utf16Le <==> b[..2] == UTF16LE_BOM)
    ensures d.bomLength != 2 && d.bomLength != 3 ==> d.bomLength == 0
  {
    if |b| >= 2 && |b| >= 3 && b[..3] == UTF8_BOM then
      assert b[..2][0] == b[..3][0];
      Detection(Utf8, 3)
    else if |b| >= 2 && b[..2] == UTF16LE_BOM then Detection(Utf16Le, 2)
    else if |b| >= 2 && b[..2] == UTF16BE_BOM then Detection(Utf16Be, 2)
    else Detection(SniffWithoutBom(p, b), 0)
  }

  /** The byte-order mark `WriteText` puts before text in encoding `enc`. */
  function BomOf(enc: Encoding): Bytes
  {
    match enc
    case Utf8Bom => UTF8_BOM
    case Utf16Le => UTF16LE_BOM
    case Utf16Be => UTF16BE_BOM
    case _ => []
  }

  /**
   * `AnalyzeEncoding` with the UTF-8 BOM reported as `ENCODING_UTF8BOM`:
   * a detected BOM is exactly the one the writer emits for the detected encoding.
   */
  function AnalyzeEncoding(p: Platform, b: Bytes): (d: Detection)
    requires |b| > 0
    ensures d.enc != Auto
    ensures d.bomLength <= |b|
    ensures d.bomLength > 0 <==> BomOf(d.enc) != [] && BomOf(d.enc) <= b
    ensures d.bomLength == |BomOf(d.enc)| || d.bomLength == 0
    ensures d.bomLength == 0 ==> d.enc == SniffWithoutBom(p, b)
  {
    var w := AnalyzeEncodingAsWritten(p, b);
    if w.bomLength == 3 then Detection(Utf8Bom, 3) else w
  }

  // ---------------------------------------------------------------------
  // CountLineEndings

  /** The text with every NUL replaced by a space. */
  function NulToSpace(t: Text): (r: Text)
  {
    seq(|t|, i requires 0 <= i < |t| => if t[i] == NUL then SPACE else t[i])
  }

  /** The number of occurrences of `u` in `t`. */
  function Occurrences(t: Text, u: uint16): nat
  {
    multiset(t)[u]
  }

  /** The number of adjacent CR LF pairs in `t`. */
  function CrLfPairs(t: Text): nat
    decreases |t|
  {
    if |t| < 2 then 0
    else (if t[0] == CR && t[1] == LF then 1 else 0) + CrLfPairs(t[1..])
  }

  /** The census rule: the majority style among bare CR, CR LF and bare LF; LF by default. */
  function ChooseEoln(bareCr: int, crLf: int, bareLf: int): Eoln
  {
    if bareCr > bareLf + crLf then Cr
    else if crLf > bareLf + bareCr then CrLf
    else Lf
  }

  /** The end-of-line style the census picks for `t`. */
  function CensusEoln(t: Text): Eoln
  {
    var pairs := CrLfPairs(t);
    ChooseEoln(Occurrences(t, CR) - pairs, pairs, Occurrences(t, LF) - pairs)
  }

  lemma {:induction false} CrLfPairsAppend(a: Text, b: Text)
    ensures CrLfPairs(a + b) == CrLfPairs(a) + CrLfPairs(b)
      + (if |a| > 0 && |b| > 0 && a[|a| - 1] == CR && b[0] == LF then 1 else 0)
    decreases |a|
  {
    if |a| == 0 {
      assert a + b == b;
    } else if |a| == 1 {
      if |b| > 0 {
        assert (a + b)[1..] == b;
      }
    } else {
      assert (a + b)[1..] == a[1..] + b;
      CrLfPairsAppend(a[1..], b);
    }
  }

  /** Every CR LF pair is made of one CR and one LF. */
  lemma {:induction false} CrLfPairsBounded(t: Text)
    ensures CrLfPairs(t) <= Occurrences(t, CR) && CrLfPairs(t) <= Occurrences(t, LF)
    decreases |t|
  {
    if |t| >= 2 {
      CrLfPairsBounded(t[1..]);
      assert t == [t[0]] + t[1..];
      if t[0] == CR && t[1] == LF {
        assert t[1..] == [t[1]] + t[2..];
        CrLfPairsBounded(t[2..]);
        CrLfPairsAppend([t[1]], t[2..]);
      }
    }
  }

  /** The census counts after one more unit. */
  lemma CensusSnoc(a: Text, ch: uint16)
    ensures Occurrences(a + [ch], CR) == Occurrences(a, CR) + (if ch == CR then 1 else 0)
    ensures Occurrences(a + [ch], LF) == Occurrences(a, LF) + (if ch == LF then 1 else 0)
    ensures CrLfPairs(a + [ch]) == CrLfPairs(a) + (if a != [] && a[|a| - 1] == CR && ch == LF then 1 else 0)
  {
    assert multiset(a + [ch]) == multiset(a) + multiset{ch};
    CrLfPairsAppend(a, [ch]);
  }

  /**
   * `CountLineEndings`: one pass that replaces NULs by spaces and counts bare
   * CRs, CR LF pairs and bare LFs, then applies the census rule.
   */
  method CountLineEndings(t: Text) returns (fixed: Text, eoln: Eoln)
    ensures fixed == NulToSpace(t)
    ensures eoln == CensusEoln(t)
  {
    fixed := t;
    var oldCh: uint16 := 0;
    var nLf, nCrLf, nCr := 0, 0, 0;
    var i := 0;
    while i < |t|
      invariant 0 <= i <= |t|
      invariant |fixed| == |t|
      invariant forall k :: 0 <= k < i ==> fixed[k] == NulToSpace(t)[k]
      invariant forall k :: i <= k < |t| ==> fixed[k] == t[k]
      invariant oldCh == if i == 0 then 0 else t[i - 1]
      invariant nCrLf == CrLfPairs(t[..i])
      invariant nCr == Occurrences(t[..i], CR) - CrLfPairs(t[..i])
      invariant nLf == Occurrences(t[..i], LF) - CrLfPairs(t[..i])
    {
      var ch := t[i];
      assert t[..i + 1] == t[..i] + [ch];
      assert i > 0 ==> t[..i][i - 1] == oldCh;
      CensusSnoc(t[..i], ch);
      if ch == NUL {
        fixed := fixed[i := SPACE];
      } else if ch == CR {
        nCr := nCr + 1;
      } else if ch == LF {
        if oldCh == CR {
          nCr := nCr - 1;
          nCrLf := nCrLf + 1;
        } else {
          nLf := nLf + 1;
        }
      }
      oldCh := ch;
      i := i + 1;
    }
    assert t[..i] == t;
    eoln := ChooseEoln(nCr, nCrLf, nLf);
  }

  // ---------------------------------------------------------------------
  // ReadText

  datatype ReadError = ConversionFailed | ReadOnlyViewWritten

  /** What `ReadText` hands back: the text, its encoding and its end-of-line style. */
  datatype Loaded = Loaded(text: Text, enc: Encoding, eoln: Eoln)

  /** The decoding of the bytes after the BOM, shared by both readers. */
  function DecodePayload(p: Platform, enc: Encoding, payload: Bytes): (r: Result<Text, ReadError>)
    requires |payload| > 0
    ensures enc in {Utf16Le, Utf16Be} ==> r.Ok? && |r.value| == (|payload| + 1) / 2
    ensures enc in {Utf8, Utf8Bom} ==> r == Ok(Utf8.Decode(payload))
    ensures r.Ok? ==> |r.value| > 0
  {
    match enc
    case Utf16Be => Ok(LeUnits(Swab(payload)))
    case Utf16Le => Ok(LeUnits(payload))
    case AnsiOem =>
      var t := p.ansiDecode(payload);
      if |t| == 0 then Err(ConversionFailed) else Ok(t)
    case Utf8 => Utf8.DecodeNonEmpty(payload); Ok(Utf8.Decode(payload))
    case Utf8Bom => Utf8.DecodeNonEmpty(payload); Ok(Utf8.Decode(payload))
    case Auto => Err(ConversionFailed)
  }

  /**
   * `ReadText` as written. `prevEoln` is the caller's `Globals.iEoln`, which the
   * empty-file path leaves as it was; a UTF-16 BE payload is byte-swapped in
   * place inside the read-only file view, which faults.
   */
  function ReadTextAsWritten(p: Platform, file: Bytes, prevEoln: Eoln): (r: Result<Loaded, ReadError>)
    ensures file == [] ==> r == Ok(Loaded([], ENCODING_DEFAULT, prevEoln))
    ensures r.Ok? && r.value.text == [] ==> r.value.eoln == prevEoln
    ensures r.Ok? && r.value.text != [] ==> r.value.eoln == CensusEoln(r.value.text)
    ensures r.Ok? ==> NUL !in r.value.text && r.value.enc != Utf8Bom && r.value.enc != Auto
  {
    if file == [] then Ok(Loaded([], ENCODING_DEFAULT, prevEoln))
    else
      var d := AnalyzeEncodingAsWritten(p, file);
      var payload := file[d.bomLength..];
      if payload == [] then Ok(Loaded([], d.enc, prevEoln))
      else if d.enc == Utf16Be then Err(ReadOnlyViewWritten)
      else match DecodePayload(p, d.enc, payload)
        case Err(e) => Err(e)
        case Ok(units) =>
          NulToSpaceCensus(units);
          Ok(Loaded(NulToSpace(units), d.enc, CensusEoln(units)))
  }

  /**
   * `ReadText` with the three repairs: the UTF-8 BOM is remembered as
   * UTF8BOM, big-endian bytes are swapped in a copy, and an empty text gets
   * the default end-of-line style.
   */
  function ReadText(p: Platform, file: Bytes): (r: Result<Loaded, ReadError>)
    ensures file == [] ==> r == Ok(Loaded([], ENCODING_DEFAULT, EOLN_DEFAULT))
    ensures r.Ok? ==> r.value.eoln == CensusEoln(r.value.text)
    ensures r.Ok? ==> NUL !in r.value.text && r.value.enc != Auto
    ensures r.Err? ==> r.error == ConversionFailed
  {
    if file == [] then Ok(Loaded([], ENCODING_DEFAULT, EOLN_DEFAULT))
    else
      var d := AnalyzeEncoding(p, file);
      var payload := file[d.bomLength..];
      if payload == [] then Ok(Loaded([], d.enc, EOLN_DEFAULT))
      else match DecodePayload(p, d.enc, payload)
        case Err(e) => Err(e)
        case Ok(units) =>
          NulToSpaceCensus(units);
          Ok(Loaded(NulToSpace(units), d.enc, CensusEoln(units)))
  }

  /** Replacing NULs neither adds NULs nor changes the census. */
  lemma NulToSpaceCensus(t: Text)
    ensures NUL !in NulToSpace(t)
    ensures CensusEoln(NulToSpace(t)) == CensusEoln(t)
  {
    NulToSpaceKeepsBreaks(t);
  }

  lemma {:induction false} NulToSpaceKeepsBreaks(t: Text)
    ensures Occurrences(NulToSpace(t), CR) == Occurrences(t, CR)
    ensures Occurrences(NulToSpace(t), LF) == Occurrences(t, LF)
    ensures CrLfPairs(NulToSpace(t)) == CrLfPairs(t)
    decreases |t|
  {
    if t != [] {
      var head, rest := t[..1], t[1..];
      NulToSpaceKeepsBreaks(rest);
      assert t == head + rest;
      assert NulToSpace(t) == NulToSpace(head) + NulToSpace(rest);
      assert multiset(NulToSpace(t)) == multiset(NulToSpace(head)) + multiset(NulToSpace(rest));
      var nh, nr := NulToSpace(head), NulToSpace(rest);
      assert nh[0] == CR <==> head[0] == CR;
      assert multiset(nh)[CR] == multiset(head)[CR] && multiset(nh)[LF] == multiset(head)[LF];
      assert rest != [] ==> (nr[0] == LF <==> rest[0] == LF);
      CrLfPairsAppend(head, rest);
      CrLfPairsAppend(nh, nr);
    }
  }

  // ---------------------------------------------------------------------
  // WriteOneLine / WriteText

  datatype WriteError = LineTooLong | ConversionFailedOnWrite | UnsupportedEncoding

  /** The end-of-line bytes `CharEOL[iEoln]` of the 8-bit encodings. */
  function EolBytes(e: Eoln): (b: Bytes)
    ensures |b| == |EolUnits(e)|
    ensures forall i :: 0 <= i < |b| ==> b[i] as int == EolUnits(e)[i] as int
  {
    match e
    case Lf => [0x0A]
    case CrLf => [0x0D, 0x0A]
    case Cr => [0x0D]
  }

  /** The terminator a line gets: none when the C code passes -1. */
  function TerminatorUnits(eol: Option<Eoln>): Text
  {
    if eol.Some? then EolUnits(eol.value) else []
  }

  function TerminatorBytes(eol: Option<Eoln>): Bytes
  {
    if eol.Some? then EolBytes(eol.value) else []
  }

  /** The line's bytes in an 8-bit encoding before the terminator (empty on failure). */
  function NarrowLine(p: Platform, line: Text, enc: Encoding): Bytes
  {
    if line == [] then []
    else if enc == AnsiOem then p.ansiEncode(line)
    else Utf8.Encode(line)
  }

  /**
   * How many bytes `WriteOneLine` stores into its 4100-byte `WriteBuf`, as
   * written: the UTF-16 branch copies the whole line unchecked, and the 8-bit
   * branch appends the terminator after a conversion that may already have
   * filled the buffer.
   */
  function WriteBufferUse(p: Platform, line: Text, enc: Encoding, eol: Option<Eoln>): (n: nat)
    ensures enc in {Utf16Le, Utf16Be} ==> n == 2 * (|line| + |TerminatorUnits(eol)|)
  {
    if enc in {Utf16Le, Utf16Be} then 2 * |line| + 2 * |TerminatorUnits(eol)|
    else if |NarrowLine(p, line, enc)| > LINE_MAXSIZE then 0
    else |NarrowLine(p, line, enc)| + |TerminatorBytes(eol)|
  }

  /**
   * `WriteOneLine`: one line and its terminator in the file's encoding, with
   * the write confined to `WriteBuf` (a line that does not fit is an error).
   */
  function WriteOneLine(p: Platform, line: Text, enc: Encoding, eol: Option<Eoln>): (r: Result<Bytes, WriteError>)
    ensures r.Ok? ==> |r.value| <= LINE_MAXSIZE
    ensures r.Ok? && enc == Utf16Le ==> r.value == LeBytes(line + TerminatorUnits(eol))
    ensures r.Ok? && enc == Utf16Be ==> r.value == Swab(LeBytes(line + TerminatorUnits(eol)))
    ensures r.Ok? && enc in {Utf8, Utf8Bom} ==> r.value == Utf8.Encode(line) + TerminatorBytes(eol)
    ensures enc == Auto ==> r == Err(UnsupportedEncoding)
    ensures enc in {Utf16Le, Utf16Be} ==> (r.Ok? <==> WriteBufferUse(p, line, enc, eol) <= LINE_MAXSIZE)
  {
    match enc
    case Utf16Le | Utf16Be =>
      var b := LeBytes(line + TerminatorUnits(eol));
      if |b| > LINE_MAXSIZE then Err(LineTooLong)
      else if enc == Utf16Be then Ok(Swab(b))
      else Ok(b)
    case AnsiOem | Utf8 | Utf8Bom =>
      var conv := NarrowLine(p, line, enc);
      if line != [] && (|conv| == 0 || |conv| > LINE_MAXSIZE) then Err(ConversionFailedOnWrite)
      else if |conv| + |TerminatorBytes(eol)| > LINE_MAXSIZE then Err(LineTooLong)
      else Ok(conv + TerminatorBytes(eol))
    case Auto => Err(UnsupportedEncoding)
  }

  /**
   * As written, a UTF-16 line of 2049 units ending in CR LF needs 4102
   * bytes and is copied into the 4100-byte buffer regardless; the model
   * refuses it instead.
   */
  lemma Utf16LineOverrunsAsWritten(p: Platform, line: Text)
    requires |line| == 2049
    ensures WriteBufferUse(p, line, Utf16Le, Some(CrLf)) == 4102 > LINE_MAXSIZE
    ensures WriteOneLine(p, line, Utf16Le, Some(CrLf)) == Err(LineTooLong)
  {
    assert |TerminatorUnits(Some(CrLf))| == 2;
  }

  predicate IsBreak(u: uint16)
  {
    u == CR || u == LF
  }

  /** Two writes in sequence: the first error stops, else the bytes are concatenated. */
  function Then(first: Result<Bytes, WriteError>, second: Result<Bytes, WriteError>): (r: Result<Bytes, WriteError>)
    ensures r.Ok? <==> first.Ok? && second.Ok?
    ensures r.Ok? ==> r.value == first.value + second.value
    ensures first.Err? ==> r == first
  {
    match first
    case Err(e) => Err(e)
    case Ok(a) =>
      match second
      case Err(e) => Err(e)
      case Ok(b) => Ok(a + b)
  }

  /**
   * The scan loop of `WriteText` from `pos` (start of the pending line) and
   * `next` (the unit being looked at): every CR, LF or CR LF ends a line
   * written with the chosen terminator; the final segment gets none.
   */
  function WriteLines(p: Platform, t: Text, enc: Encoding, eoln: Eoln, pos: nat, next: nat): (r: Result<Bytes, WriteError>)
    requires pos <= next <= |t|
    decreases |t| - next
  {
    if next < |t| then
      if IsBreak(t[next]) then
        var skip := if t[next] == CR && next + 1 < |t| && t[next + 1] == LF then 2 else 1;
        Then(WriteOneLine(p, t[pos..next], enc, Some(eoln)), WriteLines(p, t, enc, eoln, next + skip, next + skip))
      else WriteLines(p, t, enc, eoln, pos, next + 1)
    else if next > pos then WriteOneLine(p, t[pos..next], enc, None)
    else Ok([])
  }

  /** `WriteText`: the BOM (unless ANSI or UTF-8 without BOM), then the lines. */
  function WriteText(p: Platform, t: Text, enc: Encoding, eoln: Eoln): (r: Result<Bytes, WriteError>)
  {
    var bom := if enc != AnsiOem && enc != Utf8 then WriteOneLine(p, [BOM], enc, None) else Ok([]);
    match bom
    case Err(e) => Err(e)
    case Ok(head) =>
      match WriteLines(p, t, enc, eoln, 0, 0)
      case Err(e) => Err(e)
      case Ok(body) => Ok(head + body)
  }
}

=== FILE: utf8.dfy ===
/**
 * UTF-8 as sections 3 and 4 of RFC 3629 define it, on the terms the Win32
 * conversions use it:
 *  - `IsValid` is what `MultiByteToWideChar(CP_UTF8, MB_ERR_INVALID_CHARS, ...)`
 *    accepts (a well-formed byte sequence);
 *  - `Decode` is `MultiByteToWideChar(CP_UTF8, 0, ...)`, which replaces every
 *    maximal ill-formed subpart with U+FFFD;
 *  - `Encode` is `WideCharToMultiByte(CP_UTF8, 0, ...)` on UTF-16 code units,
 *    which joins surrogate pairs and replaces a lone surrogate with U+FFFD.
 */
module Utf8 {
  import opened Win32

  const REPLACEMENT: uint16 := 0xFFFD

  /** The length of the sequence a lead byte starts, 0 for a byte that starts none. */
  function SequenceLength(lead: uint8): (n: nat)
    ensures n <= 4
    ensures n == 1 <==> lead < 0x80
  {
    if lead < 0x80 then 1
    else if lead < 0xC2 then 0
    else if lead < 0xE0 then 2
    else if lead < 0xF0 then 3
    else if lead < 0xF5 then 4
    else 0
  }

  /** The range of the second byte after a multi-byte lead (the table of RFC 3629 section 4). */
  function SecondLow(lead: uint8): uint8
  {
    if lead == 0xE0 then 0xA0 else if lead == 0xF0 then 0x90 else 0x80
  }

  function SecondHigh(lead: uint8): uint8
  {
    if lead == 0xED then 0x9F else if lead == 0xF4 then 0x8F else 0xBF
  }

  predicate IsTrail(b: uint8)
  {
    0x80 <= b <= 0xBF
  }

  /** How many bytes after `b[0]` continue the sequence it starts (at most its length - 1). */
  function TrailCount(b: Bytes): (k: nat)
    requires |b| > 0
    ensures k < |b|
    ensures SequenceLength(b[0]) <= 1 ==> k == 0
    ensures SequenceLength(b[0]) >= 2 ==> k < SequenceLength(b[0])
  {
    var n := SequenceLength(b[0]);
    if n <= 1 || |b| < 2 || !(SecondLow(b[0]) <= b[1] <= SecondHigh(b[0])) then 0
    else if n == 2 || |b| < 3 || !IsTrail(b[2]) then 1
    else if n == 3 || |b| < 4 || !IsTrail(b[3]) then 2
    else 3
  }

  /** `b` starts with a complete well-formed sequence. */
  predicate StartsWellFormed(b: Bytes)
    requires |b| > 0
  {
    SequenceLength(b[0]) >= 1 && TrailCount(b) == SequenceLength(b[0]) - 1
  }

  predicate IsScalar(cp: int)
  {
    0 <= cp <= 0x10FFFF && !(0xD800 <= cp <= 0xDFFF)
  }

  /** The scalar value of the well-formed sequence at the start of `b`. */
  function ScalarAt(b: Bytes): (cp: int)
    requires |b| > 0 && StartsWellFormed(b)
    ensures IsScalar(cp)
  {
    var n := SequenceLength(b[0]);
    if n == 1 then b[0] as int
    else if n == 2 then (b[0] as int - 0xC0) * 64 + (b[1] as int - 0x80)
    else if n == 3 then (b[0] as int - 0xE0) * 4096 + (b[1] as int - 0x80) * 64 + (b[2] as int - 0x80)
    else (b[0] as int - 0xF0) * 262144 + (b[1] as int - 0x80) * 4096 + (b[2] as int - 0x80) * 64 + (b[3] as int - 0x80)
  }

  /** Strict well-formedness of a whole buffer. */
  predicate IsValid(b: Bytes)
    decreases |b|
  {
    b == [] || (StartsWellFormed(b) && IsValid(b[SequenceLength(b[0])..]))
  }

  predicate IsHighSurrogate(u: uint16)
  {
    0xD800 <= u <= 0xDBFF
  }

  predicate IsLowSurrogate(u: uint16)
  {
    0xDC00 <= u <= 0xDFFF
  }

  /** A scalar value as UTF-16: one unit, or a surrogate pair (section 2.1 of RFC 2781). */
  function ScalarToUtf16(cp: int): (t: Text)
    requires IsScalar(cp)
    ensures cp < 0x1_0000 ==> t == [cp as uint16]
    ensures cp >= 0x1_0000 ==>
              |t| == 2 && IsHighSurrogate(t[0]) && IsLowSurrogate(t[1]) && PairScalar(t[0], t[1]) == cp
  {
    if cp < 0x1_0000 then [cp as uint16]
    else [(0xD800 + (cp - 0x1_0000) / 1024) as uint16, (0xDC00 + (cp - 0x1_0000) % 1024) as uint16]
  }

  function Decode(b: Bytes): (t: Text)
    decreases |b|
  {
    if b == [] then []
    else if StartsWellFormed(b) then ScalarToUtf16(ScalarAt(b)) + Decode(b[SequenceLength(b[0])..])
    else [REPLACEMENT] + Decode(b[1 + TrailCount(b)..])
  }

  /** The shortest UTF-8 form of a scalar value. */
  function EncodeScalar(cp: int): (b: Bytes)
    requires IsScalar(cp)
    ensures 1 <= |b| <= 4
  {
    if cp < 0x80 then [cp as uint8]
    else if cp < 0x800 then [(0xC0 + cp / 64) as uint8, (0x80 + cp % 64) as uint8]
    else if cp < 0x1_0000 then
      [(0xE0 + cp / 4096) as uint8, (0x80 + (cp / 64) % 64) as uint8, (0x80 + cp % 64) as uint8]
    else
      [(0xF0 + cp / 262144) as uint8, (0x80 + (cp / 4096) % 64) as uint8,
       (0x80 + (cp / 64) % 64) as uint8, (0x80 + cp % 64) as uint8]
  }

  /** The scalar a pair of surrogates stands for. */
  function PairScalar(hi: uint16, lo: uint16): (cp: int)
    requires IsHighSurrogate(hi) && IsLowSurrogate(lo)
    ensures IsScalar(cp) && cp >= 0x1_0000
  {
    0x1_0000 + (hi as int - 0xD800) * 1024 + (lo as int - 0xDC00)
  }

  function Encode(t: Text): (b: Bytes)
    decreases |t|
  {
    if t == [] then []
    else if |t| >= 2 && IsHighSurrogate(t[0]) && IsLowSurrogate(t[1]) then
      EncodeScalar(PairScalar(t[0], t[1])) + Encode(t[2..])
    else if IsHighSurrogate(t[0]) || IsLowSurrogate(t[0]) then
      EncodeScalar(REPLACEMENT as int) + Encode(t[1..])
    else
      EncodeScalar(t[0] as int) + Encode(t[1..])
  }

  /** The text with every unpaired surrogate replaced by U+FFFD. */
  function Sanitize(t: Text): (r: Text)
    decreases |t|
  {
    if t == [] then []
    else if |t| >= 2 && IsHighSurrogate(t[0]) && IsLowSurrogate(t[1]) then t[..2] + Sanitize(t[2..])
    else if IsHighSurrogate(t[0]) || IsLowSurrogate(t[0]) then [REPLACEMENT] + Sanitize(t[1..])
    else [t[0]] + Sanitize(t[1..])
  }

  /** An encoded scalar is one complete well-formed sequence that decodes back to it. */
  lemma EncodeScalarWellFormed(cp: int, rest: Bytes)
    requires IsScalar(cp)
    ensures var b := EncodeScalar(cp) + rest;
      StartsWellFormed(b) && SequenceLength(b[0]) == |EncodeScalar(cp)| && ScalarAt(b) == cp
  {
    if cp < 0x80 {
    } else if cp < 0x800 {
      EncodeTwoBytes(cp, rest);
    } else if cp < 0x1_0000 {
      EncodeThreeBytes(cp, rest);
    } else {
      EncodeFourBytes(cp, rest);
    }
  }

  lemma EncodeTwoBytes(cp: int, rest: Bytes)
    requires IsScalar(cp) && 0x80 <= cp < 0x800
    ensures var b := EncodeScalar(cp) + rest;
      StartsWellFormed(b) && SequenceLength(b[0]) == 2 && ScalarAt(b) == cp
  {
    assert cp == (cp / 64) * 64 + cp % 64;
  }

  lemma EncodeThreeBytes(cp: int, rest: Bytes)
    requires IsScalar(cp) && 0x800 <= cp < 0x1_0000
    ensures var b := EncodeScalar(cp) + rest;
      StartsWellFormed(b) && SequenceLength(b[0]) == 3 && ScalarAt(b) == cp
  {
    var b := EncodeScalar(cp) + rest;
    assert cp / 64 == (cp / 4096) * 64 + (cp / 64) % 64;
    assert cp == (cp / 64) * 64 + cp % 64;
    assert b[0] == 0xE0 ==> b[1] >= 0xA0;
    assert b[0] == 0xED ==> b[1] <= 0x9F;
  }

  lemma EncodeFourBytes(cp: int, rest: Bytes)
    requires IsScalar(cp) && 0x1_0000 <= cp
    ensures var b := EncodeScalar(cp) + rest;
      StartsWellFormed(b) && SequenceLength(b[0]) == 4 && ScalarAt(b) == cp
  {
    var b := EncodeScalar(cp) + rest;
    assert cp / 4096 == (cp / 262144) * 64 + (cp / 4096) % 64;
    assert cp / 64 == (cp / 4096) * 64 + (cp / 64) % 64;
    assert cp == (cp / 64) * 64 + cp % 64;
    assert b[0] == 0xF0 ==> b[1] >= 0x90;
    assert b[0] == 0xF4 ==> b[1] <= 0x8F;
  }

  /** Joining a surrogate pair and splitting the scalar again gives the pair back. */
  lemma PairRoundTrip(hi: uint16, lo: uint16)
    requires IsHighSurrogate(hi) && IsLowSurrogate(lo)
    ensures ScalarToUtf16(PairScalar(hi, lo)) == [hi, lo]
  {
    var d := PairScalar(hi, lo) - 0x1_0000;
    assert d == (hi as int - 0xD800) * 1024 + (lo as int - 0xDC00);
    assert d / 1024 == hi as int - 0xD800;
    assert d % 1024 == lo as int - 0xDC00;
  }

  /** Decoding a prefix that is one encoded scalar yields that scalar's UTF-16 form first. */
  lemma DecodeEncodedScalar(cp: int, rest: Bytes)
    requires IsScalar(cp)
    ensures Decode(EncodeScalar(cp) + rest) == ScalarToUtf16(cp) + Decode(rest)
  {
    var e := EncodeScalar(cp);
    EncodeScalarWellFormed(cp, rest);
    assert (e + rest)[|e|..] == rest;
  }

  /** What `WideCharToMultiByte(CP_UTF8)` writes, `MultiByteToWideChar(CP_UTF8)` reads back,
      apart from unpaired surrogates, which come back as U+FFFD. */
  lemma {:induction false} DecodeEncode(t: Text)
    ensures Decode(Encode(t)) == Sanitize(t)
    decreases |t|
  {
    if t == [] {
    } else if |t| >= 2 && IsHighSurrogate(t[0]) && IsLowSurrogate(t[1]) {
      var cp := PairScalar(t[0], t[1]);
      DecodeEncodedScalar(cp, Encode(t[2..]));
      DecodeEncode(t[2..]);
      PairRoundTrip(t[0], t[1]);
      assert t[..2] == [t[0], t[1]];
    } else if IsHighSurrogate(t[0]) || IsLowSurrogate(t[0]) {
      DecodeEncodedScalar(REPLACEMENT as int, Encode(t[1..]));
      DecodeEncode(t[1..]);
    } else {
      DecodeEncodedScalar(t[0] as int, Encode(t[1..]));
      DecodeEncode(t[1..]);
    }
  }

  /** The encoder only ever produces well-formed UTF-8. */
  lemma {:induction false} EncodeIsValid(t: Text)
    ensures IsValid(Encode(t))
    decreases |t|
  {
    if t == [] {
    } else {
      var cp, n :=
        if |t| >= 2 && IsHighSurrogate(t[0]) && IsLowSurrogate(t[1]) then PairScalar(t[0], t[1])
        else if IsHighSurrogate(t[0]) || IsLowSurrogate(t[0]) then REPLACEMENT as int
        else t[0] as int,
        if |t| >= 2 && IsHighSurrogate(t[0]) && IsLowSurrogate(t[1]) then 2 else 1;
      EncodeIsValid(t[n..]);
      var b := EncodeScalar(cp) + Encode(t[n..]);
      EncodeScalarWellFormed(cp, Encode(t[n..]));
      assert b[|EncodeScalar(cp)|..] == Encode(t[n..]);
      assert Encode(t) == b;
    }
  }

  /** Text without surrogates is left alone by `Sanitize`. */
  lemma {:induction false} SanitizeBmp(t: Text)
    requires forall i :: 0 <= i < |t| ==> !IsHighSurrogate(t[i]) && !IsLowSurrogate(t[i])
    ensures Sanitize(t) == t
    decreases |t|
  {
    if t != [] {
      SanitizeBmp(t[1..]);
    }
  }

  /** The lenient decoder produces at least one unit from any non-empty input. */
  lemma DecodeNonEmpty(b: Bytes)
    requires |b| > 0
    ensures |Decode(b)| > 0
  {
  }
}

=== FILE: win32.dfy ===
/**
 * Machine types and small runtime rules shared by the Win32 programs:
 * fixed-width unsigned integers, the Option/Result wrappers that stand for
 * the C functions' BOOL/error returns, DWORD wrap-around, and the ASCII
 * case folding that the C runtime's `_wcsicmp` family applies in the
 * default "C" locale.
 */
module Win32 {

  newtype uint8 = x: int | 0 <= x < 0x100
  newtype uint16 = x: int | 0 <= x < 0x1_0000

  /** Bytes and WCHAR code units. */
  type Bytes = seq<uint8>
  type Text = seq<uint16>

  datatype Option<T> = None | Some(value: T)

  datatype Result<T, E> = Ok(value: T) | Err(error: E)
  {
    predicate IsOk() { Ok? }
  }

  const DWORD_RANGE: int := 0x1_0000_0000

  /** The range of a 32-bit `int`. */
  const INT_MIN: int := -0x8000_0000
  const INT_MAX: int := 0x7FFF_FFFF

  /** A mathematical integer stored into a DWORD (C unsigned conversion). */
  function ToDword(x: int): (r: int)
    ensures 0 <= r < DWORD_RANGE
    ensures (r - x) % DWORD_RANGE == 0
  {
    x % DWORD_RANGE
  }

  /** A value already in the DWORD range is stored unchanged. */
  lemma ToDwordInRange(x: int)
    requires 0 <= x < DWORD_RANGE
    ensures ToDword(x) == x
  {
  }

  /** A DWORD reinterpreted as a two's-complement `int`. */
  function DwordAsInt(x: int): (r: int)
    requires 0 <= x < DWORD_RANGE
    ensures INT_MIN <= r <= INT_MAX
    ensures ToDword(r) == x
  {
    if x < 0x8000_0000 then x else x - DWORD_RANGE
  }

  /** Folds the letters A-Z of a code point to lower case; all else is kept. */
  function LowerAscii(c: int): (r: int)
    ensures 'A' as int <= c <= 'Z' as int ==> r == c + 32
    ensures !('A' as int <= c <= 'Z' as int) ==> r == c
  {
    if 'A' as int <= c <= 'Z' as int then c + 32 else c
  }

  /** A string with A-Z folded to lower case, as code points. */
  function FoldCase(s: string): (r: seq<int>)
    ensures |r| == |s|
    ensures forall i :: 0 <= i < |s| ==> r[i] == LowerAscii(s[i] as int)
  {
    seq(|s|, i requires 0 <= i < |s| => LowerAscii(s[i] as int))
  }

  /** `_wcsicmp(a, b) == 0` on NUL-free strings: equal once A-Z are folded. */
  predicate EqualsIgnoreCase(a: string, b: string)
  {
    FoldCase(a) == FoldCase(b)
  }

  /**
   * Concatenation is associative.  Stated once so that proofs over large
   * recursive definitions need not rediscover it by extensionality.
   */
  lemma AppendAssociative<T>(a: seq<T>, b: seq<T>, c: seq<T>)
    ensures a + (b + c) == (a + b) + c
  {
  }
}
